=== FILE: README.md ===
# Thermor thermostat firmware — a Dafny model

This project models the control core of an ESP32 electric-radiator thermostat and proves properties of it. Each of its parts is a pure function over immutable records, with time passed in as a parameter:

- **Heating loop** (`ThermorZigbeeController/firmware/src/main.c`). Once a second it:
  - reads the user interface's target temperature;
  - runs the PID controller;
  - turns its output into a power percentage;
  - writes that percentage to every triac channel;
  - reports the heating flag and the wattage.

  The sensor task averages the valid readings of each second.
- **Triac channel table** (`triac_control.c`):
  - up to three phase-controlled channels;
  - the mapping between power percentage and firing delay;
  - the setters, getters and enable calls;
  - the wattage estimate.
- **PID controller** (`pid_controller.c`):
  - a sample-time gate;
  - derivative on measurement;
  - integral clamping and back-calculation anti-windup.
- **User interface** (`thermor_ui.c`):
  - modes, the menu and the set-temperature editor;
  - the child lock;
  - the weekly schedule lookup;
  - the periodic target update.
- **Button matrix** (`button_matrix.c`):
  - the 2×3 matrix map;
  - the debounce counter;
  - the press, release, long-press and repeat state machine of each button.
- **HT1621 segment-LCD driver** (`ht1621_driver.c`):
  - the three-wire protocol, as a trace of pin writes;
  - the controller's reading of that trace, following the command summary of the HT1621 datasheet;
  - the driver's 16-byte shadow of display RAM;
  - the number, text and icon encoders.
- **Temperature sensor** (`temperature_sensor.c`):
  - init defaults;
  - the plausibility check with its fallback to the last good value;
  - the moving-average ring buffer.
- **Legacy controller** (`firmware/main/thermor_zigbee.c`):
  - the earlier on/off hysteresis controller over one global configuration record;
  - its event dispatch;
  - its range-checked setters.

Modules follow the source files: `Common`, `TriacControl`, `PidController`, `ControlLoop`, `ThermorUi`, `ButtonMatrix`, `Ht1621`, `TemperatureSensor`, `LegacyController`.

Floats are modelled as `real`. C integer widths are subset types (`uint8`, `uint16`, `uint32`), and every truncation or wrap-around is written out. The C library's `cos` and `acos` are passed in as functions, known only to range over [-1, 1] and [0, π].

In these places the model follows the code as written:
- `pid_controller_set_tunings` does not re-clamp the integral accumulator. Only `set_output_limits` does (`pid_controller.c:82-103`).
- `get_half_cycle_us` treats every frequency other than 60 Hz as 50 Hz. Nothing rejects it (`triac_control.c:26-28`).
- Between 0 % and 100 %, the firing delay follows `(1 + cos((1 - p/100)·π)) / 2` of the half cycle. This rises with power, unlike the two endpoints. Near 0 % it also falls below the 100 µs minimum (1 % gives about 2 µs at 50 Hz), so the model bounds it only by the half cycle.
- The control loop truncates the PID output to an integer percentage (`(uint8_t)`); it does not round it.
- The PID's sample time equals the tick period (`main.c:273`, `main.c:91`), and the PID gates on its own, later clock read (`pid_controller.c:15-20`). So a tick can find the PID 1 ms short of its sample time; it then commands 0 % for that second (`ControlLoop.SkewedTickIsGated`).
- Only an open window (with detection enabled) resets the PID. An implausible sensor reading does not; the sensor driver answers it with its last good value instead.

## Model

| member | source | states |
|---|---|---|
| TriacControl.HalfCycleUs | ThermorZigbeeController/firmware/src/triac_control.c:26-28 | half a mains period is 8333 µs exactly at 60 Hz and 10000 µs for every other frequency |
| TriacControl.Clamp100 | ThermorZigbeeController/firmware/src/triac_control.c:196-199 | a power above 100 % is stored as 100 %, anything else unchanged |
| TriacControl.PowerToFiringDelay | ThermorZigbeeController/firmware/src/triac_control.c:161-177 | full power fires at the 100 µs minimum, zero power waits the whole half cycle, and no delay exceeds the half cycle whatever `cos` returns |
| TriacControl.FiringDelayToPower | ThermorZigbeeController/firmware/src/triac_control.c:179-194 | read-back power is at most 100 %; a delay of a half cycle or more reads as 0 %, one of 100 µs or less as 100 % |
| TriacControl.EndpointRoundTrip | ThermorZigbeeController/firmware/src/triac_control.c:161-194 | at 0 % and at 100 % or more, converting power to delay and back yields the clamped power |
| TriacControl.Init | ThermorZigbeeController/firmware/src/triac_control.c:66-135 | a channel count of 0 or above 3 is refused with INVALID_ARG, a failed mutex with NO_MEM; on success every channel is at 0 %, a full half-cycle delay, disabled |
| TriacControl.InitValid | ThermorZigbeeController/firmware/src/triac_control.c:124-129 | the initial table satisfies the channel invariant: power at most 100, enabled only when powered, delay consistent with power |
| TriacControl.ApplyPower | ThermorZigbeeController/firmware/src/triac_control.c:204-213 | after storing a power, a channel is enabled exactly when the power is positive, and its delay matches its power |
| TriacControl.SetPower | ThermorZigbeeController/firmware/src/triac_control.c:196-222 | every configured channel gets the clamped power, its delay and `enabled == power > 0`; unconfigured channels are untouched; the invariant is preserved |
| TriacControl.SetTriacPower | ThermorZigbeeController/firmware/src/triac_control.c:224-248 | an index beyond the configured channels is refused with no change; otherwise only that channel changes, as in `SetPower` |
| TriacControl.GetPower | ThermorZigbeeController/firmware/src/triac_control.c:250-255 | the level of channel 0, the same as `get_triac_power(0)`, since channel 0 is always configured |
| TriacControl.GetTriacPower | ThermorZigbeeController/firmware/src/triac_control.c:257-266 | an unconfigured index reads as 0 |
| TriacControl.ReadBack | ThermorZigbeeController/firmware/src/triac_control.c:196-266 | the getters return the clamped power the setters stored, and setting one channel leaves the others' readings unchanged |
| TriacControl.ApplyEnable | ThermorZigbeeController/firmware/src/triac_control.c:271-278 | a channel is enabled only when asked and powered; power and delay are never touched |
| TriacControl.Enable | ThermorZigbeeController/firmware/src/triac_control.c:268-282 | every configured channel follows `on && power > 0`; powers, delays and unconfigured channels are kept; enabled-implies-powered is preserved |
| TriacControl.EnableTriac | ThermorZigbeeController/firmware/src/triac_control.c:284-300 | an out-of-range index is refused with no change; otherwise only that channel's flag changes |
| TriacControl.EnablePreservesValid | ThermorZigbeeController/firmware/src/triac_control.c:268-300 | neither enable call can break the channel invariant |
| TriacControl.IsEnabled | ThermorZigbeeController/firmware/src/triac_control.c:302-315 | true exactly when some configured channel is enabled |
| TriacControl.TotalWattsBound | ThermorZigbeeController/firmware/src/triac_control.c:320-325 | with every power at most 100 %, n channels together contribute at most n times the rating |
| TriacControl.GetActualPowerWatts | ThermorZigbeeController/firmware/src/triac_control.c:317-332 | the summed watts of the enabled channels divided by the channel count, truncated to 16 bits; never above the rating when powers are at most 100 % |
| PidController.Init | ThermorZigbeeController/firmware/src/pid_controller.c:5-12 | the configuration as given, a zero history and the first-run flag set |
| PidController.ClampIntegral | ThermorZigbeeController/firmware/src/pid_controller.c:34-40 | with positive `ki` and non-negative `output_max` the integral ends within ±output_max/ki and is unchanged when already inside; with `ki == 0` it is unchanged |
| PidController.BackCalculate | ThermorZigbeeController/firmware/src/pid_controller.c:51-64 | with `ki != 0` the recalculated integral makes P + I + D land exactly on the saturated bound |
| PidController.Compute | ThermorZigbeeController/firmware/src/pid_controller.c:14-73 | a gated call returns 0.0 and changes nothing; otherwise the output lies within the output limits and the history records this error, input and time |
| PidController.ComputeBalances | ThermorZigbeeController/firmware/src/pid_controller.c:42-72 | after a real evaluation with `ki != 0` the output equals P + ki * (stored integral) + D, also on saturation; without saturation the output is the unclamped sum and the accumulated integral is kept |
| PidController.Evaluate | ThermorZigbeeController/firmware/src/pid_controller.c:48-72 | the output lies within ordered limits; with `ki != 0` it always equals P + ki * I + D over the integral left behind; an in-range sum is returned unchanged with its integral; the controller records error, input and time and clears the first-run flag |
| PidController.Reset | ThermorZigbeeController/firmware/src/pid_controller.c:75-80 | history cleared and first-run set, configuration and last time kept |
| PidController.ResetBehavesLikeInit | ThermorZigbeeController/firmware/src/pid_controller.c:75-80 | after a reset the next call is never gated and computes exactly what a freshly initialised controller would |
| PidController.FirstRunIgnoresHistory | ThermorZigbeeController/firmware/src/pid_controller.c:22-46 | on a first run dt is the sample time and the derivative is zero, so the previous measurement plays no part (no derivative kick) |
| PidController.FirstEvaluationExample | ThermorZigbeeController/firmware/src/main.c:267-274 | with the firmware's gains, a first evaluation at 21 °C target and 18 °C measured commands 76.5 % |
| PidController.SetTunings | ThermorZigbeeController/firmware/src/pid_controller.c:82-88 | a negative gain rejects the whole call; otherwise the three gains are replaced and nothing else changes |
| PidController.GetTunings | ThermorZigbeeController/firmware/src/pid_controller.c:111-115 | the three gains as stored; writing them back with `set_tunings` changes nothing |
| PidController.TuningsReadBack | ThermorZigbeeController/firmware/src/pid_controller.c:82-115 | accepted gains read back as written; a rejected call leaves the old gains readable |
| PidController.SetOutputLimits | ThermorZigbeeController/firmware/src/pid_controller.c:90-103 | `min >= max` is ignored; otherwise the limits are stored and the integral is clamped to the new ±max/ki |
| PidController.SetSampleTime | ThermorZigbeeController/firmware/src/pid_controller.c:105-109 | a zero period is ignored, so a positive sample time stays positive |
| ControlLoop.PercentToWatts | ThermorZigbeeController/firmware/src/main.c:118 | the wattage is percent × 2000 / 100, at most 2000 W for at most 100 %, and positive exactly when the percentage is |
| ControlLoop.ControlTick | ThermorZigbeeController/firmware/src/main.c:88-129 | the task's clock reading gates the tick and the PID's own later reading gates the PID; nothing happens within a second of the last tick; an open window (with detection on) resets the PID and commands 0 %; a target of 0 or less commands 0 % without touching the PID; otherwise the truncated PID output (saturated outside 0..255, see Left out) goes to every channel with its wattage; the heating flag follows the power |
| ControlLoop.Target | ThermorZigbeeController/firmware/src/main.c:95 | the target in degrees is positive exactly when the UI's half-degree target is |
| ControlLoop.WattsWithinRating | ThermorZigbeeController/firmware/src/main.c:106-119 | with PID limits inside 0..100 the commanded power never exceeds 100 % and the reported wattage never exceeds the 2000 W rating |
| ControlLoop.GatedPidCommandsZero | ThermorZigbeeController/firmware/src/main.c:104-115 | a PID call that hits its sample-time gate makes the tick command 0 % and report no heating |
| ControlLoop.PidNeverGatedAtControlRate | ThermorZigbeeController/firmware/src/main.c:88-110 | with a sample time no longer than the one-second tick, a tick that reaches the PID gets a real evaluation provided the PID's stamp ran ahead of the previous tick by no more than the difference of the two periods (zero for the firmware's settings) |
| ControlLoop.PidStampRunsAhead | ThermorZigbeeController/firmware/src/pid_controller.c:15-70 | a real evaluation stamps the PID with its own clock reading, so a PID read 1 ms after the task's leaves the stamp 1 ms ahead of the tick, in a state the loop still runs from |
| ControlLoop.SkewedTickIsGated | ThermorZigbeeController/firmware/src/pid_controller.c:15-20 | with the firmware's 1000 ms sample time and a stamp 1 ms ahead, the next tick exactly one period later hits the gate and commands 0 %, reports 0 W and clears the heating flag, whatever the target |
| ControlLoop.StartupReady | ThermorZigbeeController/firmware/src/main.c:253-275 | the start-up PID and triac table satisfy the loop's standing assumptions, and the 1000 ms sample time is no longer than the tick period (equal to it, so there is no slack for a skewed stamp) |
| ControlLoop.SensorStep | ThermorZigbeeController/firmware/src/main.c:161-183 | readings at or below -50 are ignored; an average is reported exactly when a second has passed and there is at least one sample, and then the sums restart |
| ControlLoop.SensorStepAverages | ThermorZigbeeController/firmware/src/main.c:164-177 | the reported value is the mean of exactly the valid readings since the previous report |
| ControlLoop.ReportTemperature | ThermorZigbeeController/firmware/src/main.c:179 | a report sets only the UI's measured temperature; no report changes nothing |
| ThermorUi.ModeOf | ThermorZigbeeController/firmware/src/thermor_ui.c:147 | every mode index below MODE_MAX names the mode whose index it is |
| ThermorUi.ModeIndexRoundTrip | ThermorZigbeeController/firmware/src/thermor_ui.c:147 | mode to index and back is the identity |
| ThermorUi.NextMode | ThermorZigbeeController/firmware/src/thermor_ui.c:147 | the MODE button advances the mode index by one modulo the five modes |
| ThermorUi.NextModeCycles | ThermorZigbeeController/firmware/src/thermor_ui.c:147 | five presses return to the starting mode, passing through all five modes |
| ThermorUi.GetModeName | ThermorZigbeeController/firmware/src/thermor_ui.c:488-493 | an index beyond the modes is "UNKNOWN" and no valid mode is called that |
| ThermorUi.Init | ThermorZigbeeController/firmware/src/thermor_ui.c:31-80 | comfort 20, eco 17, frost 7 degrees, comfort mode, NORMAL, unlocked, and the default day of comfort, eco, comfort, eco on every weekday |
| ThermorUi.MenuNext | ThermorZigbeeController/firmware/src/thermor_ui.c:349-351 | the next menu item, wrapping from the last to EXIT |
| ThermorUi.MenuPrev | ThermorZigbeeController/firmware/src/thermor_ui.c:353-359 | the previous menu item, wrapping from EXIT to the last |
| ThermorUi.MenuNextPrevInverse | ThermorZigbeeController/firmware/src/thermor_ui.c:349-359 | next and previous undo each other on every item |
| ThermorUi.TempIncrease | ThermorZigbeeController/firmware/src/thermor_ui.c:402-407 | one half-degree step up, never above 30 degrees |
| ThermorUi.TempDecrease | ThermorZigbeeController/firmware/src/thermor_ui.c:409-414 | one half-degree step down, never below 5 degrees |
| ThermorUi.TempStepsInverse | ThermorZigbeeController/firmware/src/thermor_ui.c:402-414 | inside the limits a step up and a step down undo each other, and both stay in range |
| ThermorUi.EnterMenu | ThermorZigbeeController/firmware/src/thermor_ui.c:338-342 | the menu opens on EXIT |
| ThermorUi.ExitMenu | ThermorZigbeeController/firmware/src/thermor_ui.c:344-347 | back to NORMAL, nothing else changes |
| ThermorUi.MenuSelect | ThermorZigbeeController/firmware/src/thermor_ui.c:361-400 | EXIT leaves the menu; the two temperature items open the editor on the chosen setpoint; the three toggles flip their flag; the unhandled items do nothing |
| ThermorUi.TempConfirm | ThermorZigbeeController/firmware/src/thermor_ui.c:416-425 | the edited value is stored as comfort (cursor 0) or eco (otherwise), and the UI returns to the menu |
| ThermorUi.TempCancel | ThermorZigbeeController/firmware/src/thermor_ui.c:427-429 | back to the menu, nothing stored |
| ThermorUi.AdjustComfort | ThermorZigbeeController/firmware/src/thermor_ui.c:154-176 | PLUS/MINUS in NORMAL move the comfort setpoint one clamped step, and only in comfort mode |
| ThermorUi.Dispatch | ThermorZigbeeController/firmware/src/thermor_ui.c:140-261 | every button in every state keeps the UI's invariants |
| ThermorUi.HandleButton | ThermorZigbeeController/firmware/src/thermor_ui.c:121-262 | the activity time is stamped; with the child lock set only LOCK long-press acts (it locks the panel); a locked panel only unlocks on LOCK long-press; MODE press cycles the mode in NORMAL |
| ThermorUi.IsLocked | ThermorZigbeeController/firmware/src/thermor_ui.c:495-497 | locked exactly when the UI is in the LOCKED state or the child lock is set; the child lock alone is enough |
| ThermorUi.ChildLockIsPermanent | ThermorZigbeeController/firmware/src/thermor_ui.c:121-138 | once the child lock is set, no button changes the configuration, so it is never cleared again |
| ThermorUi.LockedPanelKeepsConfig | ThermorZigbeeController/firmware/src/thermor_ui.c:121-138 | while the panel reads as locked, buttons never change the configuration, and only LOCK long-press can make it read unlocked |
| ThermorUi.LatestSlot | ThermorZigbeeController/firmware/src/thermor_ui.c:444-457 | the found slot is in use, has started, and is the last such slot; none means no slot qualifies |
| ThermorUi.ModeSetpoint | ThermorZigbeeController/firmware/src/thermor_ui.c:459-469 | comfort and frost map to their setpoints, everything else to eco |
| ThermorUi.ScheduledTarget | ThermorZigbeeController/firmware/src/thermor_ui.c:436-469 | the setpoint of the latest started slot of the current day, eco when none has started, always within 5-30 degrees |
| ThermorUi.GetTargetTemperature | ThermorZigbeeController/firmware/src/thermor_ui.c:431-470 | outside PROG the stored target; in PROG the scheduled setpoint |
| ThermorUi.DefaultScheduleExample | ThermorZigbeeController/firmware/src/thermor_ui.c:50-75 | with the default schedule, Monday 7:30 in PROG asks for comfort and 12:00 for eco |
| ThermorUi.ModeTarget | ThermorZigbeeController/firmware/src/thermor_ui.c:98-115 | OFF targets 0; comfort, eco and frost their setpoints; PROG the schedule; every mode but OFF a target within range |
| ThermorUi.Update | ThermorZigbeeController/firmware/src/thermor_ui.c:82-115 | the menu closes after 30 s without activity; the blink flag toggles after 500 ms; the target follows the mode; nothing else in the configuration changes |
| ThermorUi.UpdateTargetFollowsMode | ThermorZigbeeController/firmware/src/thermor_ui.c:98-115 | after an update the control loop reads 0 in OFF, the comfort setpoint in comfort mode and an in-range target in every other mode |
| ThermorUi.SetTemperature | ThermorZigbeeController/firmware/src/thermor_ui.c:472-474 | only the measured temperature changes |
| ThermorUi.SetHeatingState | ThermorZigbeeController/firmware/src/thermor_ui.c:476-478 | only the heating flag changes |
| ThermorUi.SetPresence | ThermorZigbeeController/firmware/src/thermor_ui.c:480-482 | only the presence flag changes |
| ThermorUi.SetWindowState | ThermorZigbeeController/firmware/src/thermor_ui.c:484-486 | only the window flag changes |
| ButtonMatrix.MatrixMap | ThermorZigbeeController/firmware/src/button_matrix.c:22-26 | the button at (row, col) has id `row * 3 + col` |
| ButtonMatrix.MatrixMapBijective | ThermorZigbeeController/firmware/src/button_matrix.c:22-26 | every button sits at exactly one matrix position |
| ButtonMatrix.WithDefaults | ThermorZigbeeController/firmware/src/button_matrix.c:43-46 | each zero timing is replaced by its header default (50, 1000, 500, 100 ms); all four end positive |
| ButtonMatrix.Init | ThermorZigbeeController/firmware/src/button_matrix.c:28-91 | a second initialisation is refused with INVALID_STATE, a missing queue with INVALID_ARG; success clears every button, enables repeat on PLUS and MINUS and marks the driver initialised |
| ButtonMatrix.Debounce | ThermorZigbeeController/firmware/src/button_matrix.c:160-169 | the counter rises while closed up to 255 and falls while open down to 0 |
| ButtonMatrix.ScanButton | ThermorZigbeeController/firmware/src/button_matrix.c:156-209 | PRESS exactly when the debounced state rises, RELEASE exactly when it falls, LONG_PRESS once after the long-press time, REPEAT only after a long press with repeat enabled and the interval elapsed |
| ButtonMatrix.RepeatInterval | ThermorZigbeeController/firmware/src/button_matrix.c:201-203 | the repeat rate once held longer than long-press plus repeat delay, else the repeat delay |
| ButtonMatrix.Run | ThermorZigbeeController/firmware/src/button_matrix.c:143-217 | a run of scans emits at most one event per scan |
| ButtonMatrix.RunLegal | ThermorZigbeeController/firmware/src/button_matrix.c:171-209 | however the contact bounces, one button's events alternate PRESS ... RELEASE, with at most one LONG_PRESS per press and REPEATs only after it |
| ButtonMatrix.IsPressed | ThermorZigbeeController/firmware/src/button_matrix.c:220-225 | false for an out-of-range id, else the debounced state |
| ButtonMatrix.GetName | ThermorZigbeeController/firmware/src/button_matrix.c:239-244 | "UNKNOWN" exactly for an out-of-range id |
| ButtonMatrix.EnableRepeat | ThermorZigbeeController/firmware/src/button_matrix.c:246-250 | only the chosen button's repeat flag changes; an out-of-range id changes nothing |
| ButtonMatrix.StepButtons | ThermorZigbeeController/firmware/src/button_matrix.c:146-213 | each of the six buttons is stepped once with the contact read at its matrix position, and the event each step produced is recorded per button |
| ButtonMatrix.CollectEvents | ThermorZigbeeController/firmware/src/button_matrix.c:146-213 | the queued events are exactly the buttons' events in button order: each names the button whose outcome it is, the buttons strictly increase, and none is skipped |
| ButtonMatrix.Scan | ThermorZigbeeController/firmware/src/button_matrix.c:144-214 | each button is stepped once with the contact at its matrix position; every queued event is what its button's step produced, the events follow scan order with at most one per button, and every step that produced an event has it queued |
| Ht1621.WriteBits | ThermorZigbeeController/firmware/src/ht1621_driver.c:96-108 | one clock pulse (WR low, data, WR high) per bit, for `n` bits; `Ht1621.WriteBitsLatches` states which bits they latch |
| Ht1621.WriteBitsLatches | ThermorZigbeeController/firmware/src/ht1621_driver.c:96-108 | with CS low, `write_bits(d, n)` latches the n low bits of d most significant first and completes no frame |
| Ht1621.SerialiseLatches | ThermorZigbeeController/firmware/src/ht1621_driver.c:110-115 | consecutive `write_bits` calls with CS low complete no frame and leave the controller holding all their bits in order |
| Ht1621.ValueOfBits | ThermorZigbeeController/firmware/src/ht1621_driver.c:97-99 | reading the latched bits back as a number recovers d modulo 2^n |
| Ht1621.TransferDelivers | ThermorZigbeeController/firmware/src/ht1621_driver.c:110-115 | a transfer between CS falling and rising delivers exactly one frame, the concatenated fields, and leaves CS high |
| Ht1621.NibblesRoundTrip | ThermorZigbeeController/firmware/src/ht1621_driver.c:182-184 | 4-bit fields read back as their values modulo 16 |
| Ht1621.DecodeWrite | ThermorZigbeeController/firmware/src/ht1621_driver.c:161-166 | a 101 frame with a 6-bit address and nibbles reads as a write of those nibbles from that address |
| Ht1621.SendCmdAsWrittenShifts | ThermorZigbeeController/firmware/src/ht1621_driver.c:110-115 | the source's command frame is 100 followed by the code in 9 bits, which the controller reads as code / 2 |
| Ht1621.InitCommandsArriveShifted | ThermorZigbeeController/firmware/src/ht1621_driver.c:146-149 | SYS_EN arrives as SYS_DIS and LCD_ON as SYS_EN |
| Ht1621.SendCmdDelivers | ThermorZigbeeController/firmware/src/ht1621_driver.c:110-115 | the corrected frame (code in 8 bits, then a don't-care bit) reads as exactly the code sent |
| Ht1621.SendCommand | ThermorZigbeeController/firmware/src/ht1621_driver.c:157-159 | the corrected command (see Findings): the 8-bit code frame goes on the bus and the shadow RAM is left alone |
| Ht1621.SendCommandAsWritten | ThermorZigbeeController/firmware/src/ht1621_driver.c:157-159 | the command as the source sends it: the 9-bit-field frame goes on the bus, the shadow RAM is untouched, and for every code but 0 the bus differs from the corrected command's |
| Ht1621.AsWrittenCommandDiffers | ThermorZigbeeController/firmware/src/ht1621_driver.c:110-115 | for every non-zero code the as-written and corrected command frames differ, since the controller reads `cmd / 2` from one and `cmd` from the other |
| Ht1621.WriteData | ThermorZigbeeController/firmware/src/ht1621_driver.c:161-174 | cell `address` of the shadow becomes the low nibble of the data, every other cell is kept, and addresses from 32 up leave the shadow unchanged |
| Ht1621.WriteDataDelivers | ThermorZigbeeController/firmware/src/ht1621_driver.c:161-166 | on the wire `write_data` is one frame, read as a write of `data % 16` at `address % 64` |
| Ht1621.WriteDataKeepsMirror | ThermorZigbeeController/firmware/src/ht1621_driver.c:161-174 | if the shadow mirrored the controller's RAM before a `write_data`, it still does after it |
| Ht1621.WriteAllAsWritten | ThermorZigbeeController/firmware/src/ht1621_driver.c:176-190 | the source sends one nibble per byte for up to 32 bytes while copying up to 16 whole bytes into the shadow |
| Ht1621.WriteAllAsWrittenDelivers | ThermorZigbeeController/firmware/src/ht1621_driver.c:176-186 | the controller receives the low nibble of each of the first min(length, 32) bytes, from cell 0 |
| Ht1621.Split | ThermorZigbeeController/firmware/src/ht1621_driver.c:169-173 | a shadow byte holds the even cell in its low nibble and the odd cell in its high nibble |
| Ht1621.SplitIsNibbles | ThermorZigbeeController/firmware/src/ht1621_driver.c:169-173 | every split cell already fits in 4 bits |
| Ht1621.WriteAll | ThermorZigbeeController/firmware/src/ht1621_driver.c:176-190 | corrected: both nibbles of each of the first min(length, 16) bytes are sent, and the shadow takes those bytes |
| Ht1621.WriteAllDelivers | ThermorZigbeeController/firmware/src/ht1621_driver.c:176-186 | the controller receives both nibbles of every copied byte, low first, from cell 0 |
| Ht1621.WriteAllKeepsMirror | ThermorZigbeeController/firmware/src/ht1621_driver.c:176-190 | the corrected bulk write keeps the shadow a mirror of the controller's RAM |
| Ht1621.Clear | ThermorZigbeeController/firmware/src/ht1621_driver.c:192-196 | the shadow is all zero after a clear |
| Ht1621.ClearBlanks | ThermorZigbeeController/firmware/src/ht1621_driver.c:192-196 | after a clear the controller's first 32 cells are all zero and the shadow mirrors them |
| Ht1621.ClearTraceUnchanged | ThermorZigbeeController/firmware/src/ht1621_driver.c:192-196 | for an all-zero buffer the source's bulk write and the corrected one put the same bits on the wire |
| Ht1621.ClampTenths | ThermorZigbeeController/firmware/src/ht1621_driver.c:199-204 | the displayed value is limited to -9.9 .. 99.9, i.e. -99 .. 999 tenths |
| Ht1621.WithDp | ThermorZigbeeController/firmware/src/ht1621_driver.c:226-228 | adding the decimal point sets the DP bit and keeps the seven segments |
| Ht1621.PatternsLeaveDpClear | ThermorZigbeeController/firmware/src/ht1621_driver.c:13-60 | no digit or letter pattern uses the DP bit |
| Ht1621.NumberSegments | ThermorZigbeeController/firmware/src/ht1621_driver.c:198-230 | three positions are used and the rest are blank; the DP bit is set on the units position exactly when decimals are asked for; the tens position is a minus sign exactly for negative values |
| Ht1621.DigitOf | ThermorZigbeeController/firmware/src/ht1621_driver.c:13-23 | decoding a segment pattern finds the digit with that pattern, or reports that none has it |
| Ht1621.DigitPatternsDistinct | ThermorZigbeeController/firmware/src/ht1621_driver.c:13-23 | the ten decimal digit patterns are pairwise distinct |
| Ht1621.DigitRoundTrip | ThermorZigbeeController/firmware/src/ht1621_driver.c:13-23 | each decimal digit's pattern decodes back to that digit |
| Ht1621.NumberDigits | ThermorZigbeeController/firmware/src/ht1621_driver.c:205-229 | the units and tenths positions show the digits of the clamped magnitude, and the tens position shows its hundreds digit, or the minus sign for a negative value |
| Ht1621.NumberReadsBack | ThermorZigbeeController/firmware/src/ht1621_driver.c:198-230 | reading the three encoded positions back gives the clamped value in tenths, sign included |
| Ht1621.DisplayNumber | ThermorZigbeeController/firmware/src/ht1621_driver.c:198-233 | the corrected display (see Findings): the shadow holds the encoded number and the bus carries the corrected bulk write of it |
| Ht1621.DisplayNumberAsWritten | ThermorZigbeeController/firmware/src/ht1621_driver.c:198-233 | the display as the source drives it: the same shadow RAM as the corrected display, with only the low nibble of each of the 32 bytes on the bus |
| Ht1621.AsWrittenLosesMinusSign | ThermorZigbeeController/firmware/src/ht1621_driver.c:218-232 | with the source's bulk write, -0.5 leaves a shadow holding the minus sign that the controller's RAM does not, so the mirror is lost |
| Ht1621.Glyph | ThermorZigbeeController/firmware/src/ht1621_driver.c:240-255 | no character's pattern uses the DP bit |
| Ht1621.GlyphFacts | ThermorZigbeeController/firmware/src/ht1621_driver.c:243-248 | lower-case letters look like upper-case ones, and a digit character's pattern decodes to that digit |
| Ht1621.Render | ThermorZigbeeController/firmware/src/ht1621_driver.c:239-262 | rendering never shrinks what is already shown and fills at most four positions |
| Ht1621.Glyphs | ThermorZigbeeController/firmware/src/ht1621_driver.c:240-258 | one pattern per character |
| Ht1621.PlainTextShowsFirstFour | ThermorZigbeeController/firmware/src/ht1621_driver.c:239-258 | text without dots shows the patterns of its first four characters |
| Ht1621.PointJoinsPrevious | ThermorZigbeeController/firmware/src/ht1621_driver.c:257-261 | a '.' after up to three characters sets DP on the previous position; after four it is ignored |
| Ht1621.GlyphsLast | ThermorZigbeeController/firmware/src/ht1621_driver.c:240-258 | the patterns of a text are those of all but its last character followed by the last one's |
| Ht1621.RenderPrefix | ThermorZigbeeController/firmware/src/ht1621_driver.c:239-262 | a dot-free prefix of the text is rendered position by position before the rest |
| Ht1621.TextSegments | ThermorZigbeeController/firmware/src/ht1621_driver.c:235-262 | only the first four positions can be lit |
| Ht1621.DisplayText | ThermorZigbeeController/firmware/src/ht1621_driver.c:235-265 | the corrected display (see Findings): the shadow holds the rendered text and the bus carries the corrected bulk write of it |
| Ht1621.DisplayTextAsWritten | ThermorZigbeeController/firmware/src/ht1621_driver.c:235-265 | the text display as the source drives it: the same shadow RAM as the corrected display, with only the low nibble of each of the 32 bytes on the bus |
| Ht1621.Ctz | ThermorZigbeeController/firmware/src/ht1621_driver.c:269 | the result is the lowest set bit of a non-zero byte |
| Ht1621.CtzPow2 | ThermorZigbeeController/firmware/src/ht1621_driver.c:269 | the lowest set bit of 1 << i is i |
| Ht1621.IconAddress | ThermorZigbeeController/firmware/src/ht1621_driver.c:269-271 | an icon lives at cell 24 + its lowest set bit, always below 32 for a byte |
| Ht1621.SetIcon | ThermorZigbeeController/firmware/src/ht1621_driver.c:267-280 | the icon's cell becomes 0xF or 0 as the state asks, every other cell is kept, and one `write_data` frame goes out |
| Ht1621.IconBitAddress | ThermorZigbeeController/firmware/src/ht1621_driver.c:282-285 | icon 1 << i lives at cell 24 + i |
| Ht1621.IconsFrom | ThermorZigbeeController/firmware/src/ht1621_driver.c:283-285 | from icon i on, cell 24 + j shows bit j of the mask and the cells below 24 + i are untouched |
| Ht1621.SetAllIcons | ThermorZigbeeController/firmware/src/ht1621_driver.c:282-286 | cell 24 + i is lit exactly when bit i of the mask is set; cells 0-23 are untouched |
| Ht1621.IconFrame | ThermorZigbeeController/firmware/src/ht1621_driver.c:161-166 | one icon write is one frame, read as a write of its nibble, and leaves CS high |
| Ht1621.IconOps | ThermorZigbeeController/firmware/src/ht1621_driver.c:282-286 | the intended writes are 0xF or 0 to cells 24 + i, one per icon bit, in order |
| Ht1621.IconBusStep | ThermorZigbeeController/firmware/src/ht1621_driver.c:283-285 | the frames of icons i.. are icon i's write followed by the frames of icons i+1.. |
| Ht1621.IconBusFrames | ThermorZigbeeController/firmware/src/ht1621_driver.c:282-286 | on the wire `set_all_icons` is eight `write_data` frames, the i-th writing 0xF or 0 to cell 24 + i as bit i is set or not |
| TemperatureSensor.Init | ThermorZigbeeController/firmware/src/temperature_sensor.c:17-58 | the fallback is 20 °C, filtering is off, the configuration is copied, and an all-zero calibration becomes scale 1 |
| TemperatureSensor.Deinit | ThermorZigbeeController/firmware/src/temperature_sensor.c:60-72 | the buffer is released and the sensor reads as uninitialised; size, index and flag are kept |
| TemperatureSensor.Measured | ThermorZigbeeController/firmware/src/temperature_sensor.c:153-178 | NTC and LM35 readings are calibrated as value × scale + offset; the unimplemented PT1000 and DS18B20 report a plausible 20 °C |
| TemperatureSensor.Read | ThermorZigbeeController/firmware/src/temperature_sensor.c:145-190 | an uninitialised sensor reads -273.15; a plausible reading in [-50, 150] is returned and remembered with its time; an implausible one returns the last good value and changes nothing; a valid sensor always returns a plausible value |
| TemperatureSensor.Calibrate | ThermorZigbeeController/firmware/src/temperature_sensor.c:222-232 | only offset and scale change |
| TemperatureSensor.SetFilter | ThermorZigbeeController/firmware/src/temperature_sensor.c:234-263 | the old buffer is always released; size 0 disables filtering; a failed allocation reports NO_MEM with no buffer; otherwise a zeroed buffer of the size with index 0 and the flag clear |
| TemperatureSensor.Push | ThermorZigbeeController/firmware/src/temperature_sensor.c:204-209 | the write index stays inside the buffer, and once the flag is raised it stays raised |
| TemperatureSensor.Count | ThermorZigbeeController/firmware/src/temperature_sensor.c:212-213 | the averaging denominator lies in [1, size], so there is no division by zero |
| TemperatureSensor.ReadFiltered | ThermorZigbeeController/firmware/src/temperature_sensor.c:192-220 | an uninitialised sensor reads -273.15; without a buffer the raw reading is returned; otherwise the raw reading goes into the current slot and the mean of the counted slots is returned; the flag is never cleared, and a valid sensor returns a plausible value |
| TemperatureSensor.SetFilterStartsEmpty | ThermorZigbeeController/firmware/src/temperature_sensor.c:257-259 | a freshly set filter records no readings |
| TemperatureSensor.PushRecords | ThermorZigbeeController/firmware/src/temperature_sensor.c:204-209 | after a push, the index is the count of readings modulo the size, the flag says whether there have been at least `size` of them, and the last `size` sit in their slots |
| TemperatureSensor.CountedSlotsAreWindow | ThermorZigbeeController/firmware/src/temperature_sensor.c:211-219 | the counted slots hold exactly the last `size` readings (all of them before the first wrap), so their sum is the window's sum |
| TemperatureSensor.ReadFilteredAverages | ThermorZigbeeController/firmware/src/temperature_sensor.c:192-220 | the filtered value is the mean of the last `size` raw readings since `set_filter`, or of all of them while there are fewer |
| TemperatureSensor.MeanPlausible | ThermorZigbeeController/firmware/src/temperature_sensor.c:211-219 | the mean of plausible values is plausible |
| LegacyController.ModeOf | firmware/main/thermor_zigbee.h:79-87 | every code below 7 names the mode whose code it is |
| LegacyController.ModeCodeRoundTrip | firmware/main/thermor_zigbee.h:79-87 | mode to code and back is the identity |
| LegacyController.Dispatch | firmware/main/thermor_zigbee.c:205-237 | a temperature update stores the reading and its time; presence and window events store their flag, presence stamping motion when detected; other events change nothing; validity, state and mode are never touched |
| LegacyController.NextState | firmware/main/thermor_zigbee.c:246-266 | with a valid reading and a mode other than OFF, heating starts more than 0.2° below target and stops more than 0.2° above it; otherwise the state is kept |
| LegacyController.TargetPercent | firmware/main/thermor_zigbee.c:268-278 | 20 % per degree below target, truncated and capped at 100; 0 unless heating with the window closed; positive only at least 0.05° below target |
| LegacyController.ControlBlock | firmware/main/thermor_zigbee.c:245-278 | the block sets the next state and the target power, and nothing else |
| LegacyController.ControlBlockIdempotent | firmware/main/thermor_zigbee.c:245-278 | running the control block twice in a row changes nothing the second time |
| LegacyController.OffModeKeepsState | firmware/main/thermor_zigbee.c:249-278 | in OFF mode the state is kept, so a controller that was heating keeps requesting power |
| LegacyController.MainStep | firmware/main/thermor_zigbee.c:200-284 | one loop iteration never changes the validity flag or the mode |
| LegacyController.NeverHeatsWithoutValidReading | firmware/main/thermor_zigbee.c:246-278 | without a valid reading no sequence of events and iterations ever starts heating or requests power |
| LegacyController.LoadDefaultConfig | firmware/main/thermor_zigbee.c:446-471 | eco mode, INIT state, 20 °C target, no valid reading, zero power with soft start, 60-minute absence timer, unlocked, 80 % brightness, all-zero schedule |
| LegacyController.DefaultsNeverHeat | firmware/main/thermor_zigbee.c:451-455 | from the defaults the loop stays in INIT and requests no power, since nothing in the file marks a reading valid |
| LegacyController.SetTargetTemp | firmware/main/thermor_zigbee.c:565-577 | values outside [5, 30] are refused and nothing changes; others are stored; a target in range stays in range |
| LegacyController.ModePreset | firmware/main/thermor_zigbee.c:598-617 | every preset lies in [5, 30]; only PROGRAM and VACATION have none |
| LegacyController.SetMode | firmware/main/thermor_zigbee.c:589-623 | codes beyond VACATION are refused; OFF, COMFORT, ECO, ANTI_FREEZE and BOOST preset 5, 21, 19, 7 and 23 degrees; only mode and target change |
| LegacyController.ModeToString | firmware/main/thermor_zigbee.c:625-637 | "UNKNOWN" exactly for codes outside the enumeration |
| LegacyController.ModeNamesDistinct | firmware/main/thermor_zigbee.c:627-634 | every mode has its own name |
| LegacyController.SetPowerPercent | firmware/main/thermor_zigbee.c:649-660 | values above 100 are refused; others are stored as the target power only |

## Left out

- The zero-crossing and timer interrupt handlers (`triac_control.c:31-64`) are left out. They are real-time concurrency against one hardware timer, not sequential logic. The mutex around the channel table is dropped with them: each operation is modelled as one atomic update.
- FreeRTOS tasks, queues, delays and `esp_timer` are left out. The clocks are explicit parameters, and every task loop body becomes one pure step. The control tick takes two readings: the task's own, and the later one `pid_controller_compute` takes itself. Other tasks can run between the two reads. The millisecond readings are unbounded `nat`s. The source's `uint32_t` millisecond counters wrap after about 49.7 days, and that wrap is not modelled; `TemperatureSensor.Read`'s stored time stamp is the one exception.
- The ADC sampling, voltage divider, NTC and LM35 formulas (`temperature_sensor.c:74-143`) are left out, along with `logf`. They enter the model as the `converted` parameter.
- GPIO and ADC configuration, NVS persistence, diagnostics formatting and the `zigbee_thermostat.c` wrapper are I/O, so they are left out.
- `thermor_ui_update_display`, `ht1621_init`, `ht1621_update_display` and `ht1621_test_pattern` are left out: display refreshes and start-up sequencing. The command frames `ht1621_init` sends are covered by `Ht1621.InitCommandsArriveShifted`.
- `ht1621_send_addr` has no member of its own. It is the 6-bit address field inside the write frames.
- `button_matrix_deinit`, `get_event`, `set_callback`, `test` and `print_state` are left out. They are queue and console plumbing; events are returned as values instead.
- The legacy `main_task` ignores button and Zigbee events apart from logging, so the model treats them as no-ops.
- Null-pointer argument checks are left out. Records are values, so a missing argument cannot be expressed.
- `TemperatureSensor.Measured` has no `default` branch. The sensor type is an enumeration, so the unknown-type path of `temperature_sensor_read` cannot occur.
- `TemperatureSensor.Init` does not free a buffer left over from an earlier initialisation. Memory is not modelled.
- Floats are `real`, so IEEE rounding is not modelled.
- `TriacControl.PowerToFiringDelay`: between 0 % and 100 % it is stated only as bounded by the half cycle, because `cos` is a parameter.
- `TriacControl.FiringDelayToPower`: between the clamped endpoints it is stated only as at most 100 %, because `acos` is a parameter.
- `PidController.Compute`:
  - it requires the clock not to run backwards (the unsigned `now - last_time` is modelled on naturals);
  - it requires `dt > 0` whenever the derivative divides by it;
  - with `ki == 0` it requires `output_max >= 0`, where IEEE division gives ±infinity and the clamp is inert.
- `PidController.SetOutputLimits` requires the same `ki` condition.
- `ThermorUi` keeps setpoints as integer half degrees rather than floats. Every value the UI's own buttons can produce is a multiple of 0.5 within the limits. The Zigbee wrapper (`zigbee_thermostat.c:115-127`) can write arbitrary hundredths into the comfort and eco setpoints; those writes are outside the model.
- `Ht1621.DisplayNumber` takes the value as integer tenths. The float clamp and the `(int)` cast before it are not modelled.
- `Ht1621.DisplayNumber` and `Ht1621.DisplayText` put the corrected bulk write on the bus (both nibbles of 16 bytes). The source sends only the low nibble of each of 32 bytes; that bus is `Ht1621.DisplayNumberAsWritten` and `Ht1621.DisplayTextAsWritten` (see Findings).
- `Ht1621.SendCommand` puts the corrected command frame on the bus. The source sends the code in a 9-bit field; that bus is `Ht1621.SendCommandAsWritten` (see Findings).
- `Ht1621.Render` and `Ht1621.Glyph` treat text as ASCII, one character per position. The source walks C bytes, so a multi-byte UTF-8 character would take several positions there.
- `Ht1621.SetIcon` requires `icon > 0`, since `__builtin_ctz(0)` is undefined. The local `current` it computes is never used, so it is not modelled.
- `Ht1621.WriteDataKeepsMirror` requires `address < 64`. Above that the 6-bit address field wraps, while the shadow update compares the full byte.
- The order of the four data bits within a cell follows `write_bits`. How they map to segments is panel wiring and is not modelled.
- `ControlLoop.ControlTick` commands `Common.TruncToUint8(output)` for the cast `(uint8_t)(output)` (`main.c:88-129`). For a PID output below 0 or of 256 or more, C leaves that cast undefined and the model saturates at 0 and 255. `ControlLoop.Ready` does not bound the PID's output limits, so the contract covers such configurations under this choice. With limits inside 0..255, as `ControlLoop.StartupReady` gives (0..100), the cast is exact truncation.
- `LegacyController.TargetPercent` gives the cast `(uint8_t)(temp_diff * 20)` a meaning that C leaves undefined: negative products saturate at 0 and products of 256 or more at 255 (`Common.TruncToUint8`). Both cases are reachable: heating persists inside the hysteresis band with the reading at least 0.05 above target (product at most -1), and a difference of 12.8 degrees or more gives 256 or more. The clause "positive only at least 0.05 below target" rests on this choice.
- `ButtonMatrix.Scan` returns the events the scan hands to `send_event`. `xQueueSend` with a zero timeout drops an event when the queue is full, and the callback runs once per event; neither is modelled.
- `LegacyController.Run` runs every iteration at one clock reading. The clock only timestamps fields and never influences a decision.

## Findings

| source | as written | input that shows it | evidently intended | confidence | as-written member | corrected member |
|---|---|---|---|---|---|---|
| ThermorZigbeeController/firmware/src/ht1621_driver.c:110-115 | `send_cmd` sends the 8-bit command code in a 9-bit field, so a 0 bit precedes it. The HT1621 reads the eight bits after the 100 prefix as the code, so every code arrives halved. | `ht1621_init` sends SYS_EN (0x01), which arrives as SYS_DIS (0x00), and LCD_ON (0x03), which arrives as SYS_EN (0x01). | The 8 code bits follow the prefix directly, then one don't-care bit. | medium (rests on the datasheet's bit order); not executed | Ht1621.SendCmdAsWrittenShifts, Ht1621.InitCommandsArriveShifted, Ht1621.SendCommandAsWritten | Ht1621.SendCmdDelivers, Ht1621.SendCommand |
| ThermorZigbeeController/firmware/src/ht1621_driver.c:176-190 | `write_all` clocks out only the low nibble of each byte. The shadow copy stores two cells per byte. So segments E, F, G and DP of every digit never reach the controller, and the shadow stops mirroring it. | `display_number(-0.5, 0)`: the shadow's cell 1 holds the minus sign (SEG_G >> 4 = 4), but the controller's cell 1 receives the low nibble of the units digit. | Both nibbles of each shadow byte are sent, low nibble first, for at most 16 bytes. | high; not executed | Ht1621.WriteAllAsWritten, Ht1621.AsWrittenLosesMinusSign, Ht1621.DisplayNumberAsWritten | Ht1621.WriteAll, Ht1621.WriteAllKeepsMirror, Ht1621.DisplayNumber |

=== FILE: button_matrix.dfy ===
/** The 2x3 button matrix: debounce, press/release, long press and
    auto-repeat for each button, as a step function of one scan sample
    (`is_pressed` and the millisecond clock are parameters). */
module ButtonMatrix {
  import opened Common

  const ROWS: nat := 2
  const COLS: nat := 3

  /** `button_id_t`: MODE, PLUS, MINUS, PROG, OK, LOCK; ids at or beyond
      `BUTTON_MAX` can be passed to the query functions and are rejected. */
  type ButtonId = nat
  const BUTTON_MODE: ButtonId := 0
  const BUTTON_PLUS: ButtonId := 1
  const BUTTON_MINUS: ButtonId := 2
  const BUTTON_PROG: ButtonId := 3
  const BUTTON_OK: ButtonId := 4
  const BUTTON_LOCK: ButtonId := 5
  const BUTTON_MAX: nat := 6

  const DEBOUNCE_MS: uint32 := 50
  const LONG_PRESS_MS: uint32 := 1000
  const REPEAT_DELAY_MS: uint32 := 500
  const REPEAT_RATE_MS: uint32 := 100

  /** `button_event_type_t`. */
  datatype EventKind = Press | Release | LongPress | Repeat

  /** `button_event_t`, without the timestamp. */
  datatype Event = Event(button: ButtonId, kind: EventKind)

  /** The timing fields of `button_matrix_config_t`. */
  datatype Timing = Timing(debounceMs: uint32, longPressMs: uint32, repeatDelayMs: uint32, repeatRateMs: uint32)

  /** `button_state_t`. */
  datatype ButtonState = ButtonState(pressed: bool, longPressFired: bool, pressTime: nat, lastRepeatTime: nat, debounceCount: uint8)

  /** The driver's globals: the initialised flag, the timing, one state and
      one repeat flag per button. */
  datatype Matrix = Matrix(initialized: bool, timing: Timing, states: seq<ButtonState>, repeatEnabled: seq<bool>)

  predicate WellFormed(m: Matrix)
  {
    |m.states| == BUTTON_MAX && |m.repeatEnabled| == BUTTON_MAX
  }

  /** A zeroed button record, as `memset` leaves it. */
  const Released: ButtonState := ButtonState(false, false, 0, 0, 0)

  /** The globals before any call: everything zero or false. */
  const PowerOn: Matrix := Matrix(false, Timing(0, 0, 0, 0), seq(BUTTON_MAX, _ => Released), seq(BUTTON_MAX, _ => false))

  /** `matrix_map`: the button wired at (`row`, `col`). */
  function MatrixMap(row: nat, col: nat): (b: ButtonId)
    requires row < ROWS && col < COLS
    ensures b < BUTTON_MAX
    ensures b == row * COLS + col
  {
    [[BUTTON_MODE, BUTTON_PLUS, BUTTON_MINUS], [BUTTON_PROG, BUTTON_OK, BUTTON_LOCK]][row][col]
  }

  /** Every button id sits at exactly one matrix position. */
  lemma MatrixMapBijective(b: ButtonId)
    requires b < BUTTON_MAX
    ensures exists row: nat, col: nat :: row < ROWS && col < COLS && MatrixMap(row, col) == b
    ensures forall row: nat, col: nat, row': nat, col': nat ::
      row < ROWS && col < COLS && row' < ROWS && col' < COLS && MatrixMap(row, col) == b && MatrixMap(row', col') == b ==>
        row == row' && col == col'
  {
    assert MatrixMap(b / COLS, b % COLS) == b;
  }

  /** Zero timing fields replaced by the header defaults. */
  function WithDefaults(t: Timing): (r: Timing)
    ensures r.debounceMs == (if t.debounceMs == 0 then DEBOUNCE_MS else t.debounceMs)
    ensures r.longPressMs == (if t.longPressMs == 0 then LONG_PRESS_MS else t.longPressMs)
    ensures r.repeatDelayMs == (if t.repeatDelayMs == 0 then REPEAT_DELAY_MS else t.repeatDelayMs)
    ensures r.repeatRateMs == (if t.repeatRateMs == 0 then REPEAT_RATE_MS else t.repeatRateMs)
    ensures r.debounceMs > 0 && r.longPressMs > 0 && r.repeatDelayMs > 0 && r.repeatRateMs > 0
  {
    Timing(if t.debounceMs == 0 then DEBOUNCE_MS else t.debounceMs,
           if t.longPressMs == 0 then LONG_PRESS_MS else t.longPressMs,
           if t.repeatDelayMs == 0 then REPEAT_DELAY_MS else t.repeatDelayMs,
           if t.repeatRateMs == 0 then REPEAT_RATE_MS else t.repeatRateMs)
  }

  /** `button_matrix_init`: refuses a second initialisation and a missing
      event queue; otherwise stores the timing with defaults, clears every
      button and turns auto-repeat on for PLUS and MINUS. */
  function Init(m: Matrix, timing: Timing, hasQueue: bool): (r: (Status, Matrix))
    requires WellFormed(m)
    ensures WellFormed(r.1)
    ensures m.initialized ==> r == (InvalidState, m)
    ensures !m.initialized && !hasQueue ==> r == (InvalidArg, m)
    ensures !m.initialized && hasQueue ==>
      && r.0 == Ok
      && r.1.initialized
      && r.1.timing == WithDefaults(timing)
      && (forall b :: 0 <= b < BUTTON_MAX ==> r.1.states[b] == Released)
      && r.1.repeatEnabled[BUTTON_PLUS] && r.1.repeatEnabled[BUTTON_MINUS]
      && (forall b :: 0 <= b < BUTTON_MAX && b != BUTTON_PLUS && b != BUTTON_MINUS ==>
            r.1.repeatEnabled[b] == m.repeatEnabled[b])
  {
    if m.initialized then (InvalidState, m)
    else if !hasQueue then (InvalidArg, m)
    else (Ok, Matrix(true, WithDefaults(timing), seq(BUTTON_MAX, _ => Released),
                     m.repeatEnabled[BUTTON_PLUS := true][BUTTON_MINUS := true]))
  }

  /** Debounce counter step: up while the contact reads closed, down while
      open, saturating at 255 and 0. */
  function Debounce(count: uint8, isPressed: bool): (r: uint8)
    ensures isPressed && count < 255 ==> r == count + 1
    ensures isPressed && count == 255 ==> r == 255
    ensures !isPressed && count > 0 ==> r == count - 1
    ensures !isPressed && count == 0 ==> r == 0
  {
    if isPressed then (if count < 255 then count + 1 else count)
    else (if count > 0 then count - 1 else count)
  }

  /** The stored timestamps are never in the future (the source subtracts them unsigned). */
  predicate TimesNotAfter(s: ButtonState, now: nat)
  {
    s.pressTime <= now && s.lastRepeatTime <= now
  }

  /** One button's part of one scan of `button_matrix_scan_task`. */
  function ScanButton(s: ButtonState, isPressed: bool, now: nat, timing: Timing, repeatEnabled: bool): (r: (ButtonState, Option<EventKind>))
    requires TimesNotAfter(s, now)
    ensures TimesNotAfter(r.0, now)
    ensures r.0.debounceCount == Debounce(s.debounceCount, isPressed)
    // PRESS: only from released, once the counter passes the threshold
    ensures r.1 == Some(Press) <==> !s.pressed && r.0.debounceCount > timing.debounceMs / 10
    ensures r.1 == Some(Press) ==> r.0.pressed && !r.0.longPressFired && r.0.pressTime == now && r.0.lastRepeatTime == now
    // RELEASE: only from pressed, once the counter falls to the threshold
    ensures r.1 == Some(Release) <==> s.pressed && r.0.debounceCount <= timing.debounceMs / 10
    ensures r.1 == Some(Release) ==> !r.0.pressed
    // LONG_PRESS: at most once per press, after the long-press time
    ensures r.1 == Some(LongPress) ==>
      s.pressed && !s.longPressFired && r.0.pressed && r.0.longPressFired && now - s.pressTime >= timing.longPressMs
    // REPEAT: only after the long press, for repeat-enabled buttons, spaced by the interval
    ensures r.1 == Some(Repeat) ==>
      && s.pressed && s.longPressFired && repeatEnabled && r.0.pressed && r.0.longPressFired
      && now - s.lastRepeatTime >= RepeatInterval(s, now, timing) && r.0.lastRepeatTime == now
    // no event: the debounced state and the long-press flag stay as they were
    ensures r.1 == None ==> r.0.pressed == s.pressed && r.0.longPressFired == s.longPressFired
    ensures r.0.pressed ==> r.0.pressTime == (if s.pressed then s.pressTime else now)
  {
    var count := Debounce(s.debounceCount, isPressed);
    var debounced := count > timing.debounceMs / 10;
    var s1 := s.(debounceCount := count);
    if debounced && !s.pressed then
      (s1.(pressed := true, pressTime := now, lastRepeatTime := now, longPressFired := false), Some(Press))
    else if !debounced && s.pressed then
      (s1.(pressed := false), Some(Release))
    else if s.pressed && !s.longPressFired then
      if now - s.pressTime >= timing.longPressMs then
        (s1.(longPressFired := true, lastRepeatTime := if repeatEnabled then now else s.lastRepeatTime), Some(LongPress))
      else (s1, None)
    else if s.pressed && s.longPressFired && repeatEnabled then
      if now - s.lastRepeatTime >= RepeatInterval(s, now, timing) then
        (s1.(lastRepeatTime := now), Some(Repeat))
      else (s1, None)
    else (s1, None)
  }

  /** The repeat delay at first, the (usually shorter) repeat rate once the
      press has lasted longer than the long-press time plus the delay. */
  function RepeatInterval(s: ButtonState, now: nat, timing: Timing): (interval: uint32)
    requires s.pressTime <= now
    ensures interval == timing.repeatRateMs || interval == timing.repeatDelayMs
    ensures interval == timing.repeatRateMs <== now - s.pressTime > timing.longPressMs + timing.repeatDelayMs
  {
    if now - s.pressTime > timing.longPressMs + timing.repeatDelayMs then timing.repeatRateMs else timing.repeatDelayMs
  }

  /** The legal event sequences of one button, given whether it is held and
      whether its long press has fired: PRESS and RELEASE alternate,
      LONG_PRESS comes at most once per press, REPEAT only after it. */
  predicate LegalEvents(pressed: bool, fired: bool, events: seq<EventKind>)
    decreases |events|
  {
    if |events| == 0 then true
    else match events[0]
      case Press => !pressed && LegalEvents(true, false, events[1..])
      case Release => pressed && LegalEvents(false, fired, events[1..])
      case LongPress => pressed && !fired && LegalEvents(true, true, events[1..])
      case Repeat => pressed && fired && LegalEvents(true, true, events[1..])
  }

  /** One scan sample of one button: the contact reading and the clock. */
  datatype Sample = Sample(isPressed: bool, now: nat)

  /** The clock never runs backwards across the samples, nor behind the state's timestamps. */
  predicate Monotone(s: ButtonState, samples: seq<Sample>)
  {
    && (|samples| > 0 ==> TimesNotAfter(s, samples[0].now))
    && (forall i, j :: 0 <= i < j < |samples| ==> samples[i].now <= samples[j].now)
  }

  /** The events one button emits over a run of scans. */
  function Run(s: ButtonState, samples: seq<Sample>, timing: Timing, repeatEnabled: bool): (r: (ButtonState, seq<EventKind>))
    requires Monotone(s, samples)
    ensures |r.1| <= |samples|
    decreases |samples|
  {
    if |samples| == 0 then (s, [])
    else
      var step := ScanButton(s, samples[0].isPressed, samples[0].now, timing, repeatEnabled);
      var rest := Run(step.0, samples[1..], timing, repeatEnabled);
      (rest.0, (if step.1.Some? then [step.1.value] else []) + rest.1)
  }

  /** Whatever the contact bounces like, the emitted events of a button
      always form a legal sequence from the state it started in. */
  lemma {:induction false} RunLegal(s: ButtonState, samples: seq<Sample>, timing: Timing, repeatEnabled: bool)
    requires Monotone(s, samples)
    ensures LegalEvents(s.pressed, s.longPressFired, Run(s, samples, timing, repeatEnabled).1)
    decreases |samples|
  {
    if |samples| > 0 {
      var step := ScanButton(s, samples[0].isPressed, samples[0].now, timing, repeatEnabled);
      assert Monotone(step.0, samples[1..]) by {
        if |samples| > 1 {
          assert samples[0].now <= samples[1].now;
        }
      }
      RunLegal(step.0, samples[1..], timing, repeatEnabled);
      var rest := Run(step.0, samples[1..], timing, repeatEnabled);
      if step.1.Some? {
        var events := [step.1.value] + rest.1;
        assert Run(s, samples, timing, repeatEnabled).1 == events;
        assert events[0] == step.1.value && events[1..] == rest.1;
      } else {
        assert Run(s, samples, timing, repeatEnabled).1 == rest.1;
      }
    }
  }

  /** `button_matrix_is_pressed`: false for an out-of-range id. */
  function IsPressed(m: Matrix, b: ButtonId): (pressed: bool)
    requires WellFormed(m)
    ensures b >= BUTTON_MAX ==> !pressed
    ensures b < BUTTON_MAX ==> pressed == m.states[b].pressed
  {
    if b >= BUTTON_MAX then false else m.states[b].pressed
  }

  /** `button_matrix_get_name`. */
  function GetName(b: ButtonId): (name: string)
    ensures b >= BUTTON_MAX <==> name == "UNKNOWN"
  {
    if b >= BUTTON_MAX then "UNKNOWN" else ["MODE", "PLUS", "MINUS", "PROG", "OK", "LOCK"][b]
  }

  /** `button_matrix_enable_repeat`: a no-op for an out-of-range id. */
  function EnableRepeat(m: Matrix, b: ButtonId, enable: bool): (r: Matrix)
    requires WellFormed(m)
    ensures WellFormed(r)
    ensures b >= BUTTON_MAX ==> r == m
    ensures b < BUTTON_MAX ==> r.repeatEnabled[b] == enable
    ensures r.initialized == m.initialized && r.timing == m.timing && r.states == m.states
    ensures forall i :: 0 <= i < BUTTON_MAX && i != b ==> r.repeatEnabled[i] == m.repeatEnabled[i]
  {
    if b < BUTTON_MAX then m.(repeatEnabled := m.repeatEnabled[b := enable]) else m
  }

  /** The contact reading of button `b` in a scan of the matrix. */
  function ClosedAt(closed: seq<seq<bool>>, b: ButtonId): bool
    requires b < BUTTON_MAX
    requires |closed| == ROWS && forall row :: 0 <= row < ROWS ==> |closed[row]| == COLS
  {
    closed[b / COLS][b % COLS]
  }

  /** The event button `b` emits when stepped from its state in `m`. */
  function StepEvent(m: Matrix, closed: seq<seq<bool>>, now: nat, b: ButtonId): Option<EventKind>
    requires WellFormed(m) && b < BUTTON_MAX
    requires |closed| == ROWS && forall row :: 0 <= row < ROWS ==> |closed[row]| == COLS
    requires TimesNotAfter(m.states[b], now)
  {
    ScanButton(m.states[b], ClosedAt(closed, b), now, m.timing, m.repeatEnabled[b]).1
  }

  /** `events` lists, in button order, the events `outs` gives buttons `0..k`. */
  predicate EventsOf(outs: seq<Option<EventKind>>, events: seq<Event>, k: nat)
    requires k <= |outs|
  {
    && |events| <= k
    && (forall i :: 0 <= i < |events| ==> events[i].button < k && outs[events[i].button] == Some(events[i].kind))
    && (forall i, j :: 0 <= i < j < |events| ==> events[i].button < events[j].button)
    && (forall b :: 0 <= b < k && outs[b].Some? ==> Event(b, outs[b].value) in events)
  }

  /** Appending button `k`'s event (if any) extends the list to `k + 1` buttons. */
  lemma EventsOfStep(outs: seq<Option<EventKind>>, events: seq<Event>, k: nat)
    requires k < |outs| && EventsOf(outs, events, k)
    ensures EventsOf(outs, if outs[k].Some? then events + [Event(k, outs[k].value)] else events, k + 1)
  {
    if outs[k].Some? {
      var next := events + [Event(k, outs[k].value)];
      assert forall i :: 0 <= i < |events| ==> next[i] == events[i];
      assert next[|events|] == Event(k, outs[k].value);
    }
  }

  /** The event queue of one scan: button by button, each outcome that is
      an event appended in turn. */
  method CollectEvents(outs: seq<Option<EventKind>>) returns (events: seq<Event>)
    ensures EventsOf(outs, events, |outs|)
  {
    events := [];
    var k := 0;
    while k < |outs|
      invariant 0 <= k <= |outs|
      invariant EventsOf(outs, events, k)
    {
      EventsOfStep(outs, events, k);
      if outs[k].Some? {
        events := events + [Event(k, outs[k].value)];
      }
      k := k + 1;
    }
  }

  /** With `outs` the steps' events, the list covers the whole scan. */
  lemma ScanEvents(m: Matrix, closed: seq<seq<bool>>, now: nat, outs: seq<Option<EventKind>>, events: seq<Event>)
    requires WellFormed(m)
    requires |closed| == ROWS && forall row :: 0 <= row < ROWS ==> |closed[row]| == COLS
    requires forall b :: 0 <= b < BUTTON_MAX ==> TimesNotAfter(m.states[b], now)
    requires |outs| == BUTTON_MAX && forall b :: 0 <= b < BUTTON_MAX ==> outs[b] == StepEvent(m, closed, now, b)
    requires EventsOf(outs, events, BUTTON_MAX)
    ensures forall i :: 0 <= i < |events| ==>
      events[i].button < BUTTON_MAX && StepEvent(m, closed, now, events[i].button) == Some(events[i].kind)
    ensures forall b :: 0 <= b < BUTTON_MAX && StepEvent(m, closed, now, b).Some? ==>
      Event(b, StepEvent(m, closed, now, b).value) in events
  {
  }

  /** Every button of the matrix stepped once, in scan order (row by row,
      column by column), with the event each step produced. */
  method StepButtons(m: Matrix, closed: seq<seq<bool>>, now: nat) returns (m': Matrix, outs: seq<Option<EventKind>>)
    requires WellFormed(m)
    requires |closed| == ROWS && forall row :: 0 <= row < ROWS ==> |closed[row]| == COLS
    requires forall b :: 0 <= b < BUTTON_MAX ==> TimesNotAfter(m.states[b], now)
    ensures WellFormed(m') && m'.timing == m.timing && m'.repeatEnabled == m.repeatEnabled
    ensures forall row, col :: 0 <= row < ROWS && 0 <= col < COLS ==>
      var b := MatrixMap(row, col);
      m'.states[b] == ScanButton(m.states[b], closed[row][col], now, m.timing, m.repeatEnabled[b]).0
    ensures |outs| == BUTTON_MAX && forall b :: 0 <= b < BUTTON_MAX ==> outs[b] == StepEvent(m, closed, now, b)
  {
    m' := m;
    outs := [];
    var k := 0;
    while k < BUTTON_MAX
      invariant 0 <= k <= BUTTON_MAX
      invariant WellFormed(m') && m'.timing == m.timing && m'.repeatEnabled == m.repeatEnabled
      invariant forall b :: 0 <= b < BUTTON_MAX ==> TimesNotAfter(m'.states[b], now)
      invariant forall b :: 0 <= b < k ==>
        m'.states[b] == ScanButton(m.states[b], closed[b / COLS][b % COLS], now, m.timing, m.repeatEnabled[b]).0
      invariant forall b :: k <= b < BUTTON_MAX ==> m'.states[b] == m.states[b]
      invariant |outs| == k && forall b :: 0 <= b < k ==> outs[b] == StepEvent(m, closed, now, b)
    {
      var row, col := k / COLS, k % COLS;
      var b := MatrixMap(row, col);
      assert b == k;
      var step := ScanButton(m'.states[b], closed[row][col], now, m.timing, m.repeatEnabled[b]);
      m' := m'.(states := m'.states[b := step.0]);
      outs := outs + [step.1];
      k := k + 1;
    }
    forall row, col | 0 <= row < ROWS && 0 <= col < COLS
      ensures m'.states[MatrixMap(row, col)] == ScanButton(m.states[MatrixMap(row, col)], closed[row][col], now, m.timing, m.repeatEnabled[MatrixMap(row, col)]).0
    {
      var b := MatrixMap(row, col);
      assert b / COLS == row && b % COLS == col;
    }
  }

  /** One full scan of the matrix (`button_matrix_scan_task`'s loop body):
      each button stepped once in scan order and its event, if any, queued.
      Nothing reads the queue during a scan, so queueing each event as its
      button is stepped and queueing them after the last button give the
      same sequence. */
  method Scan(m: Matrix, closed: seq<seq<bool>>, now: nat) returns (m': Matrix, events: seq<Event>)
    requires WellFormed(m)
    requires |closed| == ROWS && forall row :: 0 <= row < ROWS ==> |closed[row]| == COLS
    requires forall b :: 0 <= b < BUTTON_MAX ==> TimesNotAfter(m.states[b], now)
    ensures WellFormed(m') && m'.timing == m.timing && m'.repeatEnabled == m.repeatEnabled
    ensures forall row, col :: 0 <= row < ROWS && 0 <= col < COLS ==>
      var b := MatrixMap(row, col);
      m'.states[b] == ScanButton(m.states[b], closed[row][col], now, m.timing, m.repeatEnabled[b]).0
    ensures |events| <= BUTTON_MAX
    // each event is what its button's step produced
    ensures forall i :: 0 <= i < |events| ==>
      events[i].button < BUTTON_MAX && StepEvent(m, closed, now, events[i].button) == Some(events[i].kind)
    // scan order, hence at most one event per button
    ensures forall i, j :: 0 <= i < j < |events| ==> events[i].button < events[j].button
    // no step's event is lost
    ensures forall b :: 0 <= b < BUTTON_MAX && StepEvent(m, closed, now, b).Some? ==>
      Event(b, StepEvent(m, closed, now, b).value) in events
  {
    var outs;
    m', outs := StepButtons(m, closed, now);
    events := CollectEvents(outs);
    ScanEvents(m, closed, now, outs, events);
  }
}

=== FILE: common.dfy ===
/** Types shared by every component of the thermostat firmware model:
    the fixed-width integers of the C source, the `esp_err_t` codes the
    modelled calls return, and an Option/Result pair for error paths. */
module Common {

  /** C `uint8_t`. */
  type uint8 = x: nat | x < 0x100

  /** C `uint16_t`. */
  type uint16 = x: nat | x < 0x1_0000

  /** C `uint32_t`. */
  type uint32 = x: nat | x < 0x1_0000_0000

  datatype Option<+T> = None | Some(value: T)

  /** The `esp_err_t` codes returned by the modelled operations. */
  datatype Status = Ok | InvalidArg | InvalidState | NoMem

  /** A value, or the error code an initialiser reported instead. */
  datatype Result<+T> = Success(value: T) | Failure(error: Status)

  function Min(a: int, b: int): int
  {
    if a <= b then a else b
  }

  function Max(a: int, b: int): int
  {
    if a >= b then a else b
  }

  /** C's conversion of a `float` to `uint8_t`: truncation toward zero.
      Outside [0, 256) the conversion is undefined in C; the model saturates
      at 0 and 255 there. */
  function TruncToUint8(x: real): (b: uint8)
    ensures 0.0 <= x < 256.0 ==> b == x.Floor
    ensures x < 1.0 ==> b == 0
    ensures x >= 255.0 ==> b == 255
    ensures b as real <= x || x < 0.0
  {
    if x < 1.0 then 0
    else if x >= 255.0 then 255
    else x.Floor
  }

  /** 2 to the power `n`. */
  function Pow2(n: nat): (p: nat)
    ensures p >= 1
  {
    if n == 0 then 1 else 2 * Pow2(n - 1)
  }

  /** Bit `i` of `v` (bit 0 is the least significant), as C's `v & (1 << i)`. */
  predicate Bit(v: nat, i: nat)
  {
    if i == 0 then v % 2 == 1 else Bit(v / 2, i - 1)
  }

  /** Division with remainder is unique: the quotient and remainder of `d`
      by `m` are the only pair that rebuilds `d`. */
  lemma DivModUnique(d: int, m: int, k: int, r: int)
    requires m > 0 && 0 <= r < m && d == k * m + r
    ensures d % m == r && d / m == k
  {
    var q, s := d / m, d % m;
    assert q * m + s == k * m + r;
    if k > q {
      assert k * m == q * m + (k - q) * m;
      MulAtLeast(k - q, m);
    } else if k < q {
      assert q * m == k * m + (q - k) * m;
      MulAtLeast(q - k, m);
    }
  }

  lemma MulAtLeast(a: int, m: int)
    requires a >= 1 && m > 0
    ensures a * m >= m
  {
  }

  /** The sum of a sequence of readings, accumulated front to back. */
  function Sum(xs: seq<real>): real
  {
    if |xs| == 0 then 0.0 else Sum(xs[..|xs| - 1]) + xs[|xs| - 1]
  }

  lemma AppendAssoc<T>(a: seq<T>, b: seq<T>, c: seq<T>)
    ensures (a + b) + c == a + (b + c)
  {
  }
}

=== FILE: control_loop.dfy ===
/** The two periodic loops of the application that tie the components
    together, each reduced to one pure step: the heating control tick of
    `control_task` and the temperature averaging of `sensor_task`. */
module ControlLoop {
  import opened Common
  import Pid = PidController
  import Triac = TriacControl
  import Ui = ThermorUi

  /** The control tick runs at most once per this many milliseconds. */
  const CONTROL_PERIOD_MS: nat := 1000
  /** The heater rating the reported consumption assumes. */
  const HEATER_WATTS: nat := 2000
  /** Readings at or below this are treated as sensor failures. */
  const MIN_VALID_READING: real := -50.0
  /** An average is reported at most once per this many milliseconds. */
  const REPORT_PERIOD_MS: nat := 1000

  /** The PID settings the firmware starts with. */
  const HeatingPid: Pid.Config := Pid.Config(25.0, 0.5, 10.0, 0.0, 100.0, 1000)

  /** What the control task owns: the PID, the triac table, and its own last tick. */
  datatype Controller = Controller(pid: Pid.Pid, triacs: Triac.Triacs, lastControlTime: nat)

  /** What one tick leaves behind, and what it reported: the commanded power
      percentage and the wattage, each `None` when the tick did not set it. */
  datatype Outcome = Outcome(ctl: Controller, ui: Ui.Ui, power: Option<uint8>, watts: Option<uint16>)

  /** The control task's standing assumptions: the PID's integral limit
      exists and its sample time is non-zero; the triac table is well formed.
      Nothing relates the PID's own time stamp to the last tick: the PID reads
      the clock again, later, so its stamp may be ahead of the tick's. */
  predicate Ready(c: Controller)
  {
    && Pid.IntegralLimitDefined(c.pid.cfg.outputMax, c.pid.cfg.ki)
    && c.pid.cfg.sampleTimeMs > 0
    && Triac.WellFormed(c.triacs)
  }

  /** A percentage of the heater rating, as the integer expression of the source. */
  function PercentToWatts(percent: uint8): (w: uint16)
    ensures w == percent * HEATER_WATTS / 100
    ensures percent <= 100 ==> w <= HEATER_WATTS
    ensures percent > 0 <==> w > 0
  {
    percent * 20
  }

  /** The clock readings of one tick: the task's own reading `now`, and the
      later reading `pidNow` that `pid_controller_compute` takes for itself.
      The clock never runs backwards, so `pidNow` is at least `now` and at
      least the PID's previous stamp. */
  predicate Clocks(c: Controller, now: nat, pidNow: nat)
  {
    now >= c.lastControlTime && pidNow >= now && pidNow >= c.pid.lastTime
  }

  /** One pass of `control_task`'s loop body at time `now`, against the UI
      state it reads the temperatures and the window from; the PID, when
      called, reads the clock as `pidNow`. */
  function ControlTick(c: Controller, ui: Ui.Ui, now: nat, pidNow: nat, cos: real -> real): (r: Outcome)
    requires Ready(c) && Ui.Valid(ui) && Clocks(c, now, pidNow) && Triac.CosBounded(cos)
    ensures Ready(r.ctl)
    ensures Triac.Valid(c.triacs, cos) ==> Triac.Valid(r.ctl.triacs, cos)
    // gating: nothing happens until the period has elapsed
    ensures now - c.lastControlTime < CONTROL_PERIOD_MS ==> r == Outcome(c, ui, None, None)
    ensures now - c.lastControlTime >= CONTROL_PERIOD_MS ==> r.ctl.lastControlTime == now && r.power.Some?
    // the commanded power reaches every configured channel and the heating flag follows it
    ensures r.power.Some? ==>
      && r.ctl.triacs == Triac.SetPower(c.triacs, r.power.value, cos)
      && r.ui == Ui.SetHeatingState(ui, r.power.value > 0)
    // window interlock: PID reset, heater off, whatever the target
    ensures now - c.lastControlTime >= CONTROL_PERIOD_MS && WindowInterlock(ui) ==>
      r.power == Some(0) && r.ctl.pid == Pid.Reset(c.pid) && r.watts.None?
    // nothing wanted: heater off, PID untouched
    ensures now - c.lastControlTime >= CONTROL_PERIOD_MS && !WindowInterlock(ui) && Ui.GetTargetTemperature(ui) <= 0 ==>
      r.power == Some(0) && r.ctl.pid == c.pid && r.watts.None?
    // PID branch: truncated output, its wattage
    ensures now - c.lastControlTime >= CONTROL_PERIOD_MS && !WindowInterlock(ui) && Ui.GetTargetTemperature(ui) > 0 ==>
      var step := Pid.Compute(c.pid, Target(ui), ui.config.currentTemp, pidNow);
      && r.power == Some(TruncToUint8(step.output))
      && r.ctl.pid == step.pid
      && r.watts == Some(PercentToWatts(TruncToUint8(step.output)))
  {
    if now - c.lastControlTime < CONTROL_PERIOD_MS then Outcome(c, ui, None, None)
    else if WindowInterlock(ui) then
      Outcome(Controller(Pid.Reset(c.pid), Triac.SetPower(c.triacs, 0, cos), now), Ui.SetHeatingState(ui, false), Some(0), None)
    else if Ui.GetTargetTemperature(ui) > 0 then
      var step := Pid.Compute(c.pid, Target(ui), ui.config.currentTemp, pidNow);
      var percent := TruncToUint8(step.output);
      Outcome(Controller(step.pid, Triac.SetPower(c.triacs, percent, cos), now),
              Ui.SetHeatingState(ui, percent > 0), Some(percent), Some(PercentToWatts(percent)))
    else
      Outcome(Controller(c.pid, Triac.SetPower(c.triacs, 0, cos), now), Ui.SetHeatingState(ui, false), Some(0), None)
  }

  /** An open window forces the heater off only while window detection is enabled. */
  predicate WindowInterlock(ui: Ui.Ui)
  {
    ui.config.windowOpen && ui.config.windowDetectionEnabled
  }

  /** The target in degrees. */
  function Target(ui: Ui.Ui): (t: real)
    requires Ui.Valid(ui)
    ensures t > 0.0 <==> Ui.GetTargetTemperature(ui) > 0
  {
    Ui.GetTargetTemperature(ui) as real / 2.0
  }

  /** With the PID output limited to at most 100 %, the reported wattage never exceeds the heater rating. */
  lemma WattsWithinRating(c: Controller, ui: Ui.Ui, now: nat, pidNow: nat, cos: real -> real)
    requires Ready(c) && Ui.Valid(ui) && Clocks(c, now, pidNow) && Triac.CosBounded(cos)
    requires c.pid.cfg.outputMin <= c.pid.cfg.outputMax <= 100.0
    ensures var r := ControlTick(c, ui, now, pidNow, cos);
      (r.power.Some? ==> r.power.value <= 100) && (r.watts.Some? ==> r.watts.value <= HEATER_WATTS)
  {
    var r := ControlTick(c, ui, now, pidNow, cos);
    if now - c.lastControlTime >= CONTROL_PERIOD_MS && !WindowInterlock(ui) && Ui.GetTargetTemperature(ui) > 0 {
      var step := Pid.Compute(c.pid, Target(ui), ui.config.currentTemp, pidNow);
      if !Pid.Gated(c.pid, pidNow) {
        assert step.output <= 100.0;
      }
      assert TruncToUint8(step.output) <= 100;
    }
  }

  /** A PID call that hits its sample-time gate returns 0.0, and the tick
      then commands 0 % and reports no heating. */
  lemma GatedPidCommandsZero(c: Controller, ui: Ui.Ui, now: nat, pidNow: nat, cos: real -> real)
    requires Ready(c) && Ui.Valid(ui) && Clocks(c, now, pidNow) && Triac.CosBounded(cos)
    requires now - c.lastControlTime >= CONTROL_PERIOD_MS && Pid.Gated(c.pid, pidNow)
    ensures ControlTick(c, ui, now, pidNow, cos).power == Some(0)
    ensures !ControlTick(c, ui, now, pidNow, cos).ui.config.heatingActive
  {
  }

  /** With a sample time no longer than the control period, a tick that
      reaches the PID gets a real evaluation as long as the PID's own stamp
      ran ahead of the previous tick by no more than the slack between the two
      periods.  With equal periods the slack is zero, and `SkewedTickIsGated`
      shows the gate is then hit. */
  lemma PidNeverGatedAtControlRate(c: Controller, now: nat, pidNow: nat)
    requires Ready(c) && Clocks(c, now, pidNow)
    requires c.pid.cfg.sampleTimeMs <= CONTROL_PERIOD_MS
    requires now - c.lastControlTime >= CONTROL_PERIOD_MS
    ensures c.pid.lastTime <= c.lastControlTime + (CONTROL_PERIOD_MS - c.pid.cfg.sampleTimeMs) ==> !Pid.Gated(c.pid, pidNow)
  {
  }

  /** The gate is hit at the firmware's own rate.  A real evaluation stamps
      the PID with its own, later clock reading, so after a tick whose PID
      read lands 1 ms after the task's, the stamp is ahead of the tick. */
  lemma PidStampRunsAhead(c: Controller, ui: Ui.Ui, now: nat, cos: real -> real)
    requires Ready(c) && Ui.Valid(ui) && Clocks(c, now, now + 1) && Triac.CosBounded(cos)
    requires now - c.lastControlTime >= CONTROL_PERIOD_MS && !WindowInterlock(ui) && Ui.GetTargetTemperature(ui) > 0
    requires !Pid.Gated(c.pid, now + 1)
    ensures var r := ControlTick(c, ui, now, now + 1, cos);
      r.ctl.pid.lastTime == r.ctl.lastControlTime + 1 && Ready(r.ctl)
  {
  }

  /** With the firmware's 1000 ms sample time, the next tick exactly one
      period later, with no delay before the PID's read, finds the PID 1 ms
      short of its sample time: it commands 0 % and reports no heating,
      whatever the target and the measurement. */
  lemma SkewedTickIsGated(c: Controller, ui: Ui.Ui, cos: real -> real)
    requires Ready(c) && Ui.Valid(ui) && Triac.CosBounded(cos)
    requires c.pid.cfg == HeatingPid && !c.pid.firstRun && c.pid.lastTime == c.lastControlTime + 1
    requires !WindowInterlock(ui) && Ui.GetTargetTemperature(ui) > 0
    ensures var now := c.lastControlTime + CONTROL_PERIOD_MS;
      var r := ControlTick(c, ui, now, now, cos);
      && Pid.Gated(c.pid, now)
      && r.power == Some(0) && r.watts == Some(0)
      && !r.ui.config.heatingActive
  {
    var now := c.lastControlTime + CONTROL_PERIOD_MS;
    GatedPidCommandsZero(c, ui, now, now, cos);
  }

  /** The firmware's start-up state is one the control task can run from. */
  lemma StartupReady(triacs: Triac.Triacs)
    requires Triac.WellFormed(triacs)
    ensures Ready(Controller(Pid.Init(HeatingPid), triacs, 0))
    ensures HeatingPid.sampleTimeMs <= CONTROL_PERIOD_MS
  {
  }

  /** The running sum and count of `sensor_task`, and its last report time. */
  datatype Averager = Averager(accumulator: real, samples: nat, lastReport: nat)

  /** One pass of the temperature part of `sensor_task`: a valid reading is
      added; once a report period has elapsed with at least one sample the
      average is reported and the sums restart. */
  function SensorStep(a: Averager, reading: real, now: nat): (r: (Averager, Option<real>))
    requires now >= a.lastReport
    ensures var a' := if reading > MIN_VALID_READING then a.samples + 1 else a.samples;
      r.1.Some? <==> now - a.lastReport >= REPORT_PERIOD_MS && a' > 0
    ensures r.1.Some? ==> r.0 == Averager(0.0, 0, now)
    ensures r.1.None? ==> r.0.lastReport == a.lastReport
    ensures r.1.None? && reading <= MIN_VALID_READING ==> r.0 == a
    ensures r.1.None? && reading > MIN_VALID_READING ==> r.0 == a.(accumulator := a.accumulator + reading, samples := a.samples + 1)
  {
    var acc := if reading > MIN_VALID_READING then a.accumulator + reading else a.accumulator;
    var n := if reading > MIN_VALID_READING then a.samples + 1 else a.samples;
    if now - a.lastReport >= REPORT_PERIOD_MS && n > 0 then
      (Averager(0.0, 0, now), Some(acc / n as real))
    else
      (Averager(acc, n, a.lastReport), None)
  }

  /** The averager holds exactly the valid readings since the last report. */
  predicate Holds(a: Averager, pending: seq<real>)
  {
    a.accumulator == Sum(pending) && a.samples == |pending|
    && forall i :: 0 <= i < |pending| ==> pending[i] > MIN_VALID_READING
  }

  /** The reported value is the mean of the valid readings taken since the
      previous report; invalid readings leave no trace. */
  lemma SensorStepAverages(a: Averager, pending: seq<real>, reading: real, now: nat)
    requires now >= a.lastReport && Holds(a, pending)
    ensures var pending' := if reading > MIN_VALID_READING then pending + [reading] else pending;
      var r := SensorStep(a, reading, now);
      && (r.1.Some? ==> |pending'| > 0 && r.1.value == Sum(pending') / |pending'| as real && Holds(r.0, []))
      && (r.1.None? ==> Holds(r.0, pending'))
  {
    if reading > MIN_VALID_READING {
      assert (pending + [reading])[..|pending|] == pending;
    }
  }

  /** `thermor_ui_set_temperature` with the reported average: the value the next control tick measures against. */
  function ReportTemperature(ui: Ui.Ui, report: Option<real>): (r: Ui.Ui)
    ensures report.Some? ==> r.config.currentTemp == report.value
    ensures report.None? ==> r == ui
    ensures r.config.(currentTemp := ui.config.currentTemp) == ui.config && r.state == ui.state
  {
    if report.Some? then Ui.SetTemperature(ui, report.value) else ui
  }
}

=== FILE: ht1621.dfy ===
/** The HT1621 segment-LCD driver: the bit-banged three-wire protocol as a
    trace of pin writes, the driver's 16-byte shadow of the controller's
    display RAM, and the 7-segment encoders for numbers and text.

    The controller's side of the wire is modelled too: it latches DATA on
    every rising edge of WR while CS is low, a rising CS closes a frame, and
    a frame is read as a command or as a write of successive 4-bit cells,
    following the command summary of the HT1621 datasheet. */
module Ht1621 {
  import opened Common

  // Command codes of the header.
  const CMD_SYS_DIS: uint8 := 0x00
  const CMD_SYS_EN: uint8 := 0x01
  const CMD_LCD_OFF: uint8 := 0x02
  const CMD_LCD_ON: uint8 := 0x03
  const CMD_RC_256K: uint8 := 0x18
  const CMD_BIAS_1_2: uint8 := 0x29

  // Segment bits of one digit position.
  const SEG_A: uint8 := 0x01
  const SEG_B: uint8 := 0x02
  const SEG_C: uint8 := 0x04
  const SEG_D: uint8 := 0x08
  const SEG_E: uint8 := 0x10
  const SEG_F: uint8 := 0x20
  const SEG_G: uint8 := 0x40
  const SEG_DP: uint8 := 0x80

  // Icon bits of `set_icon` / `set_all_icons`.
  const ICON_COMFORT: uint8 := 0x01
  const ICON_ECO: uint8 := 0x02
  const ICON_FROST: uint8 := 0x04
  const ICON_PROG: uint8 := 0x08
  const ICON_LOCK: uint8 := 0x10
  const ICON_PRESENCE: uint8 := 0x20
  const ICON_WINDOW: uint8 := 0x40
  const ICON_HEATING: uint8 := 0x80

  /** Patterns of the hexadecimal digits 0-F. */
  const DIGIT_PATTERNS: seq<uint8> :=
    [0x3F, 0x06, 0x5B, 0x4F, 0x66, 0x6D, 0x7D, 0x07, 0x7F, 0x6F, 0x77, 0x7C, 0x39, 0x5E, 0x79, 0x71]

  /** Patterns of the letters A-Z, as near as seven segments get. */
  const CHAR_PATTERNS: seq<uint8> :=
    [0x77, 0x7C, 0x39, 0x5E, 0x79, 0x71, 0x3D, 0x76, 0x06, 0x1E, 0x76, 0x38, 0x15,
     0x54, 0x3F, 0x73, 0x67, 0x50, 0x6D, 0x78, 0x3E, 0x1C, 0x2A, 0x76, 0x6E, 0x5B]

  /** The controller has 32 four-bit RAM cells; the driver shadows them in 16 bytes. */
  const CELLS: nat := 32
  const RAM_BYTES: nat := 16

  // ---------------------------------------------------------------------
  // The wire

  /** One level written to one of the three lines. */
  datatype Pin = Cs(high: bool) | Wr(high: bool) | Data(high: bool)

  type Trace = seq<Pin>

  /** The controller's view of the wire: the three line levels and the bits
      latched since CS last fell. */
  datatype Bus = Bus(cs: bool, wr: bool, data: bool, shifted: seq<bool>)

  /** All three lines high, as `ht1621_init` leaves them. */
  const Idle: Bus := Bus(true, true, true, [])

  function Step(b: Bus, p: Pin): Bus
  {
    match p
    case Cs(h) => if b.cs && !h then b.(cs := false, shifted := []) else b.(cs := h)
    case Wr(h) => if h && !b.wr && !b.cs then b.(wr := true, shifted := b.shifted + [b.data]) else b.(wr := h)
    case Data(h) => b.(data := h)
  }

  /** The controller's state after the trace. */
  function After(t: Trace, b: Bus): Bus
    decreases |t|
  {
    if |t| == 0 then b else After(t[1..], Step(b, t[0]))
  }

  /** The frames the trace completes, each the bits latched between CS
      falling and CS rising again. */
  function Frames(t: Trace, b: Bus): seq<seq<bool>>
    decreases |t|
  {
    if |t| == 0 then []
    else (if t[0] == Cs(true) && !b.cs then [b.shifted] else []) + Frames(t[1..], Step(b, t[0]))
  }

  lemma {:induction false} Concat(t: Trace, u: Trace, b: Bus)
    ensures After(t + u, b) == After(u, After(t, b))
    ensures Frames(t + u, b) == Frames(t, b) + Frames(u, After(t, b))
    decreases |t|
  {
    if |t| == 0 {
      assert t + u == u;
    } else {
      var p, rest := t[0], t[1..];
      var next := Step(b, p);
      var head := if p == Cs(true) && !b.cs then [b.shifted] else [];
      assert (t + u)[0] == p;
      assert (t + u)[1..] == rest + u;
      Concat(rest, u, next);
      assert Frames(t + u, b) == head + Frames(rest + u, next);
      assert Frames(t, b) == head + Frames(rest, next);
      AppendAssoc(head, Frames(rest, next), Frames(u, After(rest, next)));
    }
  }

  /** One pin write, then the rest. */
  lemma Cons(p: Pin, t: Trace, b: Bus)
    ensures After([p] + t, b) == After(t, Step(b, p))
    ensures Frames([p] + t, b) == (if p == Cs(true) && !b.cs then [b.shifted] else []) + Frames(t, Step(b, p))
  {
    assert ([p] + t)[0] == p;
    assert ([p] + t)[1..] == t;
  }

  // ---------------------------------------------------------------------
  // Bits and fields

  /** The `n` low bits of `d`, most significant first. */
  function Bits(d: nat, n: nat): (bs: seq<bool>)
    ensures |bs| == n
    ensures forall k :: 0 <= k < n ==> bs[k] == Bit(d, n - 1 - k)
  {
    if n == 0 then [] else Bits(d / 2, n - 1) + [d % 2 == 1]
  }

  /** The value of a bit string read most significant bit first. */
  function Value(bs: seq<bool>): nat
    decreases |bs|
  {
    if |bs| == 0 then 0 else 2 * Value(bs[..|bs| - 1]) + (if bs[|bs| - 1] then 1 else 0)
  }

  lemma HalfMod(d: nat, p: nat)
    requires p > 0
    ensures d % (2 * p) == 2 * ((d / 2) % p) + d % 2
  {
    var h, e := d / 2, d % 2;
    var q, r := h / p, h % p;
    assert h == q * p + r;
    assert d == q * (2 * p) + (2 * r + e);
    DivModUnique(d, 2 * p, q, 2 * r + e);
  }

  /** Reading back `n` bits recovers `d` modulo 2^n. */
  lemma {:induction false} ValueOfBits(d: nat, n: nat)
    ensures Value(Bits(d, n)) == d % Pow2(n)
    decreases n
  {
    if n > 0 {
      var bs := Bits(d, n);
      assert bs[..n - 1] == Bits(d / 2, n - 1);
      ValueOfBits(d / 2, n - 1);
      HalfMod(d, Pow2(n - 1));
    }
  }

  /** Bits that fit are read back as the value itself. */
  lemma ValueOfSmall(d: nat, n: nat, bound: nat)
    requires bound == Pow2(n) && d < bound
    ensures Value(Bits(d, n)) == d
  {
    ValueOfBits(d, n);
    DivModUnique(d, bound, 0, d);
  }

  lemma Pow2Facts()
    ensures Pow2(4) == 16 && Pow2(6) == 64 && Pow2(8) == 256
  {
    assert Pow2(2) == 4;
    assert Pow2(4) == 16;
    assert Pow2(6) == 64;
  }

  /** One field of a frame: a value sent in `width` bits. */
  datatype Field = Field(value: nat, width: nat)

  function FieldBits(fs: seq<Field>): (bs: seq<bool>)
    decreases |fs|
  {
    if |fs| == 0 then [] else Bits(fs[0].value, fs[0].width) + FieldBits(fs[1..])
  }

  lemma {:induction false} FieldBitsAppend(fs: seq<Field>, gs: seq<Field>)
    ensures FieldBits(fs + gs) == FieldBits(fs) + FieldBits(gs)
    decreases |fs|
  {
    if |fs| == 0 {
      assert fs + gs == gs;
    } else {
      assert (fs + gs)[0] == fs[0];
      assert (fs + gs)[1..] == fs[1..] + gs;
      FieldBitsAppend(fs[1..], gs);
    }
  }

  // ---------------------------------------------------------------------
  // Serialisation

  /** One WR pulse carrying `v`: WR low, DATA set, WR high. */
  function Pulse(v: bool): Trace
  {
    [Wr(false), Data(v), Wr(true)]
  }

  /** `ht1621_write_bits`: a pulse per bit, from bit `n - 1` down to bit 0. */
  function WriteBits(d: nat, n: nat): (t: Trace)
    ensures |t| == 3 * n
  {
    if n == 0 then [] else WriteBits(d / 2, n - 1) + Pulse(d % 2 == 1)
  }

  lemma PulseLatches(v: bool, b: Bus)
    requires !b.cs
    ensures Frames(Pulse(v), b) == []
    ensures After(Pulse(v), b) == b.(wr := true, data := v, shifted := b.shifted + [v])
  {
    var t := Pulse(v);
    assert t[1..] == [Data(v), Wr(true)];
    assert t[1..][1..] == [Wr(true)];
    assert t[1..][1..][1..] == [];
  }

  /** While CS is low, `write_bits(d, n)` makes the controller latch exactly
      the `n` low bits of `d`, most significant first, and closes no frame. */
  lemma {:induction false} WriteBitsLatches(d: nat, n: nat, b: Bus)
    requires !b.cs
    ensures Frames(WriteBits(d, n), b) == []
    ensures After(WriteBits(d, n), b).shifted == b.shifted + Bits(d, n)
    ensures !After(WriteBits(d, n), b).cs
    decreases n
  {
    if n > 0 {
      var v := d % 2 == 1;
      var head := WriteBits(d / 2, n - 1);
      Concat(head, Pulse(v), b);
      WriteBitsLatches(d / 2, n - 1, b);
      PulseLatches(v, After(head, b));
      assert Bits(d, n) == Bits(d / 2, n - 1) + [v];
      AppendAssoc(b.shifted, Bits(d / 2, n - 1), [v]);
    }
  }

  /** The pulses of a list of fields, back to back. */
  function Serialise(fs: seq<Field>): Trace
    decreases |fs|
  {
    if |fs| == 0 then [] else WriteBits(fs[0].value, fs[0].width) + Serialise(fs[1..])
  }

  lemma {:induction false} SerialiseLatches(fs: seq<Field>, b: Bus)
    requires !b.cs
    ensures Frames(Serialise(fs), b) == []
    ensures After(Serialise(fs), b).shifted == b.shifted + FieldBits(fs)
    ensures !After(Serialise(fs), b).cs
    decreases |fs|
  {
    if |fs| > 0 {
      var head := WriteBits(fs[0].value, fs[0].width);
      Concat(head, Serialise(fs[1..]), b);
      WriteBitsLatches(fs[0].value, fs[0].width, b);
      SerialiseLatches(fs[1..], After(head, b));
    }
  }

  /** A complete transfer: CS low, the fields, CS high. */
  function Transfer(fs: seq<Field>): Trace
  {
    [Cs(false)] + Serialise(fs) + [Cs(true)]
  }

  /** From an idle bus, a transfer delivers exactly one frame holding the
      fields' bits, and leaves the bus idle again. */
  lemma TransferDelivers(fs: seq<Field>, b: Bus)
    requires b.cs
    ensures Frames(Transfer(fs), b) == [FieldBits(fs)]
    ensures After(Transfer(fs), b).cs
  {
    var start := b.(cs := false, shifted := []);
    var body := Serialise(fs);
    var tail := body + [Cs(true)];
    assert Transfer(fs) == [Cs(false)] + tail;
    Cons(Cs(false), tail, b);
    assert Step(b, Cs(false)) == start;
    Concat(body, [Cs(true)], start);
    SerialiseLatches(fs, start);
    var end := After(body, start);
    Cons(Cs(true), [], end);
    assert end.shifted == FieldBits(fs);
    assert Frames([Cs(true)], end) == [end.shifted];
    assert Frames(tail, start) == [end.shifted];
  }

  // ---------------------------------------------------------------------
  // The controller's reading of a frame

  datatype Op = Command(code: nat) | Write(address: nat, cells: seq<nat>) | Unrecognised

  const COMMAND_ID: seq<bool> := [true, false, false]
  const WRITE_ID: seq<bool> := [true, false, true]

  /** Successive 4-bit groups, each read most significant bit first (the
      order the driver sends them in). */
  function Nibbles(bs: seq<bool>): seq<nat>
    requires |bs| % 4 == 0
    decreases |bs|
  {
    if |bs| == 0 then [] else [Value(bs[..4])] + Nibbles(bs[4..])
  }

  /** A command frame is the ID `100`, an 8-bit command code and one
      don't-care bit; a write frame is the ID `101`, a 6-bit address and
      4-bit data for that address and the ones after it. */
  function Decode(f: seq<bool>): Op
  {
    if |f| == 12 && f[..3] == COMMAND_ID then Command(Value(f[3..11]))
    else if |f| >= 9 && (|f| - 9) % 4 == 0 && f[..3] == WRITE_ID then Write(Value(f[3..9]), Nibbles(f[9..]))
    else Unrecognised
  }

  function NibbleFields(xs: seq<nat>): seq<Field>
    decreases |xs|
  {
    if |xs| == 0 then [] else [Field(xs[0], 4)] + NibbleFields(xs[1..])
  }

  /** The low four bits of each value. */
  function LowNibbles(xs: seq<nat>): (ys: seq<nat>)
    ensures |ys| == |xs|
    ensures forall i :: 0 <= i < |xs| ==> ys[i] == xs[i] % 16
    decreases |xs|
  {
    if |xs| == 0 then [] else [xs[0] % 16] + LowNibbles(xs[1..])
  }

  /** Values sent as 4-bit fields come back as their low four bits. */
  lemma {:induction false} NibblesRoundTrip(xs: seq<nat>)
    ensures |FieldBits(NibbleFields(xs))| == 4 * |xs|
    ensures Nibbles(FieldBits(NibbleFields(xs))) == LowNibbles(xs)
    decreases |xs|
  {
    if |xs| > 0 {
      var bs := FieldBits(NibbleFields(xs));
      assert NibbleFields(xs)[0] == Field(xs[0], 4);
      assert NibbleFields(xs)[1..] == NibbleFields(xs[1..]);
      assert bs == Bits(xs[0], 4) + FieldBits(NibbleFields(xs[1..]));
      NibblesRoundTrip(xs[1..]);
      assert bs[..4] == Bits(xs[0], 4);
      assert bs[4..] == FieldBits(NibbleFields(xs[1..]));
      ValueOfBits(xs[0], 4);
    }
  }

  lemma WriteIdBits()
    ensures Bits(5, 3) == WRITE_ID && Bits(4, 3) == COMMAND_ID
  {
    assert Bits(1, 1) == [true];
    assert Bits(2, 2) == [true, false];
    assert Bits(0, 1) == [false];
    assert Bits(1, 2) == [false, true];
  }

  /** A write transfer of `xs` at `address` is read as a write of the low
      nibbles of `xs` at the address's low six bits. */
  lemma DecodeWrite(address: nat, xs: seq<nat>)
    ensures Decode(FieldBits([Field(5, 3), Field(address, 6)] + NibbleFields(xs)))
         == Write(address % 64, LowNibbles(xs))
  {
    var f := FieldBits([Field(5, 3), Field(address, 6)] + NibbleFields(xs));
    FieldBitsAppend([Field(5, 3), Field(address, 6)], NibbleFields(xs));
    assert FieldBits([Field(5, 3), Field(address, 6)]) == Bits(5, 3) + Bits(address, 6) by {
      assert [Field(5, 3), Field(address, 6)][1..] == [Field(address, 6)];
      assert [Field(address, 6)][1..] == [];
    }
    var rest := FieldBits(NibbleFields(xs));
    NibblesRoundTrip(xs);
    WriteIdBits();
    assert f == Bits(5, 3) + Bits(address, 6) + rest;
    assert f[..3] == WRITE_ID;
    assert f[3..9] == Bits(address, 6);
    assert f[9..] == rest;
    DivModUnique(|f| - 9, 4, |xs|, 0);
    assert COMMAND_ID != WRITE_ID;
    ValueOfBits(address, 6);
    Pow2Facts();
  }

  // ---------------------------------------------------------------------
  // Commands

  /** `ht1621_send_cmd` as written: the ID `100` and then the 8-bit code in
      a 9-bit field, so the field's leading bit is always 0 and the code
      arrives one bit late. */
  function SendCmdAsWritten(cmd: uint8): Trace
  {
    Transfer([Field(4, 3), Field(cmd, 9)])
  }

  lemma FieldBitsOfTwo(f: Field, g: Field)
    ensures FieldBits([f, g]) == Bits(f.value, f.width) + Bits(g.value, g.width)
  {
    assert [f, g][1..] == [g];
    assert [g][1..] == [];
    assert FieldBits([g]) == Bits(g.value, g.width) + FieldBits([]);
    assert FieldBits([]) == [];
  }

  lemma FieldBitsOfThree(f: Field, g: Field, h: Field)
    ensures FieldBits([f, g, h]) == Bits(f.value, f.width) + Bits(g.value, g.width) + Bits(h.value, h.width)
  {
    assert [f, g, h][1..] == [g, h];
    FieldBitsOfTwo(g, h);
  }

  /** A 12-bit frame starting with the command ID is read as the command
      in its next eight bits. */
  lemma DecodeCommand(bs: seq<bool>)
    requires |bs| == 9
    ensures Decode(COMMAND_ID + bs) == Command(Value(bs[..8]))
  {
    var f := COMMAND_ID + bs;
    assert f[..3] == COMMAND_ID;
    assert f[3..11] == bs[..8];
  }

  /** The controller takes the first eight bits after the ID as the code:
      what arrives is `cmd` shifted right by one. */
  lemma SendCmdAsWrittenShifts(cmd: uint8, b: Bus)
    requires b.cs
    ensures Frames(SendCmdAsWritten(cmd), b) == [COMMAND_ID + Bits(cmd, 9)]
    ensures Decode(COMMAND_ID + Bits(cmd, 9)) == Command(cmd / 2)
  {
    TransferDelivers([Field(4, 3), Field(cmd, 9)], b);
    FieldBitsOfTwo(Field(4, 3), Field(cmd, 9));
    WriteIdBits();
    CodeArrivesShifted(cmd);
  }

  lemma CodeArrivesShifted(cmd: uint8)
    ensures Decode(COMMAND_ID + Bits(cmd, 9)) == Command(cmd / 2)
  {
    DecodeCommand(Bits(cmd, 9));
    DropLastBit(cmd, 8);
    Pow2Facts();
    ValueOfSmall(cmd / 2, 8, 256);
  }

  /** Leaving off the last bit sent is sending the value halved. */
  lemma DropLastBit(d: nat, n: nat)
    ensures Bits(d, n + 1)[..n] == Bits(d / 2, n)
  {
  }

  /** Counterexample: the driver's "system enable" arrives as "system
      disable", and its "LCD on" as "system enable". */
  lemma InitCommandsArriveShifted(cmd: uint8)
    ensures cmd == CMD_SYS_EN ==> Decode(COMMAND_ID + Bits(cmd, 9)) == Command(CMD_SYS_DIS)
    ensures cmd == CMD_LCD_ON ==> Decode(COMMAND_ID + Bits(cmd, 9)) == Command(CMD_SYS_EN)
  {
    CodeArrivesShifted(cmd);
  }

  /** The command transfer with the code where the controller reads it: the
      ID, the 8-bit code, then the don't-care bit (sent as 0). */
  function SendCmd(cmd: uint8): Trace
  {
    Transfer([Field(4, 3), Field(cmd, 8), Field(0, 1)])
  }

  /** The controller receives exactly the command that was sent. */
  lemma SendCmdDelivers(cmd: uint8, b: Bus)
    requires b.cs
    ensures Frames(SendCmd(cmd), b) == [COMMAND_ID + (Bits(cmd, 8) + Bits(0, 1))]
    ensures Decode(COMMAND_ID + (Bits(cmd, 8) + Bits(0, 1))) == Command(cmd)
  {
    var code := Bits(cmd, 8) + Bits(0, 1);
    TransferDelivers([Field(4, 3), Field(cmd, 8), Field(0, 1)], b);
    FieldBitsOfThree(Field(4, 3), Field(cmd, 8), Field(0, 1));
    WriteIdBits();
    assert FieldBits([Field(4, 3), Field(cmd, 8), Field(0, 1)]) == COMMAND_ID + code;
    CodeArrives(cmd);
  }

  lemma CodeArrives(cmd: uint8)
    ensures Decode(COMMAND_ID + (Bits(cmd, 8) + Bits(0, 1))) == Command(cmd)
  {
    var code := Bits(cmd, 8) + Bits(0, 1);
    DecodeCommand(code);
    assert code[..8] == Bits(cmd, 8);
    Pow2Facts();
    ValueOfSmall(cmd, 8, 256);
  }

  /** `ht1621_send_command`: the command goes out; the RAM is not touched. */
  function SendCommand(lcd: Lcd, cmd: uint8): (r: Lcd)
    ensures r.ram == lcd.ram && r.bus == lcd.bus + SendCmd(cmd)
  {
    lcd.(bus := lcd.bus + SendCmd(cmd))
  }

  /** `ht1621_send_command` as written, over the shifted command frame: the
      same shadow RAM as the corrected command, a different frame on the bus. */
  function SendCommandAsWritten(lcd: Lcd, cmd: uint8): (r: Lcd)
    ensures r.ram == SendCommand(lcd, cmd).ram == lcd.ram
    ensures r.bus == lcd.bus + SendCmdAsWritten(cmd)
    ensures cmd != 0 ==> r.bus != SendCommand(lcd, cmd).bus
  {
    var r := lcd.(bus := lcd.bus + SendCmdAsWritten(cmd));
    if cmd == 0 then r
    else
      AsWrittenCommandDiffers(cmd);
      assert r.bus[|lcd.bus|..] == SendCmdAsWritten(cmd);
      assert SendCommand(lcd, cmd).bus[|lcd.bus|..] == SendCmd(cmd);
      r
  }

  /** Every command code but 0 puts a different frame on the bus as written
      than corrected: the controller reads `cmd / 2` from one and `cmd` from
      the other. */
  lemma AsWrittenCommandDiffers(cmd: uint8)
    requires cmd != 0
    ensures SendCmdAsWritten(cmd) != SendCmd(cmd)
  {
    SendCmdAsWrittenShifts(cmd, Idle);
    SendCmdDelivers(cmd, Idle);
  }

  // ---------------------------------------------------------------------
  // The display RAM

  /** The driver: its shadow RAM and every pin write so far. */
  datatype Lcd = Lcd(ram: seq<uint8>, bus: Trace)

  predicate Valid(lcd: Lcd)
  {
    |lcd.ram| == RAM_BYTES
  }

  /** The shadow RAM's idea of cell `a`: even cells are the low nibble of
      byte `a / 2`, odd cells its high nibble. */
  function Cell(ram: seq<uint8>, a: nat): (v: nat)
    requires |ram| == RAM_BYTES && a < CELLS
    ensures v < 16
  {
    if a % 2 == 0 then ram[a / 2] % 16 else ram[a / 2] / 16
  }

  /** The shadow RAM agrees with the controller's cells. */
  predicate Mirrors(ram: seq<uint8>, cells: seq<nat>)
  {
    |ram| == RAM_BYTES && |cells| == CELLS
    && forall a :: 0 <= a < CELLS ==> cells[a] == Cell(ram, a)
  }

  /** The controller's cells after a write of `xs` starting at `address`;
      the address advances after each cell and writes beyond the last cell
      are lost. */
  function ApplyWrite(cells: seq<nat>, address: nat, xs: seq<nat>): (r: seq<nat>)
    ensures |r| == |cells|
    ensures forall a :: 0 <= a < |cells| ==>
      r[a] == if address <= a < address + |xs| then xs[a - address] else cells[a]
    decreases |xs|
  {
    if |xs| == 0 then cells
    else ApplyWrite(if address < |cells| then cells[address := xs[0]] else cells, address + 1, xs[1..])
  }

  /** What an operation does to the controller's cells; commands leave them alone. */
  function Apply(cells: seq<nat>, op: Op): (r: seq<nat>)
    ensures |r| == |cells|
  {
    if op.Write? then ApplyWrite(cells, op.address, op.cells) else cells
  }

  lemma SplitByte(lo: nat, hi: nat)
    requires lo < 16
    ensures (lo + 16 * hi) % 16 == lo && (lo + 16 * hi) / 16 == hi
  {
    DivModUnique(lo + 16 * hi, 16, hi, lo);
  }

  /** The frame of `ht1621_write_data`: `101`, six address bits, four data bits. */
  function WriteDataFrame(address: uint8, data: uint8): Trace
  {
    Transfer([Field(5, 3), Field(address, 6), Field(data, 4)])
  }

  /** `ht1621_write_data`: sends the frame and, for a cell that exists,
      replaces that cell's nibble in the shadow RAM and keeps the other. */
  function WriteData(lcd: Lcd, address: uint8, data: uint8): (r: Lcd)
    requires Valid(lcd)
    ensures Valid(r)
    ensures r.bus == lcd.bus + WriteDataFrame(address, data)
    ensures address < CELLS ==> Cell(r.ram, address) == data % 16
    ensures forall a :: 0 <= a < CELLS && a != address ==> Cell(r.ram, a) == Cell(lcd.ram, a)
    ensures address >= CELLS ==> r.ram == lcd.ram
  {
    var ram := if address < CELLS then
        var prior := lcd.ram[address / 2];
        lcd.ram[address / 2 := if address % 2 == 1 then prior % 16 + 16 * (data % 16) else 16 * (prior / 16) + data % 16]
      else lcd.ram;
    SplitByte(lcd.ram[address / 2 % RAM_BYTES] % 16, data % 16);
    SplitByte(data % 16, lcd.ram[address / 2 % RAM_BYTES] / 16);
    Lcd(ram, lcd.bus + WriteDataFrame(address, data))
  }

  /** The controller reads the frame as a write of the data's low nibble at
      the address's low six bits. */
  lemma WriteDataDelivers(address: uint8, data: uint8, b: Bus)
    requires b.cs
    ensures Frames(WriteDataFrame(address, data), b) == [FieldBits([Field(5, 3), Field(address, 6), Field(data, 4)])]
    ensures Decode(FieldBits([Field(5, 3), Field(address, 6), Field(data, 4)])) == Write(address % 64, [data % 16])
  {
    TransferDelivers([Field(5, 3), Field(address, 6), Field(data, 4)], b);
    assert [Field(5, 3), Field(address, 6)] + NibbleFields([data]) == [Field(5, 3), Field(address, 6), Field(data, 4)];
    DecodeWrite(address, [data]);
  }

  /** A write to one of the 64 addresses the frame can carry keeps the
      shadow RAM in step with the controller. */
  lemma WriteDataKeepsMirror(lcd: Lcd, cells: seq<nat>, address: uint8, data: uint8)
    requires Valid(lcd) && Mirrors(lcd.ram, cells) && address < 64
    ensures Mirrors(WriteData(lcd, address, data).ram, Apply(cells, Write(address % 64, [data % 16])))
  {
    var r := WriteData(lcd, address, data);
    var d := data % 16;
    DivModUnique(address as nat, 64, 0, address as nat);
    var after := ApplyWrite(cells, address as nat, [d]);
    assert Apply(cells, Write(address % 64, [d])) == after;
    forall a | 0 <= a < CELLS
      ensures after[a] == Cell(r.ram, a)
    {
      if a == address as nat {
        assert after[a] == d;
      } else {
        assert after[a] == cells[a];
      }
    }
  }

  /** The frame of `ht1621_write_all` as written: address 0, then the low
      nibble of each of the first `min(length, 32)` bytes. */
  function WriteAllAsWrittenFrame(data: seq<uint8>, length: uint8): Trace
    requires |data| >= Min(length, CELLS)
  {
    Transfer([Field(5, 3), Field(0, 6)] + NibbleFields(data[..Min(length, CELLS)]))
  }

  /** `ht1621_write_all` as written: one nibble per byte on the wire, whole
      bytes into the shadow RAM. */
  function WriteAllAsWritten(lcd: Lcd, data: seq<uint8>, length: uint8): (r: Lcd)
    requires Valid(lcd) && |data| >= Min(length, CELLS)
    ensures Valid(r)
    ensures r.bus == lcd.bus + WriteAllAsWrittenFrame(data, length)
    ensures forall i :: 0 <= i < RAM_BYTES ==> r.ram[i] == if i < length then data[i] else lcd.ram[i]
  {
    var n := Min(length, RAM_BYTES);
    Lcd(data[..n] + lcd.ram[n..], lcd.bus + WriteAllAsWrittenFrame(data, length))
  }

  /** The controller receives the low nibbles of the first `min(length, 32)`
      bytes, at cells 0, 1, 2, ... */
  lemma WriteAllAsWrittenDelivers(data: seq<uint8>, length: uint8, b: Bus)
    requires |data| >= Min(length, CELLS) && b.cs
    ensures var fs := [Field(5, 3), Field(0, 6)] + NibbleFields(data[..Min(length, CELLS)]);
      && Frames(WriteAllAsWrittenFrame(data, length), b) == [FieldBits(fs)]
      && Decode(FieldBits(fs)) == Write(0, LowNibbles(data[..Min(length, CELLS)]))
  {
    TransferDelivers([Field(5, 3), Field(0, 6)] + NibbleFields(data[..Min(length, CELLS)]), b);
    DecodeWrite(0, data[..Min(length, CELLS)]);
  }

  /** Each byte as its two cells, low nibble first, as `write_data` lays them out. */
  function Split(bytes: seq<uint8>): (xs: seq<nat>)
    ensures |xs| == 2 * |bytes|
    ensures forall a :: 0 <= a < |xs| ==> xs[a] < 16
    ensures forall a :: 0 <= a < |xs| ==> xs[a] == if a % 2 == 0 then bytes[a / 2] % 16 else bytes[a / 2] / 16
    decreases |bytes|
  {
    if |bytes| == 0 then [] else [bytes[0] % 16, bytes[0] / 16] + Split(bytes[1..])
  }

  /** The frame `ht1621_write_all` is meant to send: address 0, then both
      nibbles of each of the first `min(length, 16)` bytes. */
  function WriteAllFrame(data: seq<uint8>, length: uint8): Trace
    requires |data| >= Min(length, RAM_BYTES)
  {
    Transfer([Field(5, 3), Field(0, 6)] + NibbleFields(Split(data[..Min(length, RAM_BYTES)])))
  }

  /** `ht1621_write_all` with the bytes sent the way the shadow RAM stores
      them. */
  function WriteAll(lcd: Lcd, data: seq<uint8>, length: uint8): (r: Lcd)
    requires Valid(lcd) && |data| >= Min(length, RAM_BYTES)
    ensures Valid(r)
    ensures r.bus == lcd.bus + WriteAllFrame(data, length)
    ensures forall i :: 0 <= i < RAM_BYTES ==> r.ram[i] == if i < length then data[i] else lcd.ram[i]
  {
    var n := Min(length, RAM_BYTES);
    Lcd(data[..n] + lcd.ram[n..], lcd.bus + WriteAllFrame(data, length))
  }

  lemma WriteAllDelivers(data: seq<uint8>, length: uint8, b: Bus)
    requires |data| >= Min(length, RAM_BYTES) && b.cs
    ensures var fs := [Field(5, 3), Field(0, 6)] + NibbleFields(Split(data[..Min(length, RAM_BYTES)]));
      && Frames(WriteAllFrame(data, length), b) == [FieldBits(fs)]
      && Decode(FieldBits(fs)) == Write(0, Split(data[..Min(length, RAM_BYTES)]))
  {
    var xs := Split(data[..Min(length, RAM_BYTES)]);
    TransferDelivers([Field(5, 3), Field(0, 6)] + NibbleFields(xs), b);
    DecodeWrite(0, xs);
    SplitIsNibbles(data[..Min(length, RAM_BYTES)]);
  }

  lemma SplitIsNibbles(bytes: seq<uint8>)
    ensures LowNibbles(Split(bytes)) == Split(bytes)
  {
    var xs := Split(bytes);
    var ys := LowNibbles(xs);
    forall a | 0 <= a < |xs|
      ensures ys[a] == xs[a]
    {
      var x := xs[a];
      assert x < 16;
      assert ys[a] == x % 16;
    }
  }

  /** After the corrected transfer the shadow RAM still mirrors the controller. */
  lemma WriteAllKeepsMirror(lcd: Lcd, cells: seq<nat>, data: seq<uint8>, length: uint8)
    requires Valid(lcd) && Mirrors(lcd.ram, cells) && |data| >= Min(length, RAM_BYTES)
    ensures Mirrors(WriteAll(lcd, data, length).ram, Apply(cells, Write(0, Split(data[..Min(length, RAM_BYTES)]))))
  {
  }

  function Zeros(n: nat): (z: seq<uint8>)
    ensures |z| == n && forall i :: 0 <= i < n ==> z[i] == 0
  {
    seq(n, i => 0)
  }

  /** `ht1621_clear`: zeros to every cell, and an all-zero shadow RAM. */
  function Clear(lcd: Lcd): (r: Lcd)
    requires Valid(lcd)
    ensures Valid(r) && r.ram == Zeros(RAM_BYTES)
    ensures r.bus == lcd.bus + WriteAllFrame(Zeros(CELLS), CELLS as uint8)
  {
    WriteAll(lcd, Zeros(CELLS), CELLS as uint8)
  }

  /** Whatever the controller held before, clearing blanks every cell and
      leaves the shadow RAM mirroring it. */
  lemma ClearBlanks(lcd: Lcd, cells: seq<nat>)
    requires Valid(lcd) && |cells| == CELLS
    ensures var after := Apply(cells, Write(0, Split(Zeros(CELLS)[..RAM_BYTES])));
      && Mirrors(Clear(lcd).ram, after)
      && forall a :: 0 <= a < CELLS ==> after[a] == 0
  {
    var z := Zeros(CELLS)[..RAM_BYTES];
    assert z == Zeros(RAM_BYTES);
    SplitZeros(RAM_BYTES);
    var after := Apply(cells, Write(0, Split(z)));
    forall a | 0 <= a < CELLS
      ensures after[a] == 0 && Cell(Clear(lcd).ram, a) == 0
    {
      assert after[a] == Split(z)[a];
    }
  }

  lemma SplitZeros(n: nat)
    ensures forall a :: 0 <= a < 2 * n ==> Split(Zeros(n))[a] == 0
  {
  }

  /** Sending whole bytes changes nothing for `clear`: the as-written and
      the corrected transfers of 32 zero bytes are the same pin writes. */
  lemma ClearTraceUnchanged()
    ensures WriteAllFrame(Zeros(CELLS), CELLS as uint8) == WriteAllAsWrittenFrame(Zeros(CELLS), CELLS as uint8)
  {
    assert Split(Zeros(CELLS)[..RAM_BYTES]) == Zeros(CELLS)[..CELLS];
  }

  // ---------------------------------------------------------------------
  // Numbers

  /** The number to show, in tenths, held to the displayable -9.9 .. 99.9. */
  function ClampTenths(t: int): (c: int)
    ensures -99 <= c <= 999
    ensures -99 <= t <= 999 ==> c == t
    ensures t > 999 ==> c == 999
    ensures t < -99 ==> c == -99
  {
    if t > 999 then 999 else if t < -99 then -99 else t
  }

  /** `p | SEG_DP`. */
  function WithDp(p: uint8): (q: uint8)
    ensures q >= SEG_DP && q % 0x80 == p % 0x80
  {
    if p >= SEG_DP then p else p + SEG_DP
  }

  lemma PatternsLeaveDpClear()
    ensures forall i :: 0 <= i < |DIGIT_PATTERNS| ==> DIGIT_PATTERNS[i] < SEG_DP
    ensures forall i :: 0 <= i < |CHAR_PATTERNS| ==> CHAR_PATTERNS[i] < SEG_DP
  {
  }

  /** The segment bytes of `display_number`: tens, units with the point
      when `decimalPlaces > 0`, tenths, and zeros after. A negative value
      (at least -9.9, so its tens digit is 0) shows a minus sign in place
      of the tens. */
  function NumberSegments(tenths: int, decimalPlaces: uint8): (seg: seq<uint8>)
    ensures |seg| == CELLS
    ensures forall i :: 3 <= i < CELLS ==> seg[i] == 0
    ensures seg[0] < SEG_DP && seg[2] < SEG_DP
    ensures seg[1] >= SEG_DP <==> decimalPlaces > 0
    ensures seg[0] == SEG_G <==> ClampTenths(tenths) < 0
  {
    PatternsLeaveDpClear();
    var v := ClampTenths(tenths);
    var magnitude := if v < 0 then -v else v;
    var tens, units, tenth := (magnitude / 100) % 10, (magnitude / 10) % 10, magnitude % 10;
    var s0 := if v < 0 && tens == 0 then SEG_G else DIGIT_PATTERNS[tens];
    var s1 := if decimalPlaces > 0 then WithDp(DIGIT_PATTERNS[units]) else DIGIT_PATTERNS[units];
    [s0, s1, DIGIT_PATTERNS[tenth]] + Zeros(CELLS - 3)
  }

  /** The decimal digit whose pattern is `p`, if any. */
  function DigitOf(p: nat): (d: Option<nat>)
    ensures d.Some? ==> d.value < 10 && DIGIT_PATTERNS[d.value] == p
    ensures d.None? ==> forall i :: 0 <= i < 10 ==> DIGIT_PATTERNS[i] != p
  {
    FindDigit(p, 0)
  }

  function FindDigit(p: nat, from: nat): (d: Option<nat>)
    requires from <= 10
    ensures d.Some? ==> from <= d.value < 10 && DIGIT_PATTERNS[d.value] == p
    ensures d.None? ==> forall i :: from <= i < 10 ==> DIGIT_PATTERNS[i] != p
    decreases 10 - from
  {
    if from == 10 then None
    else if DIGIT_PATTERNS[from] == p then Some(from)
    else FindDigit(p, from + 1)
  }

  /** The ten digit patterns are distinct, so each names its digit. */
  lemma DigitPatternsDistinct()
    ensures forall i, j :: 0 <= i < j < 10 ==> DIGIT_PATTERNS[i] != DIGIT_PATTERNS[j]
  {
  }

  lemma DigitRoundTrip(d: nat)
    requires d < 10
    ensures DigitOf(DIGIT_PATTERNS[d]) == Some(d)
  {
    DigitPatternsDistinct();
  }

  /** How a reader takes three digit positions: a minus sign or a digit,
      then two digits, the point ignored; `None` for anything unreadable. */
  function Reading(seg: seq<uint8>): Option<int>
    requires |seg| >= 3
  {
    var units, tenth := DigitOf(seg[1] % 0x80), DigitOf(seg[2] % 0x80);
    if units.None? || tenth.None? then None
    else if seg[0] % 0x80 == SEG_G then Some(-(10 * units.value + tenth.value))
    else
      var tens := DigitOf(seg[0] % 0x80);
      if tens.None? then None else Some(100 * tens.value + 10 * units.value + tenth.value)
  }

  /** The three positions of `NumberSegments`, digit by digit. */
  lemma NumberDigits(tenths: int, decimalPlaces: uint8)
    ensures var seg := NumberSegments(tenths, decimalPlaces);
      var v := ClampTenths(tenths);
      var magnitude := if v < 0 then -v else v;
      && seg[1] % 0x80 == DIGIT_PATTERNS[(magnitude / 10) % 10]
      && seg[2] % 0x80 == DIGIT_PATTERNS[magnitude % 10]
      && (v < 0 ==> seg[0] == SEG_G && magnitude < 100)
      && (v >= 0 ==> seg[0] == DIGIT_PATTERNS[(magnitude / 100) % 10] && magnitude < 1000)
  {
    PatternsLeaveDpClear();
  }

  /** The display reads back as the clamped number, sign included. */
  lemma NumberReadsBack(tenths: int, decimalPlaces: uint8)
    ensures Reading(NumberSegments(tenths, decimalPlaces)) == Some(ClampTenths(tenths))
  {
    var seg := NumberSegments(tenths, decimalPlaces);
    var v := ClampTenths(tenths);
    var magnitude := if v < 0 then -v else v;
    var tens, units, tenth := (magnitude / 100) % 10, (magnitude / 10) % 10, magnitude % 10;
    NumberDigits(tenths, decimalPlaces);
    DecimalDigits(magnitude);
    assert (if v < 0 then -(10 * units + tenth) else 100 * tens + 10 * units + tenth) == v;
    ReadingOf(seg, tens, units, tenth, v < 0);
  }

  lemma DecimalDigits(m: nat)
    requires m < 1000
    ensures m == 100 * ((m / 100) % 10) + 10 * ((m / 10) % 10) + m % 10
    ensures m < 100 ==> (m / 100) % 10 == 0
  {
  }

  lemma ReadingOf(seg: seq<uint8>, tens: nat, units: nat, tenth: nat, negative: bool)
    requires |seg| >= 3 && tens < 10 && units < 10 && tenth < 10
    requires seg[1] % 0x80 == DIGIT_PATTERNS[units] && seg[2] % 0x80 == DIGIT_PATTERNS[tenth]
    requires negative ==> seg[0] == SEG_G
    requires !negative ==> seg[0] == DIGIT_PATTERNS[tens]
    ensures Reading(seg) == Some(if negative then -(10 * units + tenth) else 100 * tens + 10 * units + tenth)
  {
    DigitRoundTrip(units);
    DigitRoundTrip(tenth);
    if negative {
      ReadingNegative(seg, units, tenth);
    } else {
      ReadingPositive(seg, tens, units, tenth);
    }
  }

  lemma ReadingNegative(seg: seq<uint8>, units: nat, tenth: nat)
    requires |seg| >= 3 && seg[0] == SEG_G
    requires DigitOf(seg[1] % 0x80) == Some(units) && DigitOf(seg[2] % 0x80) == Some(tenth)
    ensures Reading(seg) == Some(-(10 * units + tenth))
  {
    assert seg[0] % 0x80 == SEG_G;
  }

  lemma ReadingPositive(seg: seq<uint8>, tens: nat, units: nat, tenth: nat)
    requires |seg| >= 3 && tens < 10 && seg[0] == DIGIT_PATTERNS[tens]
    requires DigitOf(seg[1] % 0x80) == Some(units) && DigitOf(seg[2] % 0x80) == Some(tenth)
    ensures Reading(seg) == Some(100 * tens + 10 * units + tenth)
  {
    PatternsLeaveDpClear();
    DigitRoundTrip(tens);
    BelowDp(seg[0]);
    NoDigitIsMinus();
    assert seg[0] % 0x80 != SEG_G && DigitOf(seg[0] % 0x80) == Some(tens);
  }

  lemma NoDigitIsMinus()
    ensures forall i :: 0 <= i < 10 ==> DIGIT_PATTERNS[i] != SEG_G
  {
  }

  lemma BelowDp(p: nat)
    requires p < SEG_DP as nat
    ensures p % 0x80 == p
  {
    DivModUnique(p, 0x80, 0, p);
  }

  /** `ht1621_display_number` over integer tenths. */
  function DisplayNumber(lcd: Lcd, tenths: int, decimalPlaces: uint8): (r: Lcd)
    requires Valid(lcd)
    ensures Valid(r) && r.ram == NumberSegments(tenths, decimalPlaces)[..RAM_BYTES]
    ensures r.bus == lcd.bus + WriteAllFrame(NumberSegments(tenths, decimalPlaces), CELLS as uint8)
  {
    WriteAll(lcd, NumberSegments(tenths, decimalPlaces), CELLS as uint8)
  }

  /** `ht1621_display_number` over the `write_all` as written: the shadow RAM
      of the corrected display, the low-nibble frame on the bus. */
  function DisplayNumberAsWritten(lcd: Lcd, tenths: int, decimalPlaces: uint8): (r: Lcd)
    requires Valid(lcd)
    ensures Valid(r) && r.ram == DisplayNumber(lcd, tenths, decimalPlaces).ram
    ensures r.bus == lcd.bus + WriteAllAsWrittenFrame(NumberSegments(tenths, decimalPlaces), CELLS as uint8)
  {
    WriteAllAsWritten(lcd, NumberSegments(tenths, decimalPlaces), CELLS as uint8)
  }

  /** Counterexample: as written, showing -0.5 puts the minus sign in the
      shadow RAM but not on the glass. The sign is bit 6 of byte 0, the high
      nibble, which `write_all` never sends; cell 1 gets the units digit's
      low nibble instead. */
  lemma AsWrittenLosesMinusSign(lcd: Lcd, cells: seq<nat>)
    requires Valid(lcd) && Mirrors(lcd.ram, cells)
    ensures var seg := NumberSegments(-5, 0);
      var after := Apply(cells, Write(0, LowNibbles(seg[..CELLS])));
      && Cell(WriteAllAsWritten(lcd, seg, CELLS as uint8).ram, 1) == SEG_G as nat / 16
      && after[1] == DIGIT_PATTERNS[0] % 16
      && !Mirrors(WriteAllAsWritten(lcd, seg, CELLS as uint8).ram, after)
  {
    var seg := NumberSegments(-5, 0);
    assert seg[0] == SEG_G;
    assert seg[1] == DIGIT_PATTERNS[0];
  }

  // ---------------------------------------------------------------------
  // Text

  /** The glyph `display_text` gives one character. */
  function Glyph(c: char): (p: uint8)
    ensures p < SEG_DP
  {
    PatternsLeaveDpClear();
    if '0' <= c <= '9' then DIGIT_PATTERNS[c as int - '0' as int]
    else if 'A' <= c <= 'Z' then CHAR_PATTERNS[c as int - 'A' as int]
    else if 'a' <= c <= 'z' then CHAR_PATTERNS[c as int - 'a' as int]
    else if c == '-' then SEG_G
    else if c == '_' then SEG_D
    else 0
  }

  /** Letters look the same in either case, and digits read back as themselves. */
  lemma GlyphFacts(c: char)
    ensures 'a' <= c <= 'z' ==> Glyph(c) == Glyph((c as int - 32) as char)
    ensures '0' <= c <= '9' ==> DigitOf(Glyph(c)) == Some(c as int - '0' as int)
  {
    if '0' <= c <= '9' {
      DigitRoundTrip(c as int - '0' as int);
    }
  }

  /** The glyphs of `display_text`, continuing from the `shown` positions:
      the scan stops at the end, at a NUL or once four positions are full;
      a '.' sets the point of the position before it and takes none itself. */
  function Render(text: string, shown: seq<uint8>): (r: seq<uint8>)
    requires |shown| <= 4
    ensures |shown| <= |r| <= 4
    decreases |text|
  {
    if |text| == 0 || text[0] == '\0' || |shown| == 4 then shown
    else if text[0] == '.' then
      Render(text[1..], if |shown| > 0 then shown[..|shown| - 1] + [WithDp(shown[|shown| - 1])] else shown)
    else Render(text[1..], shown + [Glyph(text[0])])
  }

  /** The glyph of each character, in order. */
  function Glyphs(text: string): (g: seq<uint8>)
    ensures |g| == |text|
  {
    if |text| == 0 then [] else [Glyph(text[0])] + Glyphs(text[1..])
  }

  predicate Plain(text: string)
  {
    forall i :: 0 <= i < |text| ==> text[i] != '.' && text[i] != '\0'
  }

  /** Text without points shows the glyphs of its first four characters. */
  lemma {:induction false} PlainTextShowsFirstFour(text: string, shown: seq<uint8>)
    requires Plain(text) && |shown| <= 4
    ensures Render(text, shown) == shown + Glyphs(text[..Min(|text|, 4 - |shown|)])
    decreases |text|
  {
    if |text| > 0 && |shown| < 4 {
      PlainTextShowsFirstFour(text[1..], shown + [Glyph(text[0])]);
      assert text[1..][..Min(|text| - 1, 4 - |shown| - 1)] == text[1..Min(|text|, 4 - |shown|)];
      assert shown + Glyphs(text[..Min(|text|, 4 - |shown|)])
          == shown + [Glyph(text[0])] + Glyphs(text[1..Min(|text|, 4 - |shown|)]);
    }
  }

  /** A point after one to three plain characters joins the last of them;
      after four it is never reached. */
  lemma PointJoinsPrevious(text: string)
    requires Plain(text) && 1 <= |text| <= 4
    ensures |text| < 4 ==> Render(text + ".", []) == Glyphs(text[..|text| - 1]) + [WithDp(Glyph(text[|text| - 1]))]
    ensures |text| == 4 ==> Render(text + ".", []) == Glyphs(text)
  {
    var t := text + ".";
    assert t[..|text|] == text;
    RenderPrefix(t, |text|, []);
    assert t[|text|..] == ".";
    var g := Glyphs(text);
    assert [] + g == g;
    RenderPoint(g);
    GlyphsLast(text);
  }

  /** A point with something shown before it sets that position's DP bit;
      with all four positions shown it is never reached. */
  lemma RenderPoint(g: seq<uint8>)
    requires 1 <= |g| <= 4
    ensures |g| < 4 ==> Render(".", g) == g[..|g| - 1] + [WithDp(g[|g| - 1])]
    ensures |g| == 4 ==> Render(".", g) == g
  {
    var text := ".";
    assert text[0] == '.' && text[1..] == "";
    if |g| < 4 {
      var marked := g[..|g| - 1] + [WithDp(g[|g| - 1])];
      assert Render(text, g) == Render("", marked);
    }
  }

  lemma {:induction false} GlyphsLast(text: string)
    requires |text| > 0
    ensures Glyphs(text) == Glyphs(text[..|text| - 1]) + [Glyph(text[|text| - 1])]
    decreases |text|
  {
    if |text| > 1 {
      GlyphsLast(text[1..]);
      assert text[1..][..|text| - 2] == text[..|text| - 1][1..];
    } else {
      assert text[..0] == [];
    }
  }

  /** Rendering a plain prefix of `n` characters and then the rest is rendering the whole. */
  lemma {:induction false} RenderPrefix(text: string, n: nat, shown: seq<uint8>)
    requires n <= |text| && Plain(text[..n]) && |shown| + n <= 4
    ensures Render(text, shown) == Render(text[n..], shown + Glyphs(text[..n]))
    decreases n
  {
    if n > 0 {
      assert text[0] == text[..n][0];
      assert text[0] != '.' && text[0] != '\0';
      assert Render(text, shown) == Render(text[1..], shown + [Glyph(text[0])]);
      assert Plain(text[1..][..n - 1]) by { assert text[1..][..n - 1] == text[..n][1..]; }
      RenderPrefix(text[1..], n - 1, shown + [Glyph(text[0])]);
      assert text[1..][n - 1..] == text[n..];
      assert text[..n][1..] == text[1..][..n - 1];
      assert Glyphs(text[..n]) == [Glyph(text[0])] + Glyphs(text[1..][..n - 1]);
      assert shown + [Glyph(text[0])] + Glyphs(text[1..][..n - 1]) == shown + Glyphs(text[..n]);
    } else {
      assert text[..0] == [] && text[0..] == text;
      assert shown + Glyphs([]) == shown;
    }
  }

  /** The segment bytes of `display_text`: the glyphs, then zeros. */
  function TextSegments(text: string): (seg: seq<uint8>)
    ensures |seg| == CELLS
    ensures forall i :: 4 <= i < CELLS ==> seg[i] == 0
  {
    var g := Render(text, []);
    g + Zeros(CELLS - |g|)
  }

  /** `ht1621_display_text`. */
  function DisplayText(lcd: Lcd, text: string): (r: Lcd)
    requires Valid(lcd)
    ensures Valid(r) && r.ram == TextSegments(text)[..RAM_BYTES]
    ensures r.bus == lcd.bus + WriteAllFrame(TextSegments(text), CELLS as uint8)
  {
    WriteAll(lcd, TextSegments(text), CELLS as uint8)
  }

  /** `ht1621_display_text` over the `write_all` as written: the shadow RAM
      of the corrected display, the low-nibble frame on the bus. */
  function DisplayTextAsWritten(lcd: Lcd, text: string): (r: Lcd)
    requires Valid(lcd)
    ensures Valid(r) && r.ram == DisplayText(lcd, text).ram
    ensures r.bus == lcd.bus + WriteAllAsWrittenFrame(TextSegments(text), CELLS as uint8)
  {
    WriteAllAsWritten(lcd, TextSegments(text), CELLS as uint8)
  }

  // ---------------------------------------------------------------------
  // Icons

  /** The index of the lowest set bit. */
  function Ctz(x: nat): (n: nat)
    requires x > 0
    ensures Bit(x, n) && forall i :: 0 <= i < n ==> !Bit(x, i)
    ensures Pow2(n) <= x
  {
    if x % 2 == 1 then 0 else 1 + Ctz(x / 2)
  }

  lemma {:induction false} Pow2Monotone(a: nat, b: nat)
    requires a <= b
    ensures Pow2(a) <= Pow2(b)
    decreases b
  {
    if a < b {
      Pow2Monotone(a, b - 1);
    }
  }

  lemma {:induction false} CtzPow2(i: nat)
    ensures Ctz(Pow2(i)) == i
    decreases i
  {
    if i > 0 {
      CtzPow2(i - 1);
    }
  }

  /** The cell of an icon: 24 plus the index of its lowest set bit. */
  function IconAddress(icon: uint8): (a: uint8)
    requires icon > 0
    ensures 24 <= a < CELLS
    ensures Bit(icon, a - 24) && forall i :: 0 <= i < a - 24 ==> !Bit(icon, i)
  {
    var n := Ctz(icon);
    assert n < 8 by {
      if n >= 8 {
        Pow2Monotone(8, n);
      }
    }
    24 + n
  }

  /** `ht1621_set_icon`: all four segments of the icon's cell on or off. The
      bit count of a zero icon is undefined in C, so the icon must be non-zero. */
  function SetIcon(lcd: Lcd, icon: uint8, state: bool): (r: Lcd)
    requires Valid(lcd) && icon > 0
    ensures Valid(r)
    ensures r.bus == lcd.bus + WriteDataFrame(IconAddress(icon), if state then 0xF else 0)
    ensures Cell(r.ram, IconAddress(icon)) == if state then 0xF else 0
    ensures forall a :: 0 <= a < CELLS && a != IconAddress(icon) ==> Cell(r.ram, a) == Cell(lcd.ram, a)
  {
    WriteData(lcd, IconAddress(icon), if state then 0xF else 0)
  }

  /** Icon `1 << i` lives in cell 24 + i. */
  lemma IconBitAddress(i: nat)
    requires i < 8
    ensures 0 < Pow2(i) < 256 && IconAddress(Pow2(i)) == 24 + i
  {
    Pow2Monotone(i, 7);
    assert Pow2(7) == 128;
    CtzPow2(i);
  }

  /** The pin writes of `set_all_icons` from icon `i` on: one `write_data`
      per icon, at cell 24 + i. */
  function IconBus(icons: uint8, i: nat): Trace
    requires i <= 8
    decreases 8 - i
  {
    if i == 8 then [] else WriteDataFrame(24 + i, if Bit(icons, i) then 0xF else 0) + IconBus(icons, i + 1)
  }

  lemma IconBusStep(icons: uint8, i: nat)
    requires i < 8
    ensures IconBus(icons, i) == WriteDataFrame(24 + i, if Bit(icons, i) then 0xF else 0) + IconBus(icons, i + 1)
  {
  }

  /** Cells below 24 + i as in `before`; cell 24 + j, for j from i to 7,
      all on exactly when bit j of `icons` is set. */
  predicate IconsShown(ram: seq<uint8>, before: seq<uint8>, icons: uint8, i: nat)
    requires |ram| == RAM_BYTES && |before| == RAM_BYTES
  {
    && (forall a :: 0 <= a < 24 + i && a < CELLS ==> Cell(ram, a) == Cell(before, a))
    && (forall j :: i <= j < 8 ==> Cell(ram, 24 + j) == if Bit(icons, j) then 0xF else 0)
  }

  /** Setting icon `i` and then icons `i + 1..` shows icons `i..`. */
  lemma ShownStep(before: seq<uint8>, mid: seq<uint8>, after: seq<uint8>, icons: uint8, i: nat)
    requires |before| == RAM_BYTES && |mid| == RAM_BYTES && |after| == RAM_BYTES && i < 8
    requires Cell(mid, 24 + i) == if Bit(icons, i) then 0xF else 0
    requires forall a :: 0 <= a < CELLS && a != 24 + i ==> Cell(mid, a) == Cell(before, a)
    requires IconsShown(after, mid, icons, i + 1)
    ensures IconsShown(after, before, icons, i)
  {
  }

  /** The loop of `ht1621_set_all_icons` from icon `i` on. */
  function IconsFrom(lcd: Lcd, icons: uint8, i: nat): (r: Lcd)
    requires Valid(lcd) && i <= 8
    ensures Valid(r)
    ensures r.bus == lcd.bus + IconBus(icons, i)
    ensures IconsShown(r.ram, lcd.ram, icons, i)
    decreases 8 - i
  {
    if i == 8 then lcd
    else
      IconBitAddress(i);
      var icon: uint8 := Pow2(i);
      var on := Bit(icons, i);
      var mid := SetIcon(lcd, icon, on);
      assert mid.bus == lcd.bus + WriteDataFrame(24 + i, if on then 0xF else 0);
      assert Valid(mid);
      var r := IconsFrom(mid, icons, i + 1);
      ShownStep(lcd.ram, mid.ram, r.ram, icons, i);
      IconBusStep(icons, i);
      AppendAssoc(lcd.bus, WriteDataFrame(24 + i, if Bit(icons, i) then 0xF else 0), IconBus(icons, i + 1));
      r
  }

  /** `ht1621_set_all_icons`: cell 24 + i lit exactly when bit i of `icons`
      is set; cells 0-23 untouched. */
  function SetAllIcons(lcd: Lcd, icons: uint8): (r: Lcd)
    requires Valid(lcd)
    ensures Valid(r)
    ensures r.bus == lcd.bus + IconBus(icons, 0)
    ensures IconsShown(r.ram, lcd.ram, icons, 0)
  {
    IconsFrom(lcd, icons, 0)
  }

  /** One icon's frame, as the controller reads it. */
  lemma IconFrame(address: uint8, v: uint8, b: Bus) returns (first: seq<bool>)
    requires address < 64 && b.cs
    ensures Frames(WriteDataFrame(address, v), b) == [first]
    ensures Decode(first) == Write(address, [v % 16])
    ensures After(WriteDataFrame(address, v), b).cs
  {
    first := FieldBits([Field(5, 3), Field(address, 6), Field(v, 4)]);
    WriteDataDelivers(address, v, b);
    DivModUnique(address as nat, 64, 0, address as nat);
    TransferDelivers([Field(5, 3), Field(address, 6), Field(v, 4)], b);
  }

  /** How the controller reads each of a sequence of frames. */
  function DecodeAll(fs: seq<seq<bool>>): (ops: seq<Op>)
    ensures |ops| == |fs|
  {
    if |fs| == 0 then [] else [Decode(fs[0])] + DecodeAll(fs[1..])
  }

  lemma DecodeAllCons(f: seq<bool>, fs: seq<seq<bool>>)
    ensures DecodeAll([f] + fs) == [Decode(f)] + DecodeAll(fs)
  {
    assert ([f] + fs)[1..] == fs;
  }

  /** The writes `set_all_icons` is meant to make from icon `i` on. */
  function IconOps(icons: uint8, i: nat): (ops: seq<Op>)
    requires i <= 8
    ensures |ops| == 8 - i
    ensures forall k :: 0 <= k < 8 - i ==> ops[k] == Write(24 + i + k, [if Bit(icons, i + k) then 0xF else 0])
    decreases 8 - i
  {
    if i == 8 then [] else [Write(24 + i, [if Bit(icons, i) then 0xF else 0])] + IconOps(icons, i + 1)
  }

  lemma IconOpsStep(icons: uint8, i: nat)
    requires i < 8
    ensures IconOps(icons, i) == [Write(24 + i, [if Bit(icons, i) then 0xF else 0])] + IconOps(icons, i + 1)
  {
  }

  /** A trace that completes exactly one frame and leaves CS high, followed by more. */
  lemma OneFrameThen(head: Trace, rest: Trace, f: seq<bool>, b: Bus) returns (next: Bus)
    requires Frames(head, b) == [f] && After(head, b).cs
    ensures Frames(head + rest, b) == [f] + Frames(rest, next)
    ensures next.cs
  {
    Concat(head, rest, b);
    next := After(head, b);
  }

  /** A `write_data` frame followed by more: its write comes first, then
      whatever the rest delivers. */
  lemma FrameThen(address: uint8, v: uint8, rest: Trace, b: Bus) returns (first: seq<bool>, next: Bus)
    requires address < 64 && v < 16 && b.cs
    ensures Frames(WriteDataFrame(address, v) + rest, b) == [first] + Frames(rest, next)
    ensures Decode(first) == Write(address, [v])
    ensures next.cs
  {
    first := IconFrame(address, v, b);
    DivModUnique(v as nat, 16, 0, v as nat);
    next := OneFrameThen(WriteDataFrame(address, v), rest, first, b);
  }

  /** On the wire `set_all_icons` is eight `write_data` frames, the i-th
      writing 0xF or 0 to cell 24 + i as bit i of `icons` is set or not. */
  lemma {:induction false} IconBusFrames(icons: uint8, i: nat, b: Bus)
    requires i <= 8 && b.cs
    ensures DecodeAll(Frames(IconBus(icons, i), b)) == IconOps(icons, i)
    decreases 8 - i
  {
    if i < 8 {
      var v: uint8 := if Bit(icons, i) then 0xF else 0;
      var rest := IconBus(icons, i + 1);
      IconBusStep(icons, i);
      var first, next := FrameThen(24 + i, v, rest, b);
      IconBusFrames(icons, i + 1, next);
      DecodeAllCons(first, Frames(rest, next));
      IconOpsStep(icons, i);
    } else {
      assert IconBus(icons, i) == [];
    }
  }
}

=== FILE: legacy_controller.dfy ===
/** The earlier single-board controller: an on/off hysteresis loop with a
    proportional power estimate over one global configuration record, the
    events that update that record, and its range-checked setters.  The
    microsecond clock is a parameter. */
module LegacyController {
  import opened Common

  const TEMP_MIN_CELSIUS: real := 5.0
  const TEMP_MAX_CELSIUS: real := 30.0
  const TEMP_HYSTERESIS: real := 0.2
  const POWER_MAX_PERCENT: nat := 100
  /** The proportional gain of the power estimate: percent per degree. */
  const POWER_GAIN: real := 20.0

  /** `heating_mode_t`, in enumeration order (OFF = 0 ... VACATION = 6). */
  datatype HeatingMode = Off | Comfort | Eco | AntiFreeze | Program | Boost | Vacation
  const MODE_COUNT: nat := 7

  /** `system_state_t`. */
  datatype SystemState = Init | Idle | Heating | Error | Pairing | Updating

  /** `temperature_data_t`. */
  datatype TemperatureData = TemperatureData(current: real, target: real, offset: real, valid: bool, lastUpdate: uint32)

  /** `power_control_t`. */
  datatype PowerControl = PowerControl(currentPercent: uint8, targetPercent: uint8, softStartActive: bool,
                                       softStartBegin: uint32, lastZeroCross: uint32, phaseDelayUs: uint16)

  /** `presence_data_t`. */
  datatype PresenceData = PresenceData(pirDetected: bool, manualOverride: bool, windowOpen: bool,
                                       lastMotion: uint32, absenceTimerMin: uint32)

  /** `schedule_entry_t`. */
  datatype ScheduleEntry = ScheduleEntry(hour: uint8, minute: uint8, mode: HeatingMode, temperature: real)

  /** `system_config_t`. */
  datatype SystemConfig = SystemConfig(
    mode: HeatingMode, state: SystemState, temperature: TemperatureData, power: PowerControl,
    presence: PresenceData, schedule: seq<seq<ScheduleEntry>>, childLock: bool, adaptiveStart: bool,
    openWindowDetection: bool, lcdBrightness: uint8, zigbeeShortAddr: uint16)

  /** `system_event_t`: the event type with its payload. */
  datatype SystemEvent =
    | ButtonPress(buttonId: uint8)
    | ButtonLongPress(buttonId: uint8)
    | TempUpdate(temperature: real)
    | PresenceChange(detected: bool)
    | WindowChange(open: bool)
    | ZigbeeCmd(cmd: uint8)
    | ZeroCross
    | TimerTick

  function ModeCode(m: HeatingMode): (code: nat)
    ensures code < MODE_COUNT
  {
    match m
    case Off => 0
    case Comfort => 1
    case Eco => 2
    case AntiFreeze => 3
    case Program => 4
    case Boost => 5
    case Vacation => 6
  }

  function ModeOf(code: nat): (m: HeatingMode)
    requires code < MODE_COUNT
    ensures ModeCode(m) == code
  {
    [Off, Comfort, Eco, AntiFreeze, Program, Boost, Vacation][code]
  }

  lemma ModeCodeRoundTrip(m: HeatingMode)
    ensures ModeOf(ModeCode(m)) == m
  {
  }

  /** The C assignment of a wider value to a `uint32_t` field. */
  function ToUint32(x: nat): (r: uint32)
    ensures x < 0x1_0000_0000 ==> r == x
  {
    x % 0x1_0000_0000
  }

  /** The event switch of `main_task`: each event writes its own field and
      nothing else; the timestamps come from the microsecond clock. */
  function Dispatch(c: SystemConfig, e: SystemEvent, nowUs: nat): (r: SystemConfig)
    ensures e.TempUpdate? ==>
      r == c.(temperature := c.temperature.(current := e.temperature, lastUpdate := ToUint32(nowUs / 1000)))
    ensures e.PresenceChange? && e.detected ==>
      r == c.(presence := c.presence.(pirDetected := true, lastMotion := ToUint32(nowUs / 1000000)))
    ensures e.PresenceChange? && !e.detected ==> r == c.(presence := c.presence.(pirDetected := false))
    ensures e.WindowChange? ==> r == c.(presence := c.presence.(windowOpen := e.open))
    ensures !(e.TempUpdate? || e.PresenceChange? || e.WindowChange?) ==> r == c
    ensures r.temperature.valid == c.temperature.valid && r.state == c.state && r.mode == c.mode
  {
    match e
    case TempUpdate(t) => c.(temperature := c.temperature.(current := t, lastUpdate := ToUint32(nowUs / 1000)))
    case PresenceChange(detected) =>
      if detected then c.(presence := c.presence.(pirDetected := true, lastMotion := ToUint32(nowUs / 1000000)))
      else c.(presence := c.presence.(pirDetected := false))
    case WindowChange(open) => c.(presence := c.presence.(windowOpen := open))
    case _ => c
  }

  /** The on/off decision: start heating above the band, stop below it,
      keep the state inside it; nothing is decided without a valid reading
      or in OFF mode. */
  function NextState(c: SystemConfig): (s: SystemState)
    ensures var diff := c.temperature.target - c.temperature.current;
      && (c.temperature.valid && c.mode != Off && diff > TEMP_HYSTERESIS ==> s == Heating)
      && (c.temperature.valid && c.mode != Off && diff < -TEMP_HYSTERESIS && c.state == Heating ==> s == Idle)
      && (!(c.temperature.valid && c.mode != Off) ==> s == c.state)
      && (-TEMP_HYSTERESIS <= diff <= TEMP_HYSTERESIS ==> s == c.state)
      && (s != c.state ==> s in {Heating, Idle})
  {
    var diff := c.temperature.target - c.temperature.current;
    if !c.temperature.valid || c.mode == Off then c.state
    else if diff > TEMP_HYSTERESIS then Heating
    else if diff < -TEMP_HYSTERESIS && c.state == Heating then Idle
    else c.state
  }

  /** The power estimate: 20 % per degree below target, at most 100 %,
      none unless heating with the window closed.  The source converts the
      `float` product to `uint8_t`, which C leaves undefined below 0 (heating
      persists slightly above target) and at 256 or more (12.8 degrees below
      target); the model saturates at 0 and 255 there. */
  function TargetPercent(state: SystemState, windowOpen: bool, target: real, current: real): (p: uint8)
    ensures p <= POWER_MAX_PERCENT
    ensures state != Heating || windowOpen ==> p == 0
    ensures state == Heating && !windowOpen ==> p == Min(TruncToUint8((target - current) * POWER_GAIN), POWER_MAX_PERCENT)
    ensures p > 0 ==> target - current >= 1.0 / POWER_GAIN
  {
    if state == Heating && !windowOpen then
      var power := TruncToUint8((target - current) * POWER_GAIN);
      if power > POWER_MAX_PERCENT then POWER_MAX_PERCENT else power
    else 0
  }

  /** The control block of `main_task`, run after every event and every 100 ms. */
  function ControlBlock(c: SystemConfig): (r: SystemConfig)
    ensures r.state == NextState(c)
    ensures r.power.targetPercent ==
      TargetPercent(NextState(c), c.presence.windowOpen, c.temperature.target, c.temperature.current)
    ensures r == c.(state := r.state, power := c.power.(targetPercent := r.power.targetPercent))
  {
    var state := NextState(c);
    c.(state := state,
       power := c.power.(targetPercent := TargetPercent(state, c.presence.windowOpen, c.temperature.target, c.temperature.current)))
  }

  /** Running the control block twice in a row changes nothing the second time. */
  lemma ControlBlockIdempotent(c: SystemConfig)
    ensures ControlBlock(ControlBlock(c)) == ControlBlock(c)
  {
  }

  /** In OFF mode the hysteresis is skipped, so a controller that was heating
      keeps heating toward the OFF preset of 5 degrees. */
  lemma OffModeKeepsState(c: SystemConfig)
    requires c.mode == Off
    ensures ControlBlock(c).state == c.state
    ensures c.state == Heating && !c.presence.windowOpen && c.temperature.current + 1.0 <= c.temperature.target ==>
      ControlBlock(c).power.targetPercent > 0
  {
    var diff := c.temperature.target - c.temperature.current;
    if c.state == Heating && !c.presence.windowOpen && diff >= 1.0 {
      assert diff * POWER_GAIN >= 20.0;
    }
  }

  /** One iteration of `main_task`: the event received (if any), then the control block. */
  function MainStep(c: SystemConfig, e: Option<SystemEvent>, nowUs: nat): (r: SystemConfig)
    ensures r.temperature.valid == c.temperature.valid
    ensures r.mode == c.mode
  {
    ControlBlock(if e.Some? then Dispatch(c, e.value, nowUs) else c)
  }

  /** Nothing the loop or its events do ever marks the temperature valid, so
      from a state that is not heating the controller never heats: every
      power target it computes is 0 and the state never moves. */
  lemma {:induction false} NeverHeatsWithoutValidReading(c: SystemConfig, events: seq<Option<SystemEvent>>, nowUs: nat)
    requires !c.temperature.valid && c.state != Heating
    ensures var r := Run(c, events, nowUs);
      !r.temperature.valid && r.state == c.state && (|events| > 0 ==> r.power.targetPercent == 0)
    decreases |events|
  {
    if |events| > 0 {
      var c' := MainStep(c, events[0], nowUs);
      assert c'.state == c.state && c'.power.targetPercent == 0;
      NeverHeatsWithoutValidReading(c', events[1..], nowUs);
    }
  }

  /** The loop over a sequence of iterations (all at one clock reading, which only timestamps). */
  function Run(c: SystemConfig, events: seq<Option<SystemEvent>>, nowUs: nat): (r: SystemConfig)
    decreases |events|
  {
    if |events| == 0 then c else Run(MainStep(c, events[0], nowUs), events[1..], nowUs)
  }

  /** An all-zero schedule entry, as `memset` leaves it. */
  const EmptyEntry: ScheduleEntry := ScheduleEntry(0, 0, Off, 0.0)

  /** `load_default_config`: eco mode, INIT state, 20 degrees, no valid
      reading, no power, a cleared schedule; the fields it does not name keep their values. */
  function LoadDefaultConfig(c: SystemConfig): (r: SystemConfig)
    ensures r.mode == Eco && r.state == Init
    ensures r.temperature == c.temperature.(target := 20.0, offset := 0.0, valid := false)
    ensures r.power == c.power.(currentPercent := 0, targetPercent := 0, softStartActive := true)
    ensures r.presence == c.presence.(absenceTimerMin := 60)
    ensures !r.childLock && r.adaptiveStart && r.openWindowDetection && r.lcdBrightness == 80
    ensures |r.schedule| == 7 && forall d :: 0 <= d < 7 ==> r.schedule[d] == seq(6, _ => EmptyEntry)
    ensures r.zigbeeShortAddr == c.zigbeeShortAddr
  {
    c.(mode := Eco, state := Init,
       temperature := c.temperature.(target := 20.0, offset := 0.0, valid := false),
       power := c.power.(currentPercent := 0, targetPercent := 0, softStartActive := true),
       presence := c.presence.(absenceTimerMin := 60),
       childLock := false, adaptiveStart := true, openWindowDetection := true, lcdBrightness := 80,
       schedule := seq(7, _ => seq(6, _ => EmptyEntry)))
  }

  /** From the defaults the legacy loop never heats. */
  lemma DefaultsNeverHeat(c: SystemConfig, events: seq<Option<SystemEvent>>, nowUs: nat)
    ensures Run(LoadDefaultConfig(c), events, nowUs).state == Init
    ensures |events| > 0 ==> Run(LoadDefaultConfig(c), events, nowUs).power.targetPercent == 0
  {
    NeverHeatsWithoutValidReading(LoadDefaultConfig(c), events, nowUs);
  }

  predicate TargetInRange(c: SystemConfig)
  {
    TEMP_MIN_CELSIUS <= c.temperature.target <= TEMP_MAX_CELSIUS
  }

  /** `thermor_set_target_temp`: only values inside [5, 30] are stored. */
  function SetTargetTemp(c: SystemConfig, temp: real): (r: (Status, SystemConfig))
    ensures temp < TEMP_MIN_CELSIUS || temp > TEMP_MAX_CELSIUS ==> r == (InvalidArg, c)
    ensures TEMP_MIN_CELSIUS <= temp <= TEMP_MAX_CELSIUS ==>
      r.0 == Ok && r.1 == c.(temperature := c.temperature.(target := temp))
    ensures TargetInRange(c) ==> TargetInRange(r.1)
  {
    if temp < TEMP_MIN_CELSIUS || temp > TEMP_MAX_CELSIUS then (InvalidArg, c)
    else (Ok, c.(temperature := c.temperature.(target := temp)))
  }

  /** The target a mode switch presets, if any. */
  function ModePreset(m: HeatingMode): (t: Option<real>)
    ensures t.Some? ==> TEMP_MIN_CELSIUS <= t.value <= TEMP_MAX_CELSIUS
    ensures t.None? <==> m in {Program, Vacation}
  {
    match m
    case Off => Some(TEMP_MIN_CELSIUS)
    case Comfort => Some(21.0)
    case Eco => Some(19.0)
    case AntiFreeze => Some(7.0)
    case Boost => Some(23.0)
    case _ => None
  }

  /** `thermor_set_mode`: codes beyond VACATION are refused; otherwise the
      mode is stored and its preset target, if it has one, applied. */
  function SetMode(c: SystemConfig, code: nat): (r: (Status, SystemConfig))
    ensures code >= MODE_COUNT ==> r == (InvalidArg, c)
    ensures code < MODE_COUNT ==> r.0 == Ok && r.1.mode == ModeOf(code)
    ensures code == 0 ==> r.1.temperature.target == 5.0
    ensures code == 1 ==> r.1.temperature.target == 21.0
    ensures code == 2 ==> r.1.temperature.target == 19.0
    ensures code == 3 ==> r.1.temperature.target == 7.0
    ensures code == 5 ==> r.1.temperature.target == 23.0
    ensures code == 4 || code == 6 || code >= MODE_COUNT ==> r.1.temperature == c.temperature
    ensures r.1 == c.(mode := r.1.mode, temperature := c.temperature.(target := r.1.temperature.target))
    ensures TargetInRange(c) ==> TargetInRange(r.1)
  {
    if code >= MODE_COUNT then (InvalidArg, c)
    else
      var m := ModeOf(code);
      var target := match ModePreset(m) case Some(t) => t case None => c.temperature.target;
      (Ok, c.(mode := m, temperature := c.temperature.(target := target)))
  }

  /** `thermor_mode_to_string`: total, "UNKNOWN" outside the enumeration. */
  function ModeToString(code: nat): (s: string)
    ensures code >= MODE_COUNT <==> s == "UNKNOWN"
  {
    if code >= MODE_COUNT then "UNKNOWN"
    else ["OFF", "COMFORT", "ECO", "ANTI-FREEZE", "PROGRAM", "BOOST", "VACATION"][code]
  }

  /** Every mode has its own name. */
  lemma ModeNamesDistinct(a: nat, b: nat)
    requires a < MODE_COUNT && b < MODE_COUNT && a != b
    ensures ModeToString(a) != ModeToString(b)
  {
  }

  /** `thermor_set_power_percent`: only 0..100 is stored, and only as the target. */
  function SetPowerPercent(c: SystemConfig, percent: uint8): (r: (Status, SystemConfig))
    ensures percent > POWER_MAX_PERCENT ==> r == (InvalidArg, c)
    ensures percent <= POWER_MAX_PERCENT ==> r.0 == Ok && r.1 == c.(power := c.power.(targetPercent := percent))
    ensures r.1.power.targetPercent <= POWER_MAX_PERCENT || r.1 == c
  {
    if percent > POWER_MAX_PERCENT then (InvalidArg, c)
    else (Ok, c.(power := c.power.(targetPercent := percent)))
  }
}

=== FILE: pid_controller.dfy ===
/** The PID controller of the heating loop, over `real` as an idealisation of
    the source's `float`.  The clock is a parameter: `now` is the millisecond
    timestamp the source reads from `esp_timer_get_time() / 1000`. */
module PidController {
  import opened Common

  /** `pid_config_t`. */
  datatype Config = Config(kp: real, ki: real, kd: real, outputMin: real, outputMax: real, sampleTimeMs: uint32)

  /** `pid_controller_t`. */
  datatype Pid = Pid(cfg: Config, integral: real, lastError: real, lastInput: real, lastTime: nat, firstRun: bool)

  /** What one `compute` call returns, together with the controller it leaves behind. */
  datatype Step = Step(output: real, pid: Pid)

  /** `pid_controller_init`: the configuration as given, a cleared history and the first-run flag. */
  function Init(cfg: Config): (p: Pid)
    ensures p.cfg == cfg
    ensures p.integral == 0.0 && p.lastError == 0.0 && p.lastInput == 0.0 && p.lastTime == 0
    ensures p.firstRun
  {
    Pid(cfg, 0.0, 0.0, 0.0, 0, true)
  }

  /** The source divides `output_max` by `ki`.  With `ki == 0` the IEEE
      quotient is +inf (or NaN when `output_max` is 0), which clamps nothing;
      with a negative `output_max` it is -inf and the integral itself becomes
      infinite, which `real` cannot express. */
  predicate IntegralLimitDefined(outputMax: real, ki: real)
  {
    ki != 0.0 || outputMax >= 0.0
  }

  /** Anti-windup clamp of the integral accumulator to `+-output_max / ki`. */
  function ClampIntegral(integral: real, outputMax: real, ki: real): (r: real)
    requires IntegralLimitDefined(outputMax, ki)
    ensures ki > 0.0 && outputMax >= 0.0 ==> -(outputMax / ki) <= r <= outputMax / ki
    ensures ki > 0.0 && outputMax >= 0.0 && -(outputMax / ki) <= integral <= outputMax / ki ==> r == integral
    ensures ki == 0.0 ==> r == integral
  {
    if ki == 0.0 then integral
    else
      var limit := outputMax / ki;
      if integral > limit then limit
      else if integral < -limit then -limit
      else integral
  }

  /** A call that is neither the first nor a full sample period after the previous one is skipped. */
  predicate Gated(p: Pid, now: nat)
    requires now >= p.lastTime
  {
    !p.firstRun && now - p.lastTime < p.cfg.sampleTimeMs
  }

  /** Seconds elapsed, as the source computes it: the sample time on the first run. */
  function Dt(p: Pid, now: nat): real
    requires now >= p.lastTime
  {
    if p.firstRun then p.cfg.sampleTimeMs as real / 1000.0 else (now - p.lastTime) as real / 1000.0
  }

  /** What `compute` needs for its arithmetic to stay finite: the clock never
      runs backwards (the unsigned difference of the source), the integral
      limit exists, and the derivative never divides by a zero `dt`. */
  predicate ComputeDefined(p: Pid, now: nat)
  {
    && now >= p.lastTime
    && IntegralLimitDefined(p.cfg.outputMax, p.cfg.ki)
    && (p.firstRun || now > p.lastTime || p.cfg.sampleTimeMs > 0)
  }

  function PTerm(p: Pid, setpoint: real, input: real): real
  {
    p.cfg.kp * (setpoint - input)
  }

  /** Derivative on measurement; zero on the first run, so there is no kick. */
  function DTerm(p: Pid, input: real, now: nat): real
    requires ComputeDefined(p, now) && !Gated(p, now)
  {
    if p.firstRun then 0.0 else -p.cfg.kd * ((input - p.lastInput) / Dt(p, now))
  }

  /** The integral after accumulating this sample's error and clamping. */
  function AccumulatedIntegral(p: Pid, setpoint: real, input: real, now: nat): real
    requires ComputeDefined(p, now)
  {
    ClampIntegral(p.integral + (setpoint - input) * Dt(p, now), p.cfg.outputMax, p.cfg.ki)
  }

  /** The integral that makes P + I + D land exactly on a saturated `bound`;
      with `ki == 0` the accumulator is left alone. */
  function BackCalculate(bound: real, pTerm: real, dTerm: real, ki: real, integral: real): (r: real)
    ensures ki != 0.0 ==> pTerm + ki * r + dTerm == bound
    ensures ki == 0.0 ==> r == integral
  {
    if ki != 0.0 then (bound - pTerm - dTerm) / ki else integral
  }

  /** `pid_controller_compute`. */
  function Compute(p: Pid, setpoint: real, input: real, now: nat): (r: Step)
    requires ComputeDefined(p, now)
    // sample-time gating: 0.0 and no state change
    ensures Gated(p, now) ==> r == Step(0.0, p)
    // bookkeeping after a real evaluation
    ensures !Gated(p, now) ==>
      && r.pid.cfg == p.cfg
      && !r.pid.firstRun
      && r.pid.lastError == setpoint - input
      && r.pid.lastInput == input
      && r.pid.lastTime == now
    // output clamping
    ensures !Gated(p, now) && p.cfg.outputMin <= p.cfg.outputMax ==>
      p.cfg.outputMin <= r.output <= p.cfg.outputMax
  {
    if Gated(p, now) then Step(0.0, p)
    else
      var pTerm, integral, dTerm := PTerm(p, setpoint, input), AccumulatedIntegral(p, setpoint, input, now), DTerm(p, input, now);
      Evaluate(p.cfg, pTerm, integral, dTerm, setpoint - input, input, now)
  }

  /** After a real evaluation the output is always P + I + D over the stored
      integral (back-calculation on saturation), and without saturation the
      clamped accumulator is kept as is. */
  lemma ComputeBalances(p: Pid, setpoint: real, input: real, now: nat)
    requires ComputeDefined(p, now) && !Gated(p, now)
    ensures var r := Compute(p, setpoint, input, now);
      p.cfg.ki != 0.0 ==> r.output == PTerm(p, setpoint, input) + p.cfg.ki * r.pid.integral + DTerm(p, input, now)
    ensures var r := Compute(p, setpoint, input, now);
      var unclamped := PTerm(p, setpoint, input) + p.cfg.ki * AccumulatedIntegral(p, setpoint, input, now) + DTerm(p, input, now);
      p.cfg.outputMin <= unclamped <= p.cfg.outputMax ==>
        r.output == unclamped && r.pid.integral == AccumulatedIntegral(p, setpoint, input, now)
  {
    var pTerm, integral, dTerm := PTerm(p, setpoint, input), AccumulatedIntegral(p, setpoint, input, now), DTerm(p, input, now);
    var r := Evaluate(p.cfg, pTerm, integral, dTerm, setpoint - input, input, now);
    assert Compute(p, setpoint, input, now) == r;
  }

  /** The part of `compute` after the gate: sum the three terms, clamp the
      output and back-calculate the integral on saturation. */
  function Evaluate(cfg: Config, pTerm: real, integral: real, dTerm: real, error: real, input: real, now: nat): (r: Step)
    ensures r.pid == Pid(cfg, r.pid.integral, error, input, now, false)
    ensures cfg.outputMin <= cfg.outputMax ==> cfg.outputMin <= r.output <= cfg.outputMax
    ensures cfg.ki != 0.0 ==> r.output == pTerm + cfg.ki * r.pid.integral + dTerm
    ensures cfg.outputMin <= pTerm + cfg.ki * integral + dTerm <= cfg.outputMax ==>
      r.output == pTerm + cfg.ki * integral + dTerm && r.pid.integral == integral
  {
    var output := pTerm + cfg.ki * integral + dTerm;
    var next := Pid(cfg, integral, error, input, now, false);
    if output > cfg.outputMax then
      Step(cfg.outputMax, next.(integral := BackCalculate(cfg.outputMax, pTerm, dTerm, cfg.ki, integral)))
    else if output < cfg.outputMin then
      Step(cfg.outputMin, next.(integral := BackCalculate(cfg.outputMin, pTerm, dTerm, cfg.ki, integral)))
    else
      Step(output, next)
  }

  /** `pid_controller_reset`: clears the history but keeps the configuration and `last_time`. */
  function Reset(p: Pid): (p': Pid)
    ensures p'.cfg == p.cfg && p'.lastTime == p.lastTime
    ensures p'.integral == 0.0 && p'.lastError == 0.0 && p'.lastInput == 0.0
    ensures p'.firstRun
  {
    p.(integral := 0.0, lastError := 0.0, lastInput := 0.0, firstRun := true)
  }

  /** After a reset the next evaluation is never skipped and is exactly the
      first evaluation of a freshly initialised controller. */
  lemma ResetBehavesLikeInit(p: Pid, setpoint: real, input: real, now: nat)
    requires ComputeDefined(p, now)
    ensures !Gated(Reset(p), now)
    ensures Compute(Reset(p), setpoint, input, now) == Compute(Init(p.cfg), setpoint, input, now)
  {
    var initial := Init(p.cfg);
    var q := Reset(p);
    assert Dt(q, now) == Dt(initial, now);
    assert DTerm(q, input, now) == DTerm(initial, input, now);
    assert AccumulatedIntegral(q, setpoint, input, now) == AccumulatedIntegral(initial, setpoint, input, now);
    assert PTerm(q, setpoint, input) == PTerm(initial, setpoint, input);
    var step := Evaluate(p.cfg, PTerm(q, setpoint, input), AccumulatedIntegral(q, setpoint, input, now), DTerm(q, input, now), setpoint - input, input, now);
    assert Compute(q, setpoint, input, now) == step;
    assert Compute(initial, setpoint, input, now) == step;
  }

  /** On the first run the previous measurement plays no part: no derivative kick. */
  lemma FirstRunIgnoresHistory(p: Pid, lastInput: real, lastError: real, setpoint: real, input: real, now: nat)
    requires ComputeDefined(p, now) && p.firstRun
    ensures Compute(p, setpoint, input, now) == Compute(p.(lastInput := lastInput, lastError := lastError), setpoint, input, now)
    ensures DTerm(p, input, now) == 0.0 && Dt(p, now) == p.cfg.sampleTimeMs as real / 1000.0
  {
    var q := p.(lastInput := lastInput, lastError := lastError);
    assert Dt(p, now) == Dt(q, now);
    assert DTerm(p, input, now) == DTerm(q, input, now);
    assert AccumulatedIntegral(p, setpoint, input, now) == AccumulatedIntegral(q, setpoint, input, now);
    assert PTerm(p, setpoint, input) == PTerm(q, setpoint, input);
    var step := Evaluate(p.cfg, PTerm(p, setpoint, input), AccumulatedIntegral(p, setpoint, input, now), DTerm(p, input, now), setpoint - input, input, now);
    assert Compute(p, setpoint, input, now) == step;
    assert Compute(q, setpoint, input, now) == step;
  }

  /** The configured heating controller (gains 25/0.5/10, output 0..100 %,
      1 s sample) on its first evaluation with 21 degrees wanted and 18
      measured: P = 75, I = 0.5 * 3, D = 0, so 76.5 %. */
  lemma FirstEvaluationExample(now: nat)
    ensures Compute(Init(Config(25.0, 0.5, 10.0, 0.0, 100.0, 1000)), 21.0, 18.0, now).output == 76.5
  {
  }

  /** `pid_controller_set_tunings`: ignored when any gain is negative. */
  function SetTunings(p: Pid, kp: real, ki: real, kd: real): (p': Pid)
    ensures kp < 0.0 || ki < 0.0 || kd < 0.0 ==> p' == p
    ensures kp >= 0.0 && ki >= 0.0 && kd >= 0.0 ==>
      p' == p.(cfg := p.cfg.(kp := kp, ki := ki, kd := kd))
  {
    if kp < 0.0 || ki < 0.0 || kd < 0.0 then p
    else p.(cfg := p.cfg.(kp := kp, ki := ki, kd := kd))
  }

  /** `pid_controller_get_tunings`. */
  function GetTunings(p: Pid): (g: (real, real, real))
    ensures SetTunings(p, g.0, g.1, g.2) == p
  {
    (p.cfg.kp, p.cfg.ki, p.cfg.kd)
  }

  /** Valid gains read back as written; a rejected call leaves the old gains readable. */
  lemma TuningsReadBack(p: Pid, kp: real, ki: real, kd: real)
    ensures kp >= 0.0 && ki >= 0.0 && kd >= 0.0 ==> GetTunings(SetTunings(p, kp, ki, kd)) == (kp, ki, kd)
    ensures kp < 0.0 || ki < 0.0 || kd < 0.0 ==> GetTunings(SetTunings(p, kp, ki, kd)) == GetTunings(p)
  {
  }

  /** `pid_controller_set_output_limits`: ignored unless `min < max`; then
      the integral is clamped again against the new maximum. */
  function SetOutputLimits(p: Pid, min: real, max: real): (p': Pid)
    requires min >= max || IntegralLimitDefined(max, p.cfg.ki)
    ensures min >= max ==> p' == p
    ensures min < max ==>
      && p'.cfg == p.cfg.(outputMin := min, outputMax := max)
      && p'.integral == ClampIntegral(p.integral, max, p.cfg.ki)
      && p'.lastError == p.lastError && p'.lastInput == p.lastInput
      && p'.lastTime == p.lastTime && p'.firstRun == p.firstRun
    ensures min < max && p.cfg.ki > 0.0 && max >= 0.0 ==> -(max / p.cfg.ki) <= p'.integral <= max / p.cfg.ki
  {
    if min >= max then p
    else p.(cfg := p.cfg.(outputMin := min, outputMax := max), integral := ClampIntegral(p.integral, max, p.cfg.ki))
  }

  /** `pid_controller_set_sample_time`: a zero period is ignored. */
  function SetSampleTime(p: Pid, sampleTimeMs: uint32): (p': Pid)
    ensures sampleTimeMs == 0 ==> p' == p
    ensures sampleTimeMs > 0 ==> p' == p.(cfg := p.cfg.(sampleTimeMs := sampleTimeMs))
    ensures p.cfg.sampleTimeMs > 0 ==> p'.cfg.sampleTimeMs > 0
  {
    if sampleTimeMs > 0 then p.(cfg := p.cfg.(sampleTimeMs := sampleTimeMs)) else p
  }
}

=== FILE: temperature_sensor.dfy ===
/** The temperature sensor component: the defaults `temperature_sensor_init`
    installs, the sanity check with its last-good-value fallback in
    `temperature_sensor_read`, and the moving-average ring buffer behind
    `temperature_sensor_read_filtered` and `temperature_sensor_set_filter`.
    The analogue conversion (ADC sampling, voltage divider, NTC and LM35
    formulas) is abstracted into the `converted` parameter: the temperature
    the sensor's formula produced before calibration. */
module TemperatureSensor {
  import opened Common

  /** What a read returns when the sensor is not initialised. */
  const INVALID_TEMPERATURE: real := -273.15
  /** The temperature `init` assumes before the first reading. */
  const DEFAULT_TEMPERATURE: real := 20.0
  /** The fixed value the unimplemented sensor types report. */
  const PLACEHOLDER_READING: real := 20.0
  /** The plausible range; readings outside it are rejected. */
  const MIN_PLAUSIBLE: real := -50.0
  const MAX_PLAUSIBLE: real := 150.0

  datatype SensorType = Ntc10k | Ntc100k | Pt1000 | Ds18b20 | Lm35

  /** `temp_sensor_config_t`. */
  datatype Config = Config(
    adcChannel: nat,
    sensorType: SensorType,
    beta: real,
    rNominal: real,
    tNominal: real,
    rSeries: real,
    offset: real,
    scale: real)

  /** The moving-average filter: the heap buffer (`None` for NULL), its
      size, the next slot to write, and whether it has wrapped once. */
  datatype Filter = Filter(buffer: Option<seq<real>>, size: uint8, index: uint8, full: bool)

  /** `temp_sensor_t`; `lastReadTime` is in milliseconds. */
  datatype Sensor = Sensor(
    config: Config,
    lastTemperature: real,
    lastReadTime: uint32,
    initialized: bool,
    filter: Filter)

  predicate Plausible(t: real)
  {
    MIN_PLAUSIBLE <= t <= MAX_PLAUSIBLE
  }

  /** A buffer that exists always has `size` slots and the write index lies inside it. */
  predicate WellFormed(f: Filter)
  {
    f.buffer.Some? ==> f.size > 0 && |f.buffer.value| == f.size as int && f.index < f.size
  }

  /** What every operation keeps: a well-formed filter holding plausible
      values, and a plausible fallback once the sensor is initialised. */
  predicate Valid(s: Sensor)
  {
    && WellFormed(s.filter)
    && (s.filter.buffer.Some? ==> forall k :: 0 <= k < |s.filter.buffer.value| ==> Plausible(s.filter.buffer.value[k]))
    && (s.initialized ==> Plausible(s.lastTemperature))
  }

  /** `temperature_sensor_init`: the configuration is copied, an all-zero
      calibration becomes the identity, the fallback is 20 degrees and
      filtering is off. */
  function Init(config: Config): (s: Sensor)
    ensures s.initialized && s.lastTemperature == DEFAULT_TEMPERATURE && s.lastReadTime == 0
    ensures s.filter == Filter(None, 0, 0, false)
    ensures s.config.offset == config.offset
    ensures s.config.scale == if config.offset == 0.0 && config.scale == 0.0 then 1.0 else config.scale
    ensures s.config.(scale := config.scale) == config
    ensures Valid(s)
  {
    var cfg := if config.offset == 0.0 && config.scale == 0.0 then config.(offset := 0.0, scale := 1.0) else config;
    Sensor(cfg, DEFAULT_TEMPERATURE, 0, true, Filter(None, 0, 0, false))
  }

  /** `temperature_sensor_deinit`: the buffer is released and the sensor
      reads as uninitialised; size, index and flag stay as they were. */
  function Deinit(s: Sensor): (r: Sensor)
    ensures !r.initialized && r.filter.buffer.None?
    ensures r.filter.(buffer := s.filter.buffer) == s.filter
    ensures r.(initialized := s.initialized, filter := s.filter) == s
    ensures Valid(s) ==> Valid(r)
  {
    s.(initialized := false, filter := s.filter.(buffer := None))
  }

  /** The reading a sensor type yields from its formula's output: the
      analogue types apply the calibration, the unimplemented ones report
      a fixed placeholder. */
  function Measured(config: Config, converted: real): (t: real)
    ensures config.sensorType in {Ntc10k, Ntc100k, Lm35} ==> t == converted * config.scale + config.offset
    ensures config.sensorType in {Pt1000, Ds18b20} ==> t == PLACEHOLDER_READING && Plausible(t)
  {
    match config.sensorType
    case Ntc10k => converted * config.scale + config.offset
    case Ntc100k => converted * config.scale + config.offset
    case Lm35 => converted * config.scale + config.offset
    case Pt1000 => PLACEHOLDER_READING
    case Ds18b20 => PLACEHOLDER_READING
  }

  /** `temperature_sensor_read` at microsecond clock `nowUs`: the plausible
      reading is returned and remembered with its time; an implausible one
      is answered with the last good value and forgotten. */
  function Read(s: Sensor, converted: real, nowUs: nat): (r: (Sensor, real))
    ensures !s.initialized ==> r == (s, INVALID_TEMPERATURE)
    ensures s.initialized && Plausible(Measured(s.config, converted)) ==>
      && r.1 == Measured(s.config, converted)
      && r.0 == s.(lastTemperature := r.1, lastReadTime := (nowUs / 1000) % 0x1_0000_0000)
    ensures s.initialized && !Plausible(Measured(s.config, converted)) ==> r == (s, s.lastTemperature)
    ensures Valid(s) ==> Valid(r.0)
    ensures Valid(s) && s.initialized ==> Plausible(r.1) && r.1 == r.0.lastTemperature
    ensures r.0.filter == s.filter && r.0.config == s.config && r.0.initialized == s.initialized
  {
    if !s.initialized then (s, INVALID_TEMPERATURE)
    else
      var t := Measured(s.config, converted);
      if t < MIN_PLAUSIBLE || t > MAX_PLAUSIBLE then (s, s.lastTemperature)
      else (s.(lastTemperature := t, lastReadTime := (nowUs / 1000) % 0x1_0000_0000), t)
  }

  /** `temperature_sensor_calibrate`: only offset and scale change. */
  function Calibrate(s: Sensor, offset: real, scale: real): (r: Sensor)
    ensures r.config.offset == offset && r.config.scale == scale
    ensures r.config.(offset := s.config.offset, scale := s.config.scale) == s.config
    ensures r.(config := s.config) == s
    ensures Valid(s) ==> Valid(r)
  {
    s.(config := s.config.(offset := offset, scale := scale))
  }

  /** `temperature_sensor_set_filter`, where `obtained` says whether the
      zero-filled buffer could be obtained. */
  function SetFilter(s: Sensor, size: uint8, obtained: bool): (r: (Status, Sensor))
    // the old buffer is always released; nothing but the filter changes
    ensures r.1.(filter := s.filter) == s
    ensures size == 0 ==> r == (Ok, s.(filter := s.filter.(buffer := None, size := 0)))
    ensures size > 0 && !obtained ==> r == (NoMem, s.(filter := s.filter.(buffer := None)))
    ensures size > 0 && obtained ==>
      && r.0 == Ok
      && r.1.filter.size == size && r.1.filter.index == 0 && !r.1.filter.full
      && r.1.filter.buffer.Some? && |r.1.filter.buffer.value| == size as int
      && forall k :: 0 <= k < size ==> r.1.filter.buffer.value[k] == 0.0
    ensures r.1.filter.buffer.Some? <==> r.0 == Ok && size > 0
    ensures Valid(s) ==> Valid(r.1)
  {
    var released := s.filter.(buffer := None);
    if size == 0 then (Ok, s.(filter := released.(size := 0)))
    else if !obtained then (NoMem, s.(filter := released))
    else (Ok, s.(filter := Filter(Some(seq(size, _ => 0.0)), size, 0, false)))
  }

  /** Store one reading in the next slot and advance the index, raising the
      flag when it wraps. */
  function Push(f: Filter, x: real): (r: Filter)
    requires f.buffer.Some? && WellFormed(f)
    ensures r.buffer.Some? && WellFormed(r) && r.size == f.size
    ensures r.full || r.index > 0
    ensures f.full ==> r.full
  {
    var next := (f.index + 1) % f.size;
    Filter(Some(f.buffer.value[f.index := x]), f.size, next, f.full || next == 0)
  }

  /** The number of slots the average is taken over: all of them once the
      buffer has wrapped, else those written so far. */
  function Count(f: Filter): (c: nat)
    requires f.buffer.Some? && WellFormed(f) && (f.full || f.index > 0)
    ensures 1 <= c <= f.size as int
  {
    if f.full then f.size as nat else f.index as nat
  }

  /** The average over the counted slots. */
  function Mean(f: Filter): real
    requires f.buffer.Some? && WellFormed(f) && (f.full || f.index > 0)
  {
    Sum(f.buffer.value[..Count(f)]) / Count(f) as real
  }

  /** `temperature_sensor_read_filtered`: the raw reading, pushed into the
      ring buffer and averaged when a filter is set. */
  function ReadFiltered(s: Sensor, converted: real, nowUs: nat): (r: (Sensor, real))
    requires WellFormed(s.filter)
    ensures !s.initialized ==> r == (s, INVALID_TEMPERATURE)
    ensures s.initialized && (s.filter.buffer.None? || s.filter.size == 0) ==> r == Read(s, converted, nowUs)
    ensures s.initialized && s.filter.buffer.Some? && s.filter.size > 0 ==>
      && r.0 == Read(s, converted, nowUs).0.(filter := Push(s.filter, Read(s, converted, nowUs).1))
      && r.0.filter.buffer.value[s.filter.index] == Read(s, converted, nowUs).1
      && r.1 == Mean(r.0.filter)
    ensures WellFormed(r.0.filter)
    ensures r.0.filter.size == s.filter.size && (s.filter.full ==> r.0.filter.full)
    ensures Valid(s) ==> Valid(r.0)
    ensures Valid(s) && s.initialized ==> Plausible(r.1)
  {
    if !s.initialized then (s, INVALID_TEMPERATURE)
    else
      var (read, raw) := Read(s, converted, nowUs);
      if s.filter.buffer.None? || s.filter.size == 0 then (read, raw)
      else
        var f := Push(s.filter, raw);
        var r := (read.(filter := f), Mean(f));
        assert Valid(s) ==> Plausible(r.1) by {
          if Valid(s) {
            MeanPlausible(f);
          }
        }
        r
  }

  // ---------------------------------------------------------------------
  // The window the filter averages over

  /** The last `n` readings of `hist` (all of them while there are fewer). */
  function Window(hist: seq<real>, n: nat): (w: seq<real>)
    ensures |w| == Min(|hist|, n)
    ensures forall k :: 0 <= k < |w| ==> w[k] == hist[|hist| - |w| + k]
  {
    hist[|hist| - Min(|hist|, n)..]
  }

  /** The filter records `hist`, the readings pushed since `set_filter`:
      the index is their count modulo the size, the flag says whether
      there have been at least `size` of them, and the last `size` of them
      sit in slot (position modulo size). */
  predicate Holds(f: Filter, hist: seq<real>)
  {
    && f.buffer.Some? && WellFormed(f)
    && f.index as int == |hist| % f.size as int
    && (f.full <==> |hist| >= f.size as int)
    && forall j :: 0 <= j < |hist| && |hist| - f.size as int <= j ==> f.buffer.value[j % f.size as int] == hist[j]
  }

  /** A filter just set up records no readings yet. */
  lemma SetFilterStartsEmpty(s: Sensor, size: uint8)
    requires size > 0
    ensures Holds(SetFilter(s, size, true).1.filter, [])
  {
    DivModUnique(0, size as int, 0, 0);
  }

  lemma ModStep(a: nat, n: nat)
    requires n > 0
    ensures (a % n + 1) % n == (a + 1) % n
  {
    var q, r := a / n, a % n;
    if r + 1 < n {
      DivModUnique(r + 1, n, 0, r + 1);
      DivModUnique(a + 1, n, q, r + 1);
    } else {
      DivModUnique(r + 1, n, 1, 0);
      DivModUnique(a + 1, n, q + 1, 0);
    }
  }

  /** Two positions less than `n` apart fall into different slots. */
  lemma ModDistinct(a: nat, b: nat, n: nat)
    requires n > 0 && a < b < a + n
    ensures a % n != b % n
  {
    var q, r := a / n, a % n;
    var d := b - a;
    if r + d < n {
      DivModUnique(b, n, q, r + d);
    } else {
      DivModUnique(b, n, q + 1, r + d - n);
    }
  }

  /** Pushing a reading records it after the others. */
  lemma PushRecords(f: Filter, hist: seq<real>, x: real)
    requires Holds(f, hist)
    ensures Holds(Push(f, x), hist + [x])
  {
    var n := f.size as int;
    var h := |hist|;
    var r := Push(f, x);
    var hist' := hist + [x];
    ModStep(h, n);
    if h < n {
      DivModUnique(h, n, 0, h);
      if h + 1 < n {
        DivModUnique(h + 1, n, 0, h + 1);
      } else {
        DivModUnique(h + 1, n, 1, 0);
      }
    }
    forall j | 0 <= j < h + 1 && h + 1 - n <= j
      ensures r.buffer.value[j % n] == hist'[j]
    {
      if j == h {
        assert j % n == f.index as int;
      } else {
        ModDistinct(j, h, n);
        assert hist'[j] == hist[j];
      }
    }
  }

  lemma {:induction false} SumAppend(a: seq<real>, b: seq<real>)
    ensures Sum(a + b) == Sum(a) + Sum(b)
    decreases |b|
  {
    if |b| == 0 {
      assert a + b == a;
    } else {
      assert (a + b)[..|a + b| - 1] == a + b[..|b| - 1];
      SumAppend(a, b[..|b| - 1]);
    }
  }

  /** Where the `k`-th reading of a full window sits: the slots run on from
      the write index and wrap around at the end of the buffer. */
  lemma WindowSlot(h: nat, n: nat, k: nat)
    requires 0 < n <= h && k < n
    ensures (h - n + k) % n == if h % n + k < n then h % n + k else h % n + k - n
  {
    var q, i := h / n, h % n;
    assert h == q * n + i;
    assert q >= 1;
    assert (q - 1) * n == q * n - n;
    if i + k < n {
      DivModUnique(h - n + k, n, q - 1, i + k);
    } else {
      DivModUnique(h - n + k, n, q, i + k - n);
    }
  }

  /** Before the first wrap the buffer starts with the readings in order. */
  lemma FreshWindow(buf: seq<real>, hist: seq<real>, n: nat)
    requires |hist| < n == |buf|
    requires forall j :: 0 <= j < |hist| ==> buf[j % n] == hist[j]
    ensures buf[..|hist|] == hist
  {
    forall k | 0 <= k < |hist|
      ensures buf[k] == hist[k]
    {
      DivModUnique(k, n, 0, k);
    }
  }

  /** After the first wrap the window is the buffer read from the write index round to it. */
  lemma WrappedWindow(buf: seq<real>, hist: seq<real>, n: nat)
    requires 0 < n == |buf| <= |hist|
    requires forall j :: |hist| - n <= j < |hist| ==> buf[j % n] == hist[j]
    ensures Window(hist, n) == buf[|hist| % n..] + buf[..|hist| % n]
  {
    var h, i := |hist|, |hist| % n;
    var w := Window(hist, n);
    var rot := buf[i..] + buf[..i];
    forall k | 0 <= k < n
      ensures w[k] == rot[k]
    {
      WindowSlot(h, n, k);
      assert w[k] == hist[h - n + k];
    }
  }

  /** Reading a sequence round from any position gives the same sum. */
  lemma RotationSum(buf: seq<real>, i: nat)
    requires i <= |buf|
    ensures Sum(buf[i..] + buf[..i]) == Sum(buf)
  {
    SumAppend(buf[i..], buf[..i]);
    SumAppend(buf[..i], buf[i..]);
    assert buf[..i] + buf[i..] == buf;
  }

  /** The counted slots hold exactly the window of the recorded readings,
      in an order whose sum is the same. */
  lemma CountedSlotsAreWindow(f: Filter, hist: seq<real>)
    requires Holds(f, hist) && |hist| > 0
    ensures f.full || f.index > 0
    ensures Count(f) == |Window(hist, f.size as nat)|
    ensures Sum(f.buffer.value[..Count(f)]) == Sum(Window(hist, f.size as nat))
  {
    var n := f.size as int;
    var h := |hist|;
    var buf := f.buffer.value;
    if h < n {
      DivModUnique(h, n, 0, h);
      FreshWindow(buf, hist, n);
    } else {
      WrappedWindow(buf, hist, n);
      RotationSum(buf, f.index as int);
      assert buf[..n] == buf;
    }
  }

  /** The filtered reading is the mean of the last `size` raw readings
      since `set_filter` (of all of them while there are fewer). */
  lemma ReadFilteredAverages(s: Sensor, hist: seq<real>, converted: real, nowUs: nat)
    requires s.initialized && Holds(s.filter, hist) && s.filter.size > 0
    ensures var raw := Read(s, converted, nowUs).1;
      var r := ReadFiltered(s, converted, nowUs);
      var w := Window(hist + [raw], s.filter.size as nat);
      && Holds(r.0.filter, hist + [raw])
      && r.1 == Sum(w) / |w| as real
  {
    var raw := Read(s, converted, nowUs).1;
    PushRecords(s.filter, hist, raw);
    CountedSlotsAreWindow(Push(s.filter, raw), hist + [raw]);
  }

  lemma {:induction false} SumBounds(xs: seq<real>)
    requires forall k :: 0 <= k < |xs| ==> Plausible(xs[k])
    ensures |xs| as real * MIN_PLAUSIBLE <= Sum(xs) <= |xs| as real * MAX_PLAUSIBLE
    decreases |xs|
  {
    if |xs| > 0 {
      SumBounds(xs[..|xs| - 1]);
    }
  }

  /** A total between `c` times two bounds gives a mean between them. */
  lemma MeanBetween(total: real, c: real, lo: real, hi: real)
    requires c > 0.0 && c * lo <= total <= c * hi
    ensures lo <= total / c <= hi
  {
  }

  /** The mean of plausible values is plausible. */
  lemma MeanPlausible(f: Filter)
    requires f.buffer.Some? && WellFormed(f) && (f.full || f.index > 0)
    requires forall k :: 0 <= k < |f.buffer.value| ==> Plausible(f.buffer.value[k])
    ensures Plausible(Mean(f))
  {
    var xs := f.buffer.value[..Count(f)];
    SumBounds(xs);
    MeanBetween(Sum(xs), Count(f) as real, MIN_PLAUSIBLE, MAX_PLAUSIBLE);
  }
}

=== FILE: thermor_ui.dfy ===
/** The front-panel state machine: operating modes, the menu, setpoint
    editing, the child lock and the weekly schedule.  Setpoints are kept in
    half degrees (the source steps its `float` setpoints by 0.5 from
    half-degree defaults, so they never leave that grid); the measured
    temperature stays `real`.  The clock is a parameter. */
module ThermorUi {
  import opened Common
  import ButtonMatrix

  /** Setpoint limits and step, in half degrees: 5.0, 30.0 and 0.5 degrees. */
  const TEMP_MIN: int := 10
  const TEMP_MAX: int := 60
  const TEMP_STEP: int := 1
  const MENU_TIMEOUT_MS: nat := 30000
  const BLINK_PERIOD_MS: nat := 500

  /** `thermor_mode_t`, in enumeration order. */
  datatype Mode = Comfort | Eco | Frost | Prog | Off
  const MODE_MAX: nat := 5

  /** `ui_state_t`. */
  datatype UiState = Normal | Menu | SetTemp | SetTime | ProgSchedule | Locked | Error

  /** `menu_item_t`, as the selection index. */
  const MENU_EXIT: nat := 0
  const MENU_SET_COMFORT_TEMP: nat := 1
  const MENU_SET_ECO_TEMP: nat := 2
  const MENU_SET_TIME: nat := 3
  const MENU_PROG_SCHEDULE: nat := 4
  const MENU_PRESENCE_DETECT: nat := 5
  const MENU_WINDOW_DETECT: nat := 6
  const MENU_CHILD_LOCK: nat := 7
  const MENU_RESET: nat := 8
  const MENU_MAX: nat := 9

  const DAYS: nat := 7
  const SLOTS: nat := 6

  /** `thermor_time_t`. */
  datatype Time = Time(hour: uint8, minute: uint8, dayOfWeek: uint8)

  /** `schedule_slot_t`. */
  datatype Slot = Slot(start: Time, mode: Mode)

  /** `thermor_config_t`; the three setpoints and the target in half degrees. */
  datatype Config = Config(
    comfortTemp: int, ecoTemp: int, frostTemp: int, currentTemp: real, targetTemp: int,
    mode: Mode, heatingActive: bool, presenceDetected: bool, windowOpen: bool, childLock: bool,
    presenceDetectionEnabled: bool, windowDetectionEnabled: bool,
    currentTime: Time, schedule: seq<seq<Slot>>)

  /** `thermor_ui_t` without the schedule-editing cursors nothing here moves. */
  datatype Ui = Ui(
    config: Config, state: UiState, menuSelection: nat, menuCursor: uint8, tempEditValue: int,
    lastActivityTime: nat, displayUpdateTime: nat, displayBlinkState: bool)

  predicate InRange(t: int)
  {
    TEMP_MIN <= t <= TEMP_MAX
  }

  /** What the UI keeps true: a full 7x6 schedule, a valid weekday to index
      it with, a menu selection inside the menu, setpoints inside the
      limits, and an in-range value whenever one is being edited. */
  predicate Valid(ui: Ui)
  {
    && ConfigValid(ui.config)
    && ui.menuSelection < MENU_MAX
    && (ui.state == SetTemp ==> InRange(ui.tempEditValue))
  }

  predicate ConfigValid(c: Config)
  {
    && |c.schedule| == DAYS
    && (forall d :: 0 <= d < DAYS ==> |c.schedule[d]| == SLOTS)
    && c.currentTime.dayOfWeek < DAYS
    && InRange(c.comfortTemp) && InRange(c.ecoTemp) && InRange(c.frostTemp)
  }

  /** Index of a mode in `thermor_mode_t`. */
  function ModeIndex(m: Mode): (i: nat)
    ensures i < MODE_MAX
  {
    match m
    case Comfort => 0
    case Eco => 1
    case Frost => 2
    case Prog => 3
    case Off => 4
  }

  function ModeOf(i: nat): (m: Mode)
    requires i < MODE_MAX
    ensures ModeIndex(m) == i
  {
    [Comfort, Eco, Frost, Prog, Off][i]
  }

  lemma ModeIndexRoundTrip(m: Mode)
    ensures ModeOf(ModeIndex(m)) == m
  {
  }

  /** The MODE button's cycle: `(mode + 1) % MODE_MAX`. */
  function NextMode(m: Mode): (r: Mode)
    ensures ModeIndex(r) == (ModeIndex(m) + 1) % MODE_MAX
  {
    ModeOf((ModeIndex(m) + 1) % MODE_MAX)
  }

  /** Five presses of MODE bring back the mode one started from, passing every mode once. */
  lemma NextModeCycles(m: Mode)
    ensures NextMode(NextMode(NextMode(NextMode(NextMode(m))))) == m
    ensures {m, NextMode(m), NextMode(NextMode(m)), NextMode(NextMode(NextMode(m))), NextMode(NextMode(NextMode(NextMode(m))))}
      == {Comfort, Eco, Frost, Prog, Off}
  {
    assert NextMode(Comfort) == Eco && NextMode(Eco) == Frost && NextMode(Frost) == Prog;
    assert NextMode(Prog) == Off && NextMode(Off) == Comfort;
  }

  /** `thermor_ui_get_mode_name`: "UNKNOWN" beyond the last mode. */
  function GetModeName(mode: nat): (name: string)
    ensures mode >= MODE_MAX <==> name == "UNKNOWN"
    ensures mode == ModeIndex(Off) ==> name == "OFF"
  {
    if mode >= MODE_MAX then "UNKNOWN" else ["COMFORT", "ECO", "FROST", "PROG", "OFF"][mode]
  }

  /** The default day of `thermor_ui_init`: comfort from 6:00, eco from 8:00,
      comfort from 17:00, eco from 22:00, two unused slots. */
  const DefaultDay: seq<Slot> := [
    Slot(Time(6, 0, 0), Comfort), Slot(Time(8, 0, 0), Eco), Slot(Time(17, 0, 0), Comfort),
    Slot(Time(22, 0, 0), Eco), Slot(Time(0, 0, 0), Off), Slot(Time(0, 0, 0), Off)]

  /** `thermor_ui_init`: 20/17/7 degrees, comfort mode, NORMAL, 12:00 on Monday. */
  function Init(now: nat): (ui: Ui)
    ensures Valid(ui)
    ensures ui.state == Normal && ui.config.mode == Comfort && !ui.config.childLock
    ensures ui.config.comfortTemp == 40 && ui.config.ecoTemp == 34 && ui.config.frostTemp == 14
    ensures ui.config.targetTemp == 40 && ui.config.currentTemp == 20.0
    ensures forall d :: 0 <= d < DAYS ==> ui.config.schedule[d] == DefaultDay
    ensures ui.lastActivityTime == now
  {
    Ui(Config(40, 34, 14, 20.0, 40, Comfort, false, false, false, false, false, false,
              Time(12, 0, 0), seq(DAYS, _ => DefaultDay)),
       Normal, MENU_EXIT, 0, 0, now, 0, false)
  }

  /** `thermor_ui_menu_next`: wraps from the last item to EXIT. */
  function MenuNext(sel: nat): (r: nat)
    requires sel < MENU_MAX
    ensures r < MENU_MAX
    ensures sel < MENU_MAX - 1 ==> r == sel + 1
    ensures sel == MENU_MAX - 1 ==> r == MENU_EXIT
  {
    (sel + 1) % MENU_MAX
  }

  /** `thermor_ui_menu_prev`: wraps from EXIT to the last item. */
  function MenuPrev(sel: nat): (r: nat)
    requires sel < MENU_MAX
    ensures r < MENU_MAX
    ensures sel > 0 ==> r == sel - 1
    ensures sel == 0 ==> r == MENU_MAX - 1
  {
    if sel == 0 then MENU_MAX - 1 else sel - 1
  }

  lemma MenuNextPrevInverse(sel: nat)
    requires sel < MENU_MAX
    ensures MenuPrev(MenuNext(sel)) == sel
    ensures MenuNext(MenuPrev(sel)) == sel
  {
  }

  /** `thermor_ui_temp_increase`: one step up, never above the maximum. */
  function TempIncrease(t: int): (r: int)
    ensures r <= TEMP_MAX
    ensures t < TEMP_MAX ==> r == t + TEMP_STEP
    ensures t >= TEMP_MAX ==> r == TEMP_MAX
  {
    if t + TEMP_STEP > TEMP_MAX then TEMP_MAX else t + TEMP_STEP
  }

  /** `thermor_ui_temp_decrease`: one step down, never below the minimum. */
  function TempDecrease(t: int): (r: int)
    ensures r >= TEMP_MIN
    ensures t > TEMP_MIN ==> r == t - TEMP_STEP
    ensures t <= TEMP_MIN ==> r == TEMP_MIN
  {
    if t - TEMP_STEP < TEMP_MIN then TEMP_MIN else t - TEMP_STEP
  }

  /** Inside the limits a step up and a step down undo each other, and both keep the value in range. */
  lemma TempStepsInverse(t: int)
    requires InRange(t)
    ensures InRange(TempIncrease(t)) && InRange(TempDecrease(t))
    ensures t < TEMP_MAX ==> TempDecrease(TempIncrease(t)) == t
    ensures t > TEMP_MIN ==> TempIncrease(TempDecrease(t)) == t
  {
  }

  /** `thermor_ui_enter_menu`. */
  function EnterMenu(ui: Ui): (r: Ui)
    ensures r == ui.(state := Menu, menuSelection := MENU_EXIT)
  {
    ui.(state := Menu, menuSelection := MENU_EXIT)
  }

  /** `thermor_ui_exit_menu`. */
  function ExitMenu(ui: Ui): (r: Ui)
    ensures r == ui.(state := Normal)
  {
    ui.(state := Normal)
  }

  /** `thermor_ui_menu_select`. */
  function MenuSelect(ui: Ui): (r: Ui)
    requires Valid(ui)
    ensures Valid(r)
    ensures ui.menuSelection == MENU_EXIT ==> r == ExitMenu(ui)
    ensures ui.menuSelection == MENU_SET_COMFORT_TEMP ==>
      r == ui.(state := SetTemp, tempEditValue := ui.config.comfortTemp, menuCursor := 0)
    ensures ui.menuSelection == MENU_SET_ECO_TEMP ==>
      r == ui.(state := SetTemp, tempEditValue := ui.config.ecoTemp, menuCursor := 1)
    ensures ui.menuSelection == MENU_PRESENCE_DETECT ==>
      r == ui.(config := ui.config.(presenceDetectionEnabled := !ui.config.presenceDetectionEnabled))
    ensures ui.menuSelection == MENU_WINDOW_DETECT ==>
      r == ui.(config := ui.config.(windowDetectionEnabled := !ui.config.windowDetectionEnabled))
    ensures ui.menuSelection == MENU_CHILD_LOCK ==>
      r == ui.(config := ui.config.(childLock := !ui.config.childLock))
    ensures ui.menuSelection in {MENU_SET_TIME, MENU_PROG_SCHEDULE, MENU_RESET} ==> r == ui
  {
    var sel := ui.menuSelection;
    if sel == MENU_EXIT then ExitMenu(ui)
    else if sel == MENU_SET_COMFORT_TEMP then ui.(state := SetTemp, tempEditValue := ui.config.comfortTemp, menuCursor := 0)
    else if sel == MENU_SET_ECO_TEMP then ui.(state := SetTemp, tempEditValue := ui.config.ecoTemp, menuCursor := 1)
    else if sel == MENU_PRESENCE_DETECT then ui.(config := ui.config.(presenceDetectionEnabled := !ui.config.presenceDetectionEnabled))
    else if sel == MENU_WINDOW_DETECT then ui.(config := ui.config.(windowDetectionEnabled := !ui.config.windowDetectionEnabled))
    else if sel == MENU_CHILD_LOCK then ui.(config := ui.config.(childLock := !ui.config.childLock))
    else ui
  }

  /** `thermor_ui_temp_confirm`: the edited value goes to the comfort
      setpoint iff the cursor is 0, to the eco setpoint otherwise. */
  function TempConfirm(ui: Ui): (r: Ui)
    ensures r.state == Menu
    ensures ui.menuCursor == 0 ==> r.config == ui.config.(comfortTemp := ui.tempEditValue)
    ensures ui.menuCursor != 0 ==> r.config == ui.config.(ecoTemp := ui.tempEditValue)
    ensures r.tempEditValue == ui.tempEditValue && r.menuSelection == ui.menuSelection
  {
    if ui.menuCursor == 0 then ui.(config := ui.config.(comfortTemp := ui.tempEditValue), state := Menu)
    else ui.(config := ui.config.(ecoTemp := ui.tempEditValue), state := Menu)
  }

  /** `thermor_ui_temp_cancel`: back to the menu, nothing stored. */
  function TempCancel(ui: Ui): (r: Ui)
    ensures r == ui.(state := Menu)
  {
    ui.(state := Menu)
  }

  /** The NORMAL-state quick adjustment of the comfort setpoint. */
  function AdjustComfort(ui: Ui, up: bool): (r: Ui)
    ensures ui.config.mode != Comfort ==> r == ui
    ensures ui.config.mode == Comfort ==>
      r == ui.(config := ui.config.(comfortTemp := if up then TempIncrease(ui.config.comfortTemp) else TempDecrease(ui.config.comfortTemp)))
  {
    if ui.config.mode != Comfort then ui
    else if up then ui.(config := ui.config.(comfortTemp := TempIncrease(ui.config.comfortTemp)))
    else ui.(config := ui.config.(comfortTemp := TempDecrease(ui.config.comfortTemp)))
  }

  /** `thermor_ui_handle_button`, after it has stamped the activity time. */
  function Dispatch(ui: Ui, e: ButtonMatrix.Event): (r: Ui)
    requires Valid(ui)
    ensures Valid(r)
  {
    var lockLong := e.button == ButtonMatrix.BUTTON_LOCK && e.kind == ButtonMatrix.LongPress;
    var press := e.kind == ButtonMatrix.Press;
    var pressOrRepeat := press || e.kind == ButtonMatrix.Repeat;
    if ui.config.childLock && ui.state != Locked then
      (if lockLong then ui.(state := Locked) else ui)
    else if ui.state == Locked then
      (if lockLong then ui.(state := Normal) else ui)
    else match ui.state
      case Normal =>
        if e.button == ButtonMatrix.BUTTON_MODE then
          if press then ui.(config := ui.config.(mode := NextMode(ui.config.mode)))
          else if e.kind == ButtonMatrix.LongPress then EnterMenu(ui)
          else ui
        else if e.button == ButtonMatrix.BUTTON_PLUS then
          if pressOrRepeat then AdjustComfort(ui, true) else ui
        else if e.button == ButtonMatrix.BUTTON_MINUS then
          if pressOrRepeat then AdjustComfort(ui, false) else ui
        else if e.button == ButtonMatrix.BUTTON_PROG then
          if press then ui.(config := ui.config.(mode := Prog)) else ui
        else if e.button == ButtonMatrix.BUTTON_LOCK then
          if e.kind == ButtonMatrix.LongPress then ui.(config := ui.config.(childLock := !ui.config.childLock)) else ui
        else ui
      case Menu =>
        if !press then ui
        else if e.button == ButtonMatrix.BUTTON_MODE then ExitMenu(ui)
        else if e.button == ButtonMatrix.BUTTON_PLUS then ui.(menuSelection := MenuNext(ui.menuSelection))
        else if e.button == ButtonMatrix.BUTTON_MINUS then ui.(menuSelection := MenuPrev(ui.menuSelection))
        else if e.button == ButtonMatrix.BUTTON_OK then MenuSelect(ui)
        else ui
      case SetTemp =>
        if e.button == ButtonMatrix.BUTTON_PLUS then
          if pressOrRepeat then ui.(tempEditValue := TempIncrease(ui.tempEditValue)) else ui
        else if e.button == ButtonMatrix.BUTTON_MINUS then
          if pressOrRepeat then ui.(tempEditValue := TempDecrease(ui.tempEditValue)) else ui
        else if e.button == ButtonMatrix.BUTTON_OK then
          if press then TempConfirm(ui) else ui
        else if e.button == ButtonMatrix.BUTTON_MODE then
          if press then TempCancel(ui) else ui
        else ui
      case _ => ui
  }

  /** `thermor_ui_handle_button`. */
  function HandleButton(ui: Ui, e: ButtonMatrix.Event, now: nat): (r: Ui)
    requires Valid(ui)
    ensures Valid(r)
    ensures r.lastActivityTime == now
    // with the child lock on, only a LOCK long press does anything, and it only locks the panel
    ensures ui.config.childLock && ui.state != Locked ==>
      r == ui.(lastActivityTime := now,
               state := if e.button == ButtonMatrix.BUTTON_LOCK && e.kind == ButtonMatrix.LongPress then Locked else ui.state)
    // when locked, only a LOCK long press does anything, and it unlocks to NORMAL
    ensures ui.state == Locked ==>
      r == ui.(lastActivityTime := now,
               state := if e.button == ButtonMatrix.BUTTON_LOCK && e.kind == ButtonMatrix.LongPress then Normal else Locked)
    // NORMAL: MODE cycles the mode, PLUS and MINUS adjust the comfort setpoint in comfort mode only
    ensures !ui.config.childLock && ui.state == Normal && e.button == ButtonMatrix.BUTTON_MODE && e.kind == ButtonMatrix.Press ==>
      r.config == ui.config.(mode := NextMode(ui.config.mode)) && r.state == Normal
    ensures !ui.config.childLock && ui.state == Normal && e.button in {ButtonMatrix.BUTTON_PLUS, ButtonMatrix.BUTTON_MINUS} ==>
      && r.state == Normal && r.config.mode == ui.config.mode
      && (ui.config.mode != Comfort ==> r.config == ui.config)
    ensures (&& !ui.config.childLock && ui.state == Normal && e.button == ButtonMatrix.BUTTON_PLUS
             && e.kind in {ButtonMatrix.Press, ButtonMatrix.Repeat} && ui.config.mode == Comfort) ==>
      r.config == ui.config.(comfortTemp := TempIncrease(ui.config.comfortTemp))
    ensures (&& !ui.config.childLock && ui.state == Normal && e.button == ButtonMatrix.BUTTON_MINUS
             && e.kind in {ButtonMatrix.Press, ButtonMatrix.Repeat} && ui.config.mode == Comfort) ==>
      r.config == ui.config.(comfortTemp := TempDecrease(ui.config.comfortTemp))
  {
    Dispatch(ui.(lastActivityTime := now), e)
  }

  /** Once the child lock is on, no button sequence turns it off again: the
      lock check swallows every event before the NORMAL-state LOCK toggle
      or the menu's lock item can run. */
  lemma ChildLockIsPermanent(ui: Ui, e: ButtonMatrix.Event, now: nat)
    requires Valid(ui) && ui.config.childLock
    ensures HandleButton(ui, e, now).config == ui.config
  {
  }

  /** `thermor_ui_is_locked`. */
  predicate IsLocked(ui: Ui): (locked: bool)
    ensures ui.config.childLock ==> locked
    ensures !locked <==> ui.state != Locked && !ui.config.childLock
  {
    ui.state == Locked || ui.config.childLock
  }

  /** While the panel reads as locked, buttons never change the configuration. */
  lemma LockedPanelKeepsConfig(ui: Ui, e: ButtonMatrix.Event, now: nat)
    requires Valid(ui) && IsLocked(ui)
    ensures HandleButton(ui, e, now).config == ui.config
    ensures IsLocked(HandleButton(ui, e, now)) || (e.button == ButtonMatrix.BUTTON_LOCK && e.kind == ButtonMatrix.LongPress)
  {
  }

  /** Minutes since midnight, as the source computes `hour * 60 + minute`. */
  function Minutes(t: Time): nat
  {
    t.hour * 60 + t.minute
  }

  /** A slot is in force at `minutes` when it is used and has started. */
  predicate Qualifies(s: Slot, minutes: nat)
  {
    s.mode != Off && Minutes(s.start) <= minutes
  }

  /** The scan from slot `k - 1` down to slot 0 for the first qualifying slot. */
  function LatestSlot(slots: seq<Slot>, minutes: nat, k: nat): (r: Option<nat>)
    requires k <= |slots|
    ensures r.Some? ==> r.value < k && Qualifies(slots[r.value], minutes)
    ensures r.Some? ==> forall j :: r.value < j < k ==> !Qualifies(slots[j], minutes)
    ensures r.None? ==> forall j :: 0 <= j < k ==> !Qualifies(slots[j], minutes)
    decreases k
  {
    if k == 0 then None
    else if Qualifies(slots[k - 1], minutes) then Some(k - 1)
    else LatestSlot(slots, minutes, k - 1)
  }

  /** The setpoint a scheduled mode stands for; eco for anything unhandled. */
  function ModeSetpoint(c: Config, m: Mode): (t: int)
    ensures m == Comfort ==> t == c.comfortTemp
    ensures m == Frost ==> t == c.frostTemp
    ensures m !in {Comfort, Frost} ==> t == c.ecoTemp
  {
    match m
    case Comfort => c.comfortTemp
    case Eco => c.ecoTemp
    case Frost => c.frostTemp
    case _ => c.ecoTemp
  }

  /** The setpoint the weekly schedule asks for now: that of the latest
      used slot of today that has started, eco when none has. */
  function ScheduledTarget(c: Config): (t: int)
    requires ConfigValid(c)
    ensures var slots := c.schedule[c.currentTime.dayOfWeek];
      var now := Minutes(c.currentTime);
      && (forall j :: 0 <= j < SLOTS && Qualifies(slots[j], now) && (forall k :: j < k < SLOTS ==> !Qualifies(slots[k], now)) ==>
            t == ModeSetpoint(c, slots[j].mode))
      && ((forall j :: 0 <= j < SLOTS ==> !Qualifies(slots[j], now)) ==> t == c.ecoTemp)
    ensures InRange(t)
  {
    var slots := c.schedule[c.currentTime.dayOfWeek];
    match LatestSlot(slots, Minutes(c.currentTime), SLOTS)
    case None => c.ecoTemp
    case Some(j) => ModeSetpoint(c, slots[j].mode)
  }

  /** `thermor_ui_get_target_temperature`, in half degrees: the stored
      target outside PROG mode, the schedule's setpoint in it. */
  function GetTargetTemperature(ui: Ui): (t: int)
    requires Valid(ui)
    ensures ui.config.mode != Prog ==> t == ui.config.targetTemp
    ensures ui.config.mode == Prog ==> t == ScheduledTarget(ui.config) && InRange(t)
  {
    if ui.config.mode != Prog then ui.config.targetTemp else ScheduledTarget(ui.config)
  }

  /** With the default schedule, Monday 7:30 in PROG mode asks for the comfort setpoint and 12:00 for eco. */
  lemma DefaultScheduleExample(now: nat)
    ensures var ui := Init(now);
      var prog := ui.(config := ui.config.(mode := Prog, currentTime := Time(7, 30, 0)));
      GetTargetTemperature(prog) == ui.config.comfortTemp
    ensures var ui := Init(now);
      GetTargetTemperature(ui.(config := ui.config.(mode := Prog))) == ui.config.ecoTemp
  {
    var ui := Init(now);
    assert LatestSlot(DefaultDay, 450, SLOTS) == Some(0);
    assert LatestSlot(DefaultDay, 720, SLOTS) == Some(1);
  }

  /** The target that `update` derives from the mode: zero in OFF, a
      setpoint inside the limits otherwise. */
  function ModeTarget(c: Config): (t: int)
    requires ConfigValid(c)
    ensures c.mode == Off ==> t == 0
    ensures c.mode == Comfort ==> t == c.comfortTemp
    ensures c.mode == Eco ==> t == c.ecoTemp
    ensures c.mode == Frost ==> t == c.frostTemp
    ensures c.mode == Prog ==> t == ScheduledTarget(c)
    ensures c.mode != Off ==> InRange(t)
  {
    match c.mode
    case Comfort => c.comfortTemp
    case Eco => c.ecoTemp
    case Frost => c.frostTemp
    case Prog => ScheduledTarget(c)
    case Off => 0
  }

  /** The source subtracts these timestamps unsigned: they are never in the future. */
  predicate TimesNotAfter(ui: Ui, now: nat)
  {
    ui.lastActivityTime <= now && ui.displayUpdateTime <= now
  }

  /** `thermor_ui_update` without the display refresh: menu timeout, blink
      toggle, and the target derived from the mode. */
  function Update(ui: Ui, now: nat): (r: Ui)
    requires Valid(ui) && TimesNotAfter(ui, now)
    ensures Valid(r) && TimesNotAfter(r, now)
    ensures ui.state == Menu && now - ui.lastActivityTime > MENU_TIMEOUT_MS ==> r.state == Normal
    ensures !(ui.state == Menu && now - ui.lastActivityTime > MENU_TIMEOUT_MS) ==> r.state == ui.state
    ensures now - ui.displayUpdateTime > BLINK_PERIOD_MS ==>
      r.displayBlinkState == !ui.displayBlinkState && r.displayUpdateTime == now
    ensures now - ui.displayUpdateTime <= BLINK_PERIOD_MS ==> r.displayBlinkState == ui.displayBlinkState
    ensures r.config == ui.config.(targetTemp := ModeTarget(ui.config))
  {
    var ui1 := if ui.state == Menu && now - ui.lastActivityTime > MENU_TIMEOUT_MS then ExitMenu(ui) else ui;
    var ui2 := if now - ui1.displayUpdateTime > BLINK_PERIOD_MS
      then ui1.(displayUpdateTime := now, displayBlinkState := !ui1.displayBlinkState) else ui1;
    var target := ModeTarget(ui.config);
    TargetKeepsValid(ui.config, target);
    ui2.(config := ui.config.(targetTemp := target))
  }

  /** The target is no part of what `ConfigValid` asks of a configuration. */
  lemma TargetKeepsValid(c: Config, t: int)
    requires ConfigValid(c)
    ensures ConfigValid(c.(targetTemp := t))
  {
  }

  /** After `update`, the target read by the control loop follows the mode:
      nothing in OFF, the scheduled setpoint in PROG, the mode's setpoint otherwise. */
  lemma UpdateTargetFollowsMode(ui: Ui, now: nat)
    requires Valid(ui) && TimesNotAfter(ui, now)
    ensures ui.config.mode == Off ==> GetTargetTemperature(Update(ui, now)) == 0
    ensures ui.config.mode == Comfort ==> GetTargetTemperature(Update(ui, now)) == ui.config.comfortTemp
    ensures ui.config.mode == Prog ==> GetTargetTemperature(Update(ui, now)) == GetTargetTemperature(ui)
    ensures ui.config.mode != Off ==> InRange(GetTargetTemperature(Update(ui, now)))
  {
  }

  /** `thermor_ui_set_temperature`. */
  function SetTemperature(ui: Ui, t: real): (r: Ui)
    ensures r == ui.(config := ui.config.(currentTemp := t))
  {
    ui.(config := ui.config.(currentTemp := t))
  }

  /** `thermor_ui_set_heating_state`. */
  function SetHeatingState(ui: Ui, active: bool): (r: Ui)
    ensures r == ui.(config := ui.config.(heatingActive := active))
  {
    ui.(config := ui.config.(heatingActive := active))
  }

  /** `thermor_ui_set_presence`. */
  function SetPresence(ui: Ui, detected: bool): (r: Ui)
    ensures r == ui.(config := ui.config.(presenceDetected := detected))
  {
    ui.(config := ui.config.(presenceDetected := detected))
  }

  /** `thermor_ui_set_window_state`. */
  function SetWindowState(ui: Ui, open: bool): (r: Ui)
    ensures r == ui.(config := ui.config.(windowOpen := open))
  {
    ui.(config := ui.config.(windowOpen := open))
  }
}

=== FILE: triac_control.dfy ===
/** The triac phase-control channel table: at most three channels, each
    holding a power percentage, the firing delay after the mains zero
    crossing that realises it, and an enabled flag, plus the mapping between
    power and delay.  The interrupt handlers that consume the table are not
    modelled; every operation here is the task-context update done under the
    table's mutex, which the model drops. */
module TriacControl {
  import opened Common

  const MAX_TRIACS: nat := 3

  /** Firing delay used for full power, in microseconds. */
  const MIN_DELAY_US: nat := 100

  /** `M_PI` of the C math library. */
  const PI: real := 3.14159265358979323846

  /** `triac_config_t` without its GPIO pin numbers. */
  datatype Config = Config(numTriacs: uint8, maxPowerWatts: uint16, mainsFrequency: uint8)

  /** `triac_state_t`. */
  datatype Channel = Channel(powerLevel: uint8, firingDelay: uint16, enabled: bool)

  /** The module's global configuration and its `MAX_TRIACS` channel records. */
  datatype Triacs = Triacs(cfg: Config, channels: seq<Channel>)

  /** Shape guaranteed by a successful `Init`. */
  predicate WellFormed(t: Triacs)
  {
    |t.channels| == MAX_TRIACS && 1 <= t.cfg.numTriacs as nat <= MAX_TRIACS
  }

  /** The C library's `cos` is only known to range over [-1, 1]. */
  ghost predicate CosBounded(cos: real -> real)
  {
    forall x :: -1.0 <= cos(x) <= 1.0
  }

  /** The C library's `acos` is only known to range over [0, pi]. */
  ghost predicate AcosBounded(acos: real -> real)
  {
    forall x :: 0.0 <= acos(x) <= PI
  }

  /** Half a mains period in microseconds; any frequency other than 60 Hz is treated as 50 Hz. */
  function HalfCycleUs(frequency: uint8): (us: nat)
    ensures us == 8333 || us == 10000
    ensures us == 8333 <==> frequency == 60
  {
    if frequency == 60 then 8333 else 10000
  }

  /** `power_percent > 100` is stored as 100. */
  function Clamp100(power: uint8): (p: uint8)
    ensures p <= 100
    ensures power <= 100 ==> p == power
    ensures power > 100 ==> p == 100
  {
    if power > 100 then 100 else power
  }

  lemma ScaledRatioInRange(ratio: real, half: nat)
    requires 0.0 <= ratio <= 1.0
    ensures 0.0 <= ratio * half as real <= half as real
  {
  }

  /** Delay after the zero crossing at which the gate is pulsed for a power
      level.  Between the endpoints the delay is the half-cosine ratio of the
      half cycle; note that in that branch the delay grows with power, unlike
      at the endpoints.  The float-to-`uint16_t` cast truncates a
      non-negative value, which is `Floor`. */
  function PowerToFiringDelay(power: uint8, frequency: uint8, cos: real -> real): (delay: uint16)
    requires CosBounded(cos)
    ensures delay <= HalfCycleUs(frequency)
    ensures power >= 100 ==> delay == MIN_DELAY_US
    ensures power == 0 ==> delay == HalfCycleUs(frequency)
  {
    if power >= 100 then MIN_DELAY_US
    else if power == 0 then HalfCycleUs(frequency)
    else
      var angle := (1.0 - power as real / 100.0) * PI;
      var ratio := (1.0 + cos(angle)) / 2.0;
      var half := HalfCycleUs(frequency);
      ScaledRatioInRange(ratio, half);
      (ratio * half as real).Floor
  }

  lemma PowerRatioInRange(angle: real)
    requires 0.0 <= angle <= PI
    ensures 0.0 <= (1.0 - angle / PI) * 100.0 <= 100.0
  {
    assert 0.0 <= angle / PI <= 1.0;
  }

  /** Read-back of a power level from a firing delay, clamping the
      degenerate delays before the `acos` branch. */
  function FiringDelayToPower(delay: uint16, frequency: uint8, acos: real -> real): (power: uint8)
    requires AcosBounded(acos)
    ensures power <= 100
    ensures delay >= HalfCycleUs(frequency) ==> power == 0
    ensures delay <= MIN_DELAY_US ==> power == 100
  {
    var half := HalfCycleUs(frequency);
    if delay >= half then 0
    else if delay <= MIN_DELAY_US then 100
    else
      var ratio := delay as real / half as real;
      var angle := acos(2.0 * ratio - 1.0);
      PowerRatioInRange(angle);
      ((1.0 - angle / PI) * 100.0).Floor
  }

  /** At the two endpoints the delay mapping is inverted exactly. */
  lemma EndpointRoundTrip(power: uint8, frequency: uint8, cos: real -> real, acos: real -> real)
    requires CosBounded(cos) && AcosBounded(acos)
    requires power == 0 || power >= 100
    ensures FiringDelayToPower(PowerToFiringDelay(power, frequency, cos), frequency, acos) == Clamp100(power)
  {
  }

  /** The per-channel part of the table invariant that does not depend on the delay mapping. */
  predicate EnabledImpliesPowered(t: Triacs)
  {
    forall i :: 0 <= i < |t.channels| ==> (t.channels[i].enabled ==> t.channels[i].powerLevel > 0)
  }

  /** A channel record as every setter leaves it: a power level of at most
      100, enabled only when powered, and the delay the mapping gives. */
  ghost predicate ChannelValid(c: Channel, frequency: uint8, cos: real -> real)
    requires CosBounded(cos)
  {
    && c.powerLevel <= 100
    && (c.enabled ==> c.powerLevel > 0)
    && c.firingDelay == PowerToFiringDelay(c.powerLevel, frequency, cos)
  }

  /** The invariant of the channel table. */
  ghost predicate Valid(t: Triacs, cos: real -> real)
  {
    && CosBounded(cos)
    && WellFormed(t)
    && forall i :: 0 <= i < |t.channels| ==> ChannelValid(t.channels[i], t.cfg.mainsFrequency, cos)
  }

  /** `triac_control_init`: validates the channel count, then starts every
      channel off (power 0, delay of a full half cycle, disabled).
      `mutexCreated` stands for the outcome of `xSemaphoreCreateMutex`. */
  function Init(cfg: Config, mutexCreated: bool): (r: Result<Triacs>)
    ensures r.Failure? <==> cfg.numTriacs == 0 || cfg.numTriacs as nat > MAX_TRIACS || !mutexCreated
    ensures cfg.numTriacs == 0 || cfg.numTriacs as nat > MAX_TRIACS ==> r == Failure(InvalidArg)
    ensures 1 <= cfg.numTriacs as nat <= MAX_TRIACS && !mutexCreated ==> r == Failure(NoMem)
    ensures r.Success? ==>
      && WellFormed(r.value)
      && r.value.cfg == cfg
      && forall i :: 0 <= i < MAX_TRIACS ==>
           r.value.channels[i] == Channel(0, HalfCycleUs(cfg.mainsFrequency), false)
  {
    if cfg.numTriacs == 0 || cfg.numTriacs as nat > MAX_TRIACS then Failure(InvalidArg)
    else if !mutexCreated then Failure(NoMem)
    else
      var off := Channel(0, HalfCycleUs(cfg.mainsFrequency), false);
      Success(Triacs(cfg, seq(MAX_TRIACS, _ => off)))
  }

  /** The initial table satisfies the invariant, whatever `cos` is. */
  lemma InitValid(cfg: Config, mutexCreated: bool, cos: real -> real)
    requires CosBounded(cos)
    ensures Init(cfg, mutexCreated).Success? ==> Valid(Init(cfg, mutexCreated).value, cos)
  {
  }

  /** One channel after a new (already clamped) power level is stored: the
      source only switches `enabled` on when it was off and off when the
      power is 0. */
  function ApplyPower(c: Channel, power: uint8, frequency: uint8, cos: real -> real): (c': Channel)
    requires CosBounded(cos) && power <= 100
    ensures c'.powerLevel == power
    ensures c'.enabled <==> power > 0
    ensures ChannelValid(c', frequency, cos)
  {
    var enabled :=
      if power > 0 && !c.enabled then true
      else if power == 0 then false
      else c.enabled;
    Channel(power, PowerToFiringDelay(power, frequency, cos), enabled)
  }

  /** `triac_control_set_power`: the same clamped power on every configured channel. */
  function SetPower(t: Triacs, power: uint8, cos: real -> real): (t': Triacs)
    requires WellFormed(t) && CosBounded(cos)
    ensures WellFormed(t') && t'.cfg == t.cfg
    ensures forall i :: 0 <= i < t.cfg.numTriacs as nat ==>
      && t'.channels[i].powerLevel == Clamp100(power)
      && t'.channels[i].firingDelay == PowerToFiringDelay(Clamp100(power), t.cfg.mainsFrequency, cos)
      && (t'.channels[i].enabled <==> Clamp100(power) > 0)
    ensures forall i :: t.cfg.numTriacs as nat <= i < MAX_TRIACS ==> t'.channels[i] == t.channels[i]
    ensures Valid(t, cos) ==> Valid(t', cos)
  {
    var p := Clamp100(power);
    var chs := seq(MAX_TRIACS, i requires 0 <= i < MAX_TRIACS =>
      if i < t.cfg.numTriacs as nat then ApplyPower(t.channels[i], p, t.cfg.mainsFrequency, cos)
      else t.channels[i]);
    t.(channels := chs)
  }

  /** `triac_control_set_triac_power`: one channel, or `INVALID_ARG` and no change. */
  function SetTriacPower(t: Triacs, index: uint8, power: uint8, cos: real -> real): (r: (Status, Triacs))
    requires WellFormed(t) && CosBounded(cos)
    ensures index >= t.cfg.numTriacs ==> r == (InvalidArg, t)
    ensures index < t.cfg.numTriacs ==>
      && r.0 == Ok
      && WellFormed(r.1) && r.1.cfg == t.cfg
      && r.1.channels[index].powerLevel == Clamp100(power)
      && r.1.channels[index].firingDelay == PowerToFiringDelay(Clamp100(power), t.cfg.mainsFrequency, cos)
      && (r.1.channels[index].enabled <==> Clamp100(power) > 0)
      && forall j :: 0 <= j < MAX_TRIACS && j != index as nat ==> r.1.channels[j] == t.channels[j]
    ensures Valid(t, cos) ==> Valid(r.1, cos)
  {
    if index >= t.cfg.numTriacs then (InvalidArg, t)
    else
      var c := ApplyPower(t.channels[index], Clamp100(power), t.cfg.mainsFrequency, cos);
      (Ok, t.(channels := t.channels[index := c]))
  }

  /** `triac_control_get_power`: the first channel's power. */
  function GetPower(t: Triacs): (p: uint8)
    requires WellFormed(t)
    ensures p == GetTriacPower(t, 0)
  {
    t.channels[0].powerLevel
  }

  /** `triac_control_get_triac_power`: 0 for an unconfigured index. */
  function GetTriacPower(t: Triacs, index: uint8): (p: uint8)
    requires WellFormed(t)
    ensures index >= t.cfg.numTriacs ==> p == 0
  {
    if index >= t.cfg.numTriacs then 0 else t.channels[index].powerLevel
  }

  /** Whatever was stored by the setters is what the getters read back. */
  lemma ReadBack(t: Triacs, power: uint8, index: uint8, other: uint8, cos: real -> real)
    requires WellFormed(t) && CosBounded(cos)
    ensures GetPower(SetPower(t, power, cos)) == Clamp100(power)
    ensures index < t.cfg.numTriacs ==> GetTriacPower(SetPower(t, power, cos), index) == Clamp100(power)
    ensures index < t.cfg.numTriacs ==> GetTriacPower(SetTriacPower(t, index, power, cos).1, index) == Clamp100(power)
    ensures other != index ==> GetTriacPower(SetTriacPower(t, index, power, cos).1, other) == GetTriacPower(t, other)
  {
  }

  /** One channel after `enable`: on only if asked and powered; the power
      level and delay are never touched. */
  function ApplyEnable(c: Channel, on: bool): (c': Channel)
    ensures c'.powerLevel == c.powerLevel && c'.firingDelay == c.firingDelay
    ensures c'.enabled <==> on && c.powerLevel > 0
  {
    if on && c.powerLevel > 0 then c.(enabled := true) else c.(enabled := false)
  }

  /** `triac_control_enable`. */
  function Enable(t: Triacs, on: bool): (t': Triacs)
    requires WellFormed(t)
    ensures WellFormed(t') && t'.cfg == t.cfg
    ensures forall i :: 0 <= i < MAX_TRIACS ==>
      t'.channels[i].powerLevel == t.channels[i].powerLevel && t'.channels[i].firingDelay == t.channels[i].firingDelay
    ensures forall i :: 0 <= i < t.cfg.numTriacs as nat ==>
      (t'.channels[i].enabled <==> on && t.channels[i].powerLevel > 0)
    ensures forall i :: t.cfg.numTriacs as nat <= i < MAX_TRIACS ==> t'.channels[i] == t.channels[i]
    ensures EnabledImpliesPowered(t) ==> EnabledImpliesPowered(t')
  {
    var chs := seq(MAX_TRIACS, i requires 0 <= i < MAX_TRIACS =>
      if i < t.cfg.numTriacs as nat then ApplyEnable(t.channels[i], on) else t.channels[i]);
    t.(channels := chs)
  }

  /** `triac_control_enable_triac`. */
  function EnableTriac(t: Triacs, index: uint8, on: bool): (r: (Status, Triacs))
    requires WellFormed(t)
    ensures index >= t.cfg.numTriacs ==> r == (InvalidArg, t)
    ensures index < t.cfg.numTriacs ==>
      && r.0 == Ok
      && WellFormed(r.1) && r.1.cfg == t.cfg
      && r.1.channels[index].powerLevel == t.channels[index].powerLevel
      && r.1.channels[index].firingDelay == t.channels[index].firingDelay
      && (r.1.channels[index].enabled <==> on && t.channels[index].powerLevel > 0)
      && forall j :: 0 <= j < MAX_TRIACS && j != index as nat ==> r.1.channels[j] == t.channels[j]
    ensures EnabledImpliesPowered(t) ==> EnabledImpliesPowered(r.1)
  {
    if index >= t.cfg.numTriacs then (InvalidArg, t)
    else (Ok, t.(channels := t.channels[index := ApplyEnable(t.channels[index], on)]))
  }

  /** Neither enable call can break the table invariant. */
  lemma EnablePreservesValid(t: Triacs, index: uint8, on: bool, cos: real -> real)
    requires Valid(t, cos)
    ensures Valid(Enable(t, on), cos)
    ensures Valid(EnableTriac(t, index, on).1, cos)
  {
    var t' := Enable(t, on);
    forall i | 0 <= i < |t'.channels|
      ensures ChannelValid(t'.channels[i], t'.cfg.mainsFrequency, cos)
    {
      assert ChannelValid(t.channels[i], t.cfg.mainsFrequency, cos);
    }
  }

  /** `triac_control_is_enabled`: scans the configured channels and stops at the first enabled one. */
  method IsEnabled(t: Triacs) returns (enabled: bool)
    requires WellFormed(t)
    ensures enabled <==> exists i :: 0 <= i < t.cfg.numTriacs as nat && t.channels[i].enabled
  {
    var i := 0;
    while i < t.cfg.numTriacs as nat
      invariant 0 <= i <= t.cfg.numTriacs as nat
      invariant forall j :: 0 <= j < i ==> !t.channels[j].enabled
    {
      if t.channels[i].enabled {
        return true;
      }
      i := i + 1;
    }
    return false;
  }

  /** Watts one channel contributes: its share of the rated power when enabled. */
  function ChannelWatts(c: Channel, maxPowerWatts: nat): nat
  {
    if c.enabled then (c.powerLevel * maxPowerWatts) / 100 else 0
  }

  /** Watts of the first `n` channels. */
  function TotalWatts(chs: seq<Channel>, n: nat, maxPowerWatts: nat): nat
    requires n <= |chs|
  {
    if n == 0 then 0 else TotalWatts(chs, n - 1, maxPowerWatts) + ChannelWatts(chs[n - 1], maxPowerWatts)
  }

  /** With power levels of at most 100 % no channel exceeds the rated power,
      so `n` channels together stay under `n` times the rating. */
  lemma {:induction false} TotalWattsBound(chs: seq<Channel>, n: nat, maxPowerWatts: nat)
    requires n <= |chs|
    requires forall i :: 0 <= i < |chs| ==> chs[i].powerLevel <= 100
    ensures TotalWatts(chs, n, maxPowerWatts) <= n * maxPowerWatts
  {
    if n > 0 {
      TotalWattsBound(chs, n - 1, maxPowerWatts);
      var p := chs[n - 1].powerLevel;
      assert p * maxPowerWatts <= 100 * maxPowerWatts by {
        assert p <= 100;
      }
    }
  }

  /** `triac_control_get_actual_power_watts`: the watts of the enabled
      configured channels, divided by the channel count (the source treats the
      channels as sharing one load), truncated to `uint16_t`. */
  method GetActualPowerWatts(t: Triacs) returns (watts: uint16)
    requires WellFormed(t)
    ensures watts == (TotalWatts(t.channels, t.cfg.numTriacs as nat, t.cfg.maxPowerWatts as nat) / t.cfg.numTriacs as nat) % 0x1_0000
    ensures (forall i :: 0 <= i < |t.channels| ==> t.channels[i].powerLevel <= 100) ==> watts <= t.cfg.maxPowerWatts
  {
    var n, rating := t.cfg.numTriacs as nat, t.cfg.maxPowerWatts as nat;
    var total := 0;
    var i := 0;
    while i < n
      invariant 0 <= i <= n
      invariant total == TotalWatts(t.channels, i, rating)
    {
      if t.channels[i].enabled {
        total := total + (t.channels[i].powerLevel * rating) / 100;
      }
      i := i + 1;
    }
    var average := total / n;
    ghost var bounded := forall j :: 0 <= j < |t.channels| ==> t.channels[j].powerLevel <= 100;
    if bounded {
      TotalWattsBound(t.channels, n, rating);
      DivBound(total, n, rating);
      DivModUnique(average, 0x1_0000, 0, average);
    }
    watts := average % 0x1_0000;
  }

  lemma DivBound(total: nat, n: nat, m: nat)
    requires n > 0 && total <= n * m
    ensures total / n <= m
  {
    var q := total / n;
    assert n * q + total % n == total;
    assert n * q <= n * m;
    MulLeftCancel(n, q, m);
  }

  lemma MulLeftCancel(n: nat, a: nat, b: nat)
    requires n > 0 && n * a <= n * b
    ensures a <= b
  {
    assert n * (a - b) == n * a - n * b;
  }
}
